=== FILE: README.md ===
# Marching-competition scoring: a Dafny model

The system scores a marching competition ("lomba gerak jalan"). Teams
compete in categories made of a level (SD, SMP, SMA, UMUM) and a gender
(Putra, Putri). Judges posted along the route give each team a value per
criterion of their post. The core is the **score ledger** and the
**ranking engine**.

- **Score ledger.** It holds one raw entry per (team, post, judge). The
  client reducer and the score endpoint both upsert into it.
- **Ranking engine.** `calculateScores` sums each judge's scoped
  contribution into a team total. It orders a category's teams by total,
  highest first, with a stable sort.

Around the core sit small decision rules, each modelled here as a pure
function from the request and an abstract store to a status and the new
store:

- the bearer-token guard and the login check;
- the users endpoint (create, update, delete); its delete is modelled both
  as written and with the self-deletion check corrected (see Findings), and
  the endpoint uses the corrected one;
- the judge's scoring screen: scope, prefill, clamping and the saved entry;
- the administrator forms for users, teams and posts;
- the printable report: its categories, the judge columns grouped by post,
  the rank and the per-judge cells.

Layout, one module per file:

| file | module | what it covers |
|---|---|---|
| wrappers.dfy | Wrappers | `Option` |
| domain.dfy | Domain | the records of types.ts, `ToClient`, `FindUser`, `FindPost` |
| seqs.dfy | Seqs | `filter`, `findIndex`, `find`, `map`-replace and their laws |
| strings.dfy | Strings | `split`, `trim`, `toLowerCase`, `includes`, `padStart`, decimal numerals, code-unit order |
| stable_sort.dfy | StableSort | a stable insertion sort: sorted, a permutation, order kept among equals, and unique |
| ledger.dfy | Ledger | the client reducer (`appReducer`) and the score upsert it performs |
| ranking.dfy | Ranking | `calculateScores` |
| auth.dfy | Auth | `withAuth` |
| login.dfy | Login | the login endpoint |
| scores_api.dfy | ScoresApi | the score endpoint |
| users_api.dfy | UsersApi | the users endpoint |
| judge_portal.dfy | JudgePortal | the judge's scoring screen |
| manage_users.dfy | ManageUsers | the user administration form |
| manage_teams.dfy | ManageTeams | the team administration form |
| manage_posts.dfy | ManagePosts | the post administration form |
| report.dfy | Report | the printable report |

The following are parameters of the model, not definitions in it:

- JavaScript `parseInt(s, 10)` is a partial function `string -> Option<int>`
  (`None` is `NaN`).
- `ObjectId.isValid` is a predicate.
- The string form of `new ObjectId(id)` is a function `toId`.
- The `_id` the store gives an inserted document is `freshId`.
- `Date.now()` is `now`.

The ranking sums a map of scores, which needs an arbitrary choice of key,
so the ranking functions are ghost.

## Model

| member | source | states |
|---|---|---|
| Domain.ToClient | api/auth.ts:52-56 | The user handed to a handler or a client has no password, and every other field, the id included, is the stored one. |
| Domain.FindUser | context/AppContext.tsx:229 | The lookup finds no user exactly when no user has the id; a found user is in the list with that id. |
| Domain.FindPost | context/AppContext.tsx:230 | The lookup finds no post exactly when no post has the id; a found post is in the list with that id. |
| StableSort.Sort | context/AppContext.tsx:260 | The sort returns a permutation of its input that is sorted by the order, and it keeps the input order among equivalent elements. |
| StableSort.SortedStableIsUnique | context/AppContext.tsx:260 | Two sequences that are both sorted and have the same equivalence classes in the same order are equal: a stable sort has exactly one possible result. |
| StableSort.SortAllEquivalent | context/AppContext.tsx:260 | When all elements are equivalent, the sort leaves the sequence as it was. |
| Strings.Split | api/auth.ts:30 | Splitting yields at least one field, no field contains the separator, and a string without the separator is its own single field. |
| Strings.SplitAfterWord | api/auth.ts:30 | For a word followed by a space, the first field is the word and the second field runs up to the next space. |
| Strings.TrimEmptyIffBlank | pages/admin/ManagePosts.tsx:46 | A trimmed string is empty exactly when every character of the original is white space. |
| Strings.PaddedNumeralValue | pages/admin/ManageTeams.tsx:25 | A decimal numeral padded with leading zeros is all digits, at least as wide as asked, and reads back as the same number. |
| Strings.Lower | pages/judge/JudgePortal.tsx:116 | Lower-casing keeps the length and maps each character on its own. |
| Auth.Authenticate | api/auth.ts:21-63 | A missing header or one without the `Bearer ` prefix gets 401; an empty or invalid token gets 401; a token naming no user gets 401. The guard refuses with 403 exactly when the token names a stored user whose role is not allowed. An admitted user is that stored user without a password, with an allowed role. |
| Auth.TokenAfterBearer | api/auth.ts:30 | The token read from `Bearer <rest>` is `rest` up to its first space. |
| Auth.BearerAdmits | api/auth.ts:30-58 | A bearer header carrying a valid token of a stored user with an allowed role admits exactly that user, without password. |
| Auth.BearerForbidden | api/auth.ts:45-48 | The same header for a stored user whose role is not allowed is refused with 403. |
| Auth.TrailingFieldsIgnored | api/auth.ts:30 | Text after a second space in the header does not change the decision. |
| Login.FindByNameRole | api/login.ts:21 | The lookup by name and role finds no user exactly when none has both; a found user has both. |
| Login.HandleLogin | api/login.ts:8-49 | A method other than POST gets 405. A role other than admin or judge, or a missing name or password, gets 400. The reply is 401 exactly when no user has that name and role, the user has no password, or the password differs. A success returns the found user without its password. |
| Login.CorrectPasswordLogsIn | api/login.ts:20-45 | A stored admin or judge with a password who sends that password logs in and gets their record without the password. |
| Login.WrongPasswordRefused | api/login.ts:33-35 | Any other non-empty password is refused with 401. |
| Login.LoginThenAuthenticate | api/login.ts:44 | The user a login returns is admitted by the bearer guard when it uses its own id as the token. |
| Ledger.KeyIndex | context/AppContext.tsx:68 | The index is -1 exactly when no entry has the submitted key; otherwise it is the first entry with that key. |
| Ledger.Lookup | pages/judge/JudgePortal.tsx:37 | The lookup by (team, post, judge) finds nothing exactly when no entry has that key; a found entry is the first entry in the ledger with that key. |
| Ledger.Merge | context/AppContext.tsx:71 | The spread merge keeps the key and takes the submitted scores whole. Notes come from the submission when it has them and from the old entry otherwise. |
| Ledger.SubmitScore | context/AppContext.tsx:66-75 | An entry with the same key is replaced in place by its merge with the submission (`{...old, ...payload}`) and the length is kept; otherwise the submission itself is appended after the unchanged ledger. Every other index is untouched. |
| Ledger.SubmitStoresScores | context/AppContext.tsx:71 | After a submission, the entry found under its key holds exactly the submitted scores, and all of the submission when it has notes. |
| Ledger.SubmitKeepsOtherKeys | context/AppContext.tsx:68-74 | Lookups under every other key give what they gave before. |
| Ledger.SubmitPreservesUniqueKeys | context/AppContext.tsx:68-74 | A ledger with at most one entry per key keeps that property. |
| Ledger.SubmitIdempotent | context/AppContext.tsx:66-75 | Submitting the same entry twice gives the ledger of one submission. |
| Ledger.OverwriteNotMerge | context/AppContext.tsx:71 | `{c1: 50}` submitted over `{c1: 80, c2: 90}` leaves exactly `{c1: 50}`: there is no merge per criterion. |
| Ledger.NumberOrderIsPreorder | context/AppContext.tsx:54-55 | Ordering teams by number is total and transitive, so it can drive the sort. |
| Ledger.SortByNumber | context/AppContext.tsx:54-55 | The re-sorted team list is ordered by number and is a permutation of the input. |
| Ledger.Reduce | context/AppContext.tsx:46-80 | The score action changes only the ledger, the team actions only the teams, the user actions only the users and the post actions only the posts. Adding or updating a team leaves the teams sorted by number. Adding a team adds exactly that team, and updating one keeps the count. What each action does to its slice is stated by the lemmas in the rows below. |
| Ledger.SessionActionsTouchOnlyTheirFields | context/AppContext.tsx:48-52 | Setting the loading flag changes only that flag. An error is stored and clears the loading flag, and nothing else changes. A reload replaces the four lists, clears the loading flag and keeps the current user and the error. A login sets the current user and a logout clears it; both clear the loading flag and keep everything else. |
| Ledger.UpdateTeamReplaces | context/AppContext.tsx:55 | Updating a team gives, sorted by number, exactly the list in which every team with the payload's id is replaced by the payload: the same teams, each as often, with equal numbers in their list order. |
| Ledger.DeleteTeamRemovesOnlyThatId | context/AppContext.tsx:56 | After deleting a team, a team is listed exactly when it was listed before and has another id, and the survivors keep their order. |
| Ledger.AddPostAppends | context/AppContext.tsx:62 | Adding a post appends it after the unchanged list. |
| Ledger.UpdatePostReplaces | context/AppContext.tsx:63 | Updating a post keeps the count; each post with the payload's id becomes the payload and every other post stays where it was. |
| Ledger.DeletePostRemovesOnlyThatId | context/AppContext.tsx:64 | After deleting a post, a post is listed exactly when it was listed before and has another id, and the survivors keep their order. |
| Ledger.DeleteUserRemovesOnlyThatId | context/AppContext.tsx:60 | After a delete, no user with that id remains, every other user is kept, and exactly the users with that id are gone. |
| Ledger.AddThenDeleteUser | context/AppContext.tsx:58-60 | Adding a user with a fresh id and then deleting that id gives back the state. |
| Ledger.UpdateUserReplaces | context/AppContext.tsx:59 | An update replaces every user with the payload's id by the payload and leaves every other user and the rest of the state as they were; doing it twice is doing it once. |
| Ledger.AddUserAppends | context/AppContext.tsx:58 | Adding a user appends exactly that user after the unchanged list. |
| Ranking.SumOverPick | context/AppContext.tsx:234-239 | A sum over a score map does not depend on the order in which the criteria are visited. |
| Ranking.ContributionOfEmpty | context/AppContext.tsx:234-239 | An entry without values contributes 0. With the next three rows this characterises `Ranking.Contribution`, the per-judge sum `scorePerJudge`. |
| Ranking.ContributionIgnoresOutOfScope | context/AppContext.tsx:235-238 | A value for a criterion outside the judge's scope never changes the contribution. |
| Ranking.ContributionAddsInScope | context/AppContext.tsx:235-236 | A new value for a criterion in scope adds exactly itself. |
| Ranking.ContributionBounds | context/AppContext.tsx:234-239 | With values in [0, 100], a contribution lies between 0 and 100 times the number of counted criteria. |
| Ranking.ScopedJudgeExample | context/AppContext.tsx:232-239 | A judge assigned `c1` who enters `{c1: 70, c2: 99}` contributes 70. |
| Ranking.UnscopedJudgeExample | context/AppContext.tsx:232-239 | A judge with no assigned criteria who enters `{c1: 40, c2: 60}` contributes 100. |
| Ranking.OrElse | context/AppContext.tsx:244-246 | `x \|\| fallback`: the value when it is present and non-empty, the fallback otherwise. |
| Ranking.Detail | context/AppContext.tsx:229-248 | A stored judge keeps their id, is named by their name or `Unknown Judge` when it is empty, and is credited with the contribution over their own criteria. An unknown judge is listed as `unknown-judge` / `Unknown Judge` and counted with every criterion. A known post is named by its name or `Unknown Post` when it is empty; an unknown post is `Unknown Post`. |
| Ranking.AccumulateIsSumOfDetails | context/AppContext.tsx:241 | The running `totalScore` equals the sum of the listed judge scores. |
| Ranking.TeamTotal | context/AppContext.tsx:251-257 | A team's row carries its id, name and number and lists one detail per ledger entry for the team, in ledger order; its total is the sum of those details. |
| Ranking.TeamWithoutEntries | context/AppContext.tsx:225-257 | A team with no ledger entries totals 0 and lists no judge. |
| Ranking.CalculateScores | context/AppContext.tsx:220-261 | The ranking is non-increasing in total and a permutation of the category's rows, one per category team. Rows with equal totals keep the team-list order. |
| Ranking.RankingHoldsExactlyTheCategory | context/AppContext.tsx:222 | A row is in the ranking exactly when it is the row of a team whose level and gender are the category's. |
| Ranking.RankingIsTheStableOrder | context/AppContext.tsx:260 | Any ordering sorted by total that keeps the team-list order among equal totals is the ranking. |
| Ranking.RankingAfterReset | context/AppContext.tsx:220-261 | With an empty ledger every category team ranks with 0 and no judges, in team-list order. |
| Ranking.WorkedExample | context/AppContext.tsx:220-261 | One SD/Putra team. Its judge, assigned `c1` of a post with `c1` and `c2`, enters `{c1: 90, c2: 100}`. The team ranks alone with 90 and lists that judge once. |
| ScoresApi.Upsert | api/scores.ts:39-43 | The stored entry with the key takes the submitted scores and notes wholesale, or the submission is appended. No other entry changes. |
| ScoresApi.HandleScores | api/scores.ts:12-61 | A POST gets 403 exactly when a judge files under another id, and 200 exactly when it passes every check (own id for a judge, the three key fields, no roving value above 5); past the 403 a roving judge's value above 5 gets 400, and POST answers nothing but 200, 400 or 403. Success upserts the entry. DELETE succeeds exactly for an administrator and empties the ledger; anyone else gets 403. Other methods get 405. A refusal leaves the ledger unchanged. |
| ScoresApi.ScoresEndpoint | api/scores.ts:69 | A refusal by the guard is passed on with the ledger unchanged. An admitted judge or administrator is handled by `HandleScores` as that user, so only they change the ledger. |
| ScoresApi.UpsertPreservesUniqueKeys | api/scores.ts:39-43 | The server keeps at most one entry per key. |
| ScoresApi.UpsertMatchesClient | api/scores.ts:39-43 | Server and client ledgers agree entry by entry except perhaps in the notes, and agree wholly when the submission has notes. |
| ScoresApi.NotesDivergeWithoutNotes | api/scores.ts:40 | A resubmission without notes clears the stored notes on the server, while the client's copy keeps the old notes. |
| ScoresApi.JudgeTouchesOnlyOwnEntries | api/scores.ts:18-21 | A judge's request never changes what is stored under another judge's id. |
| ScoresApi.UpsertThenLookup | api/scores.ts:39-43 | After an upsert, the lookup under the entry's key finds exactly the submitted entry. |
| ScoresApi.UpsertKeepsOtherKeys | api/scores.ts:39-43 | Lookups under other keys are unchanged by an upsert. |
| ScoresApi.AdminSubmitsForAnyJudge | api/scores.ts:18 | A non-roving administrator's complete submission succeeds under any judge id and is then found under its key. |
| ScoresApi.RovingValuesCapped | api/scores.ts:29-37 | Whatever a roving judge manages to store holds no value above 5. |
| ScoresApi.AnonymousChangesNothing | api/scores.ts:69 | Without an Authorization header the reply is 401 and the ledger is unchanged. |
| UsersApi.NewDoc | api/users.ts:22-27 | The inserted document has the fresh id and the body's fields. A new admin created by anyone but the super administrator has no permissions. |
| UsersApi.CreateUser | api/users.ts:14-32 | An admin without a password gets 400 and nothing is stored. Otherwise the reply is 201, the document is appended, and the reply carries it without the password under the fresh id. |
| UsersApi.ApplyPatch | api/users.ts:41-52 | The id is kept. An empty or absent password leaves the stored one. Anyone but the super administrator leaves the permissions, and so does a super administrator who sends none. Each of name, role, post, criteria and roving flag takes the sent value when sent and keeps the stored one otherwise. |
| UsersApi.UpdateUser | api/users.ts:34-55 | A missing id gets 400 and an invalid one 500. Otherwise the reply is 200, the first user with that id becomes the patched user, and every other user stays as it was. A caller who is not the super administrator never changes any permissions. |
| UsersApi.RemoveFirst | api/users.ts:82 | Deleting by id removes exactly the first user with that id, or nothing when there is none. |
| UsersApi.RemoveUserAsWritten | api/users.ts:56-85 | The delete branch as written. It gives 400 exactly for a missing or invalid id and 403 when the raw id equals the caller's. Past those, it gives 404 exactly when no user has the resolved id and 403 for an admin target when the caller is not the super administrator. It succeeds otherwise, and a success removes the first user with the resolved id. Every refusal leaves the store unchanged. |
| UsersApi.SelfDeletionSlipsThrough | api/users.ts:63-82 | The super administrator with id `abc` who sends `ABC` passes the self check and deletes their own record. |
| UsersApi.RemoveUser | api/users.ts:56-85 | The corrected delete branch: 403 also when the resolved id is the caller's. It gives 400 exactly for a missing or invalid id. For another user's id, it gives 404 exactly when no user has it and 403 for an admin target when the caller is not the super administrator, and succeeds otherwise. A success removes the first user with that id, who is not the caller. |
| UsersApi.RemoveUserDiffersOnlyOnRespelledSelf | api/users.ts:63-82 | The corrected and the as-written delete branches agree on every request except one whose id resolves to the caller's own but is spelled differently, which the corrected branch refuses with 403. |
| UsersApi.RemoveFirstKeepsOthers | api/users.ts:82 | Deleting one id leaves the lookup of every other id as it was. |
| UsersApi.CallerSurvivesRemoval | api/users.ts:63-66 | However the id is spelled, the caller's own record survives a delete. |
| UsersApi.HandleUsers | api/users.ts:13-89 | POST is handled by `CreateUser`, PUT by `UpdateUser` and DELETE by the corrected `RemoveUser`; other methods get 405. Only a 200 or 201 changes the store. A created user is returned without a password. |
| UsersApi.UsersEndpoint | api/users.ts:96 | A refusal by the guard is passed on unchanged. An admitted administrator is handled by `HandleUsers` as that user, so only they change the store. |
| UsersApi.CreateThenRemove | api/users.ts:14-85 | Creating a user and deleting it by its new id restores the store. |
| UsersApi.PasswordOnlyPatch | api/users.ts:41-52 | A patch with only the id and a non-empty password changes only the password. |
| UsersApi.ApplyPatchIdempotent | api/users.ts:52 | Applying the same patch twice is applying it once. |
| JudgePortal.Assign | pages/judge/JudgePortal.tsx:18-32 | Without a logged-in user with a post, the assignment stays as it was. Otherwise the post is looked up. With no assigned ids the criteria are all of the post's. With ids, a criterion is kept exactly when its id is assigned. |
| JudgePortal.AssignKeepsPostOrder | pages/judge/JudgePortal.tsx:23-25 | With a non-empty assignment the judge's criteria are exactly the post's criteria whose ids are assigned, and they appear in the order the post lists them. |
| JudgePortal.Clamp | pages/judge/JudgePortal.tsx:54 | The result lies in [0, 100], equals the input inside that range, and is the nearer bound outside it. |
| JudgePortal.Typed | pages/judge/JudgePortal.tsx:49-56 | An empty input stays empty, unparseable text stays as typed, and a parsed number is stored clamped. |
| JudgePortal.ScoreChange | pages/judge/JudgePortal.tsx:58-64 | Exactly one field of one team's row takes the typed value; every other row and field is unchanged. |
| JudgePortal.SaveValue | pages/judge/JudgePortal.tsx:76-83 | A missing, empty or unparseable field gives 0, a number gives itself clamped, and every result lies in [0, 100]. |
| JudgePortal.HandleSave | pages/judge/JudgePortal.tsx:67-91 | Nothing is sent without a post and a user. Otherwise the entry carries the team, the assigned post and the user's id, and no notes. Its keys are exactly the judge's criteria. Each value is the form field for that criterion as the save converts it, lies in [0, 100], and is 0 for an untouched criterion. |
| JudgePortal.ExistingEntry | pages/judge/JudgePortal.tsx:37 | Without a user or a post there is no existing entry. With both, an entry is found exactly when the ledger holds this judge's entry for this team at the assigned post, and the one found is the first such entry. |
| JudgePortal.Prefill | pages/judge/JudgePortal.tsx:34-46 | Every team gets a row: the values of its existing entry, or an empty row when there is none. |
| JudgePortal.PrefillThenSave | pages/judge/JudgePortal.tsx:34-91 | Reopening the screen and saving without edits sends the stored values again, when they cover the judge's criteria and lie in [0, 100]. |
| JudgePortal.SaveRowOfScores | pages/judge/JudgePortal.tsx:72-84 | A row that shows exactly some in-range values over the judge's criteria is saved as those values. |
| JudgePortal.TypeThenSave | pages/judge/JudgePortal.tsx:49-84 | A parseable value typed into a field is saved clamped, and the other fields save as before. |
| JudgePortal.SavedEntryCountsWhole | pages/judge/JudgePortal.tsx:24 | Every criterion in a saved entry is in the judge's scope, so the ranking counts all of the entry's values. |
| JudgePortal.VisibleTeams | pages/judge/JudgePortal.tsx:115-117 | A team is shown exactly when its lower-cased name contains the lower-cased term or its number contains the term. The list is sorted by number and is a reordering of the matching teams, each as often as it occurs; teams with equal numbers keep their list order. |
| JudgePortal.EmptySearchShowsAll | pages/judge/JudgePortal.tsx:116 | An empty search shows every team. |
| ManageUsers.OpenModal | pages/admin/ManageUsers.tsx:28-39 | A new user's form is a blank judge form. An edit copies the name and role and clears the password. A judge keeps their post and criteria, and an admin keeps their permissions. |
| ManageUsers.AvailableCriteria | pages/admin/ManageUsers.tsx:41-48 | Criteria are offered only to a judge with a post: that post's criteria, or none when the post is unknown. |
| ManageUsers.OnRoleChange | pages/admin/ManageUsers.tsx:50-55 | Switching to judge empties the permissions and changes nothing else. |
| ManageUsers.PostChange | pages/admin/ManageUsers.tsx:57-61 | Choosing a post clears the chosen criteria. An empty choice means no post. Nothing else changes. |
| ManageUsers.Toggle | pages/admin/ManageUsers.tsx:63-77 | The toggled id is present afterwards exactly when it was absent before; every other id keeps its presence. A present id is removed with the others kept in order; an absent one is appended at the end. |
| ManageUsers.ToggleTwice | pages/admin/ManageUsers.tsx:63-69 | Toggling an absent id twice gives back the same list; toggling any id twice gives back the same set. |
| ManageUsers.ToggleKeepsNoDuplicates | pages/admin/ManageUsers.tsx:63-69 | Toggling never introduces a duplicate. |
| ManageUsers.CriteriaChange | pages/admin/ManageUsers.tsx:63-69 | The criterion is chosen afterwards exactly when it was not before; nothing else changes. |
| ManageUsers.PermissionChange | pages/admin/ManageUsers.tsx:71-77 | The permission is granted afterwards exactly when it was not before; nothing else changes. |
| ManageUsers.NewUserPayload | pages/admin/ManageUsers.tsx:100-107 | A new user's body carries a password and permissions only for an admin, and a post and criteria only for a judge. |
| ManageUsers.UpdatePayload | pages/admin/ManageUsers.tsx:89-97 | An edit keeps the id and sends the form's fields. Permissions are sent only for an admin. A typed password replaces the old one only for an admin. |
| ManageUsers.ClearedPostNotStored | pages/admin/ManageUsers.tsx:93 | A judge whose post is cleared in the form is shown without a post but keeps the old post on the server, since an undefined field is not sent. |
| ManageUsers.AsPatch | pages/admin/ManageUsers.tsx:89-98 | The payload sent for an edit carries the user's id, password and post as they are: an undefined password or post is a field not sent. |
| ManageUsers.PatchStoresEdit | api/users.ts:41-52 | A super administrator's edit, sent through `AsPatch`, is stored exactly as the form showed it, unless a blank password or a cleared post meets a different stored one. |
| ManageUsers.NewJudgeStoredWithoutPassword | pages/admin/ManageUsers.tsx:100-108 | A new judge is stored with no password, no permissions and the chosen post. |
| ManageUsers.HandleDelete | pages/admin/ManageUsers.tsx:119-134 | The guards run in order, each decision exactly when its guard holds and the earlier ones do not. Deleting oneself is refused. Deleting an admin is refused unless one is the super administrator, and refused again when at most one admin exists. |
| ManageUsers.HandleDeleteMatchesButton | pages/admin/ManageUsers.tsx:166-170 | A deletion reaches the confirmation exactly when the row's delete button is enabled (`ManageUsers.CanDelete`, the row's `canDelete`) and the target is not the last admin. |
| ManageUsers.ConfirmedDeletionSucceeds | pages/admin/ManageUsers.tsx:119-136 | A deletion the form confirms, of a stored user, succeeds on the server, through the corrected and through the as-written delete branch. |
| ManageUsers.TwoAdminsCounted | pages/admin/ManageUsers.tsx:130 | Two different administrators in the list make an admin count of at least two. |
| ManageUsers.ServerNeverRemovesLastAdmin | api/users.ts:63-82 | The server has no last-admin rule. Still, when the as-written delete branch lets an administrator delete an administrator whose resolved id is not their own, at least two administrators existed. |
| ManageUsers.LastAdminRemovedAsWritten | api/users.ts:63-82 | Without that proviso the as-written branch removes the only administrator: the super administrator deleting their own id spelled in upper case. |
| ManageUsers.CorrectedServerNeverRemovesLastAdmin | api/users.ts:63-82 | With the corrected self check, a successful deletion of an administrator by an administrator always leaves one. |
| ManageTeams.MaxParsed | pages/admin/ManageTeams.tsx:24 | `Math.max` over the parsed numbers is `NaN` exactly when one of them is; otherwise it is one of them and at least every one. |
| ManageTeams.Parsed | pages/admin/ManageTeams.tsx:24 | Each team's number is parsed in list order. |
| ManageTeams.NextNumber | pages/admin/ManageTeams.tsx:24-25 | The proposal has at least three characters. It is `001` for the first team and `NaN` once some number does not parse. |
| ManageTeams.NextNumberIsFresh | pages/admin/ManageTeams.tsx:24-25 | When every number parses to a natural number, the proposal parses back to 1 for the first team and otherwise to one more than some existing number, above all of them, so no team already has it. |
| ManageTeams.OpenModal | pages/admin/ManageTeams.tsx:18-30 | A new team's form is blank, SMA and Putra, with the proposed number. |
| ManageTeams.Submit | pages/admin/ManageTeams.tsx:37-46 | An edit is sent as an update under the team's old id, carrying the form's name, number, level and gender. A new team is sent as an addition of those four fields. |
| ManageTeams.EditUnchangedKeepsTeam | pages/admin/ManageTeams.tsx:18-42 | Opening a team and saving without edits sends that very team back. |
| ManageTeams.ReopenShowsEdit | pages/admin/ManageTeams.tsx:18-46 | Reopening the team an edit sent shows the edited fields under the same id, and saving that form unchanged sends the same team again. |
| ManagePosts.BlankCriterion | pages/admin/ManagePosts.tsx:35 | A blank criterion has an empty name and a maximum of 100. |
| ManagePosts.OpenModal | pages/admin/ManagePosts.tsx:16-21 | A new post starts with one blank criterion; an edit starts with the post's name and its criteria in order. |
| ManagePosts.AddCriterion | pages/admin/ManagePosts.tsx:34-36 | Exactly one criterion, the blank one stamped with the clock, is appended after the unchanged list. |
| ManagePosts.DropIndex | pages/admin/ManagePosts.tsx:39 | Exactly the element at the index is removed and the rest keep their order; an index out of range removes nothing. |
| ManagePosts.RenameCriterion | pages/admin/ManagePosts.tsx:28-32 | Only the named criterion at the index changes. |
| ManagePosts.RemoveCriterion | pages/admin/ManagePosts.tsx:38-40 | Removing an index in range drops exactly that criterion and keeps the others in order; any other index changes nothing. |
| ManagePosts.AddThenRemoveCriterion | pages/admin/ManagePosts.tsx:34-40 | Removing the criterion just added gives back the form as it was. |
| ManagePosts.FinalCriteria | pages/admin/ManagePosts.tsx:45-47 | At most as many criteria are sent as there are drafts, and every one has a maximum of 100. |
| ManagePosts.NamedIffHasText | pages/admin/ManagePosts.tsx:46 | A draft survives the clean-up exactly when its name is present and has a character that is not white space. |
| ManagePosts.FinalCriteriaPerDraft | pages/admin/ManagePosts.tsx:45-47 | The clean-up works draft by draft, in order: a draft is sent with its id, its name and a maximum of 100 exactly when its name has text. |
| ManagePosts.FinalCriteriaAreNamed | pages/admin/ManagePosts.tsx:45-47 | Every criterion sent has a name with text and a maximum of 100, and comes from a draft with that id and name. |
| ManagePosts.RenamedCriterionSent | pages/admin/ManagePosts.tsx:28-47 | A criterion renamed to a name with text is sent under its id with that name. |
| ManagePosts.BlankCriterionDropped | pages/admin/ManagePosts.tsx:34-47 | A criterion added with `AddCriterion` and left blank changes neither the kept criteria nor anything that is sent. |
| ManagePosts.Submit | pages/admin/ManagePosts.tsx:42-56 | An edit is sent as an update under the post's old id with the cleaned criteria; a new post is sent with the cleaned criteria. |
| ManagePosts.EditUnchangedKeepsPost | pages/admin/ManagePosts.tsx:16-52 | Opening a post whose criteria all have names with text and a maximum of 100, and saving without edits, sends that very post back. |
| Report.Categories | pages/admin/ReportPage.tsx:14-19 | There are 4 × 2 = 8 categories, level-major. Every (level, gender) pair appears, and each appears exactly once. |
| Report.Rendered | pages/admin/ReportPage.tsx:42-47 | A category gets a table exactly when some team belongs to it. |
| Report.CategoryHasRows | pages/admin/ReportPage.tsx:43-47 | A category's ranking is non-empty exactly when some team belongs to it. |
| Report.PostedJudges | pages/admin/ReportPage.tsx:49 | Exactly the judges with an assigned post get a column, in the order of the user list. |
| Report.GroupJudgesDescribes | pages/admin/ReportPage.tsx:50-61 | Grouping judges who have posts (`Report.GroupJudges`, the `reduce`) gives one group per post. Each group is labelled with its post's name, or `Pos Tidak Ditemukan` for an unknown post, and holds exactly that post's judges in list order. Every judge is in some group. |
| Report.GroupingDescribesPostedJudges | pages/admin/ReportPage.tsx:49-61 | The report's groups are exactly those groups for the judges with an assigned post. |
| Report.JoinExistingGroup | pages/admin/ReportPage.tsx:59 | One step of the `reduce` (`Report.AddJudge`): a judge whose post already has a group joins the end of it, and the grouping still holds. |
| Report.OpenNewGroup | pages/admin/ReportPage.tsx:52-59 | One step of the `reduce` (`Report.AddJudge`): a judge whose post has no group opens a labelled one, and the grouping still holds. |
| Report.BetterRankNeverLowerTotal | pages/admin/ReportPage.tsx:113-115 | The rank shown (`Report.RankAt`, `index + 1`) is the 1-based position, and a team ranked above another never has the lower total. |
| Report.Cell | pages/admin/ReportPage.tsx:119-121 | A cell shows `-` exactly when no detail of the row names the judge. |
| Report.DetailNamesJudge | context/AppContext.tsx:244 | For a stored judge with an ordinary id, a detail names that judge exactly when its entry was filed under that id. |
| Report.CellShowsFirstEntry | pages/admin/ReportPage.tsx:119-121 | A stored judge's cell shows the scoped contribution of their first ledger entry for the team, or `-` when they have filed none. |

## Left out

- **Effects.** The following are not modelled. Each handler is a pure
  function of the request and the stored lists it reads.
  - the database calls and the `fetch` wrapper;
  - React state, effects and rendering, timers, `localStorage`;
  - `window.confirm` and `alert`.
- **Internal-error replies.** The 500 replies from a failing store are left
  out. The one exception is the PUT of an invalid id, where `new ObjectId`
  throws.
- **Store parameters.** `ObjectId.isValid`, the `_id` conversion, the id of
  an inserted document and `Date.now()` are parameters, not definitions.
- **Parsing.** JavaScript `parseInt` is an abstract partial function.
- ManageTeams.NextNumberIsFresh: assumes that `parseInt` reads a string of
  plain decimal digits as its value and that every existing number parses
  to a natural number; negative or unparseable numbers are outside it.
- UsersApi.HandleUsers: DELETE is dispatched to the corrected branch
  `UsersApi.RemoveUser`, not to the branch as api/users.ts:63 writes it.
  The two differ only on an id that resolves to the caller's own but is
  spelled differently (`UsersApi.RemoveUserDiffersOnlyOnRespelledSelf`).
  The as-written behaviour is `UsersApi.RemoveUserAsWritten`, see Findings.
- UsersApi.UsersEndpoint: inherits that DELETE divergence from
  `UsersApi.HandleUsers`.
- ManageUsers.ServerNeverRemovesLastAdmin: holds for the as-written
  branch only when the queried id does not resolve to the caller's own;
  `ManageUsers.LastAdminRemovedAsWritten` shows the case it excludes.
- Report.GroupJudgesDescribes: does not claim the order of the groups,
  because it follows the key order of a JavaScript object.
- Report.GroupingDescribesPostedJudges: likewise says nothing about the
  order of the groups.
- **Numbers.** Values are unbounded integers. Floating point, `NaN` stored
  in a score map, `toFixed` and the `|| 0` for a falsy stored value are not
  modelled: an integer 0 already adds 0.
- **Locale order.** `localeCompare` is code-unit order on strings. The
  model relies only on its being a total preorder.
- **Lower-casing.** `toLowerCase` is ASCII lower-casing.
- **Key order.** `Object.keys` and `Object.entries` order is not modelled.
  A sum does not depend on it.
- **Report post-ordering comparator** (pages/admin/ReportPage.tsx:64-73).
  It is not a consistent order: it returns 1 whenever the first post's name
  is missing.
- **Login field mismatch.** The client sends `userId` but the server reads
  `username`. Only the server's check sequence is modelled, and its
  messages are not.
- **Loose JSON.** The following are outside the typed body records:
  - arbitrary extra fields in a PUT `$set`;
  - `null` values;
  - array-valued query parameters (users.ts:58).
- **Notes.** `notes` is not sent by the judge screen. The difference
  between the server's `$set` and the client's merge for notes is stated as
  `ScoresApi.NotesDivergeWithoutNotes`, not corrected.
- **Cleared post.** A judge's cleared post survives on the server (see
  `ManageUsers.ClearedPostNotStored`). Fixing it would need a nullable
  patch field, so it is recorded rather than corrected.
- **In-place rename.** `handleCriterionChange` writes into the criterion
  objects it shares with the post being edited
  (pages/admin/ManagePosts.tsx:30). The model renames a copy.
- **Clashing criterion ids.** Criterion ids built from `Date.now()` can
  collide when two are created in the same millisecond. The model takes
  `now` as given.
- **Other pages and endpoints.** These are form, navigation or create-read-
  update-delete plumbing, or indexing of the ranking:
  - `LoginPage`, `ManageJudges`, the leaderboards, `AdminDashboard`,
    `LandingPage`, `Header` and `App`;
  - `api/teams.ts`, `api/posts.ts`, `api/data.ts`;
  - the fixture data in `api/seedData.ts`.
- **Concurrency.** Simultaneous submissions and resets are not modelled.
  The store's upsert is atomic.

## Findings

| source | as written | input that shows it | evidently intended | confidence | as-written member | corrected member |
|---|---|---|---|---|---|---|
| api/users.ts:63-82 | The self-deletion check compares the caller's id with the raw query string. The lookup and the delete go through `new ObjectId(id)`, which accepts upper-case hex and prints lower-case. | The super administrator `admin`, with id `abc…` in lower-case hex, sends `DELETE ?id=ABC…` with the same id in upper case. The check passes, the lookup finds the caller, and their account is deleted. | An administrator can never delete their own account, however the id is spelled. | medium, not executed | UsersApi.RemoveUserAsWritten, UsersApi.SelfDeletionSlipsThrough, ManageUsers.LastAdminRemovedAsWritten | UsersApi.RemoveUser, UsersApi.CallerSurvivesRemoval, ManageUsers.CorrectedServerNeverRemovesLastAdmin |

=== FILE: auth.dfy ===
/**
 * The guard in front of every protected endpoint (`withAuth`, api/auth.ts):
 * the `Authorization: Bearer <user id>` header, the lookup of that user and
 * the role gate. The store lookup is `FindUser`; `ObjectId.isValid` and the
 * conversion of the token to a document id are parameters.
 */
module Auth {

  import opened Wrappers
  import opened Domain
  import opened Strings

  /** What the guard decides: a refusal status, or the user handed to the handler. */
  datatype Gate = Refused(status: int) | Admitted(user: User)

  const BearerPrefix: string := "Bearer "

  /** `header.split(' ')[1]`, with a missing field read as the empty (falsy) token. */
  function TokenOf(header: string): string {
    var f := Split(header, ' ');
    if |f| >= 2 then f[1] else ""
  }

  /** After the bearer prefix, the token runs up to the next space. */
  lemma TokenAfterBearer(rest: string)
    ensures TokenOf(BearerPrefix + rest) == TakeUntil(rest, ' ')
  {
    assert BearerPrefix + rest == "Bearer" + " " + rest;
    SplitAfterWord("Bearer", rest);
  }

  /**
   * `withAuth(handler, allowed)` up to the call of `handler`. `isValid` is
   * `ObjectId.isValid` and `toId(t)` the string form of `new ObjectId(t)`.
   */
  function Authenticate(header: Option<string>, users: seq<User>, allowed: seq<Role>,
                        isValid: string -> bool, toId: string -> string): (r: Gate)
    ensures header.None? || !IsPrefix(BearerPrefix, header.value) ==> r == Refused(401)
    ensures r.Refused? ==> r.status == 401 || r.status == 403
    ensures r == Refused(403) <==>
      && header.Some? && IsPrefix(BearerPrefix, header.value)
      && var t := TokenOf(header.value);
      && t != "" && isValid(t)
      && FindUser(users, toId(t)).Some? && FindUser(users, toId(t)).value.role !in allowed
    ensures r.Admitted? ==>
      && header.Some? && IsPrefix(BearerPrefix, header.value)
      && var t := TokenOf(header.value);
      && t != "" && isValid(t)
      && FindUser(users, toId(t)).Some?
      && r.user == ToClient(FindUser(users, toId(t)).value)
      && r.user.role in allowed && r.user.password.None?
  {
    if header.None? || header.value == "" || !IsPrefix(BearerPrefix, header.value) then Refused(401)
    else
      var token := TokenOf(header.value);
      if token == "" || !isValid(token) then Refused(401)
      else
        match FindUser(users, toId(token))
        case None => Refused(401)
        case Some(u) => if u.role !in allowed then Refused(403) else Admitted(ToClient(u))
  }

  /** A bearer header naming a stored user with an allowed role lets that user through. */
  lemma BearerAdmits(token: string, users: seq<User>, allowed: seq<Role>,
                     isValid: string -> bool, toId: string -> string, u: User)
    requires token != "" && ' ' !in token && isValid(token)
    requires FindUser(users, toId(token)) == Some(u) && u.role in allowed
    ensures Authenticate(Some(BearerPrefix + token), users, allowed, isValid, toId) == Admitted(ToClient(u))
  {
    TokenAfterBearer(token);
    assert IsPrefix(BearerPrefix, BearerPrefix + token);
  }

  /** The same header for a stored user whose role is not allowed is refused with 403. */
  lemma BearerForbidden(token: string, users: seq<User>, allowed: seq<Role>,
                        isValid: string -> bool, toId: string -> string, u: User)
    requires token != "" && ' ' !in token && isValid(token)
    requires FindUser(users, toId(token)) == Some(u) && u.role !in allowed
    ensures Authenticate(Some(BearerPrefix + token), users, allowed, isValid, toId) == Refused(403)
  {
    TokenAfterBearer(token);
    assert IsPrefix(BearerPrefix, BearerPrefix + token);
  }

  /** Anything after a second space is ignored: only the second field is the token. */
  lemma TrailingFieldsIgnored(token: string, tail: string, users: seq<User>, allowed: seq<Role>,
                              isValid: string -> bool, toId: string -> string)
    requires ' ' !in token
    ensures Authenticate(Some(BearerPrefix + token + " " + tail), users, allowed, isValid, toId)
         == Authenticate(Some(BearerPrefix + token), users, allowed, isValid, toId)
  {
    var h1 := BearerPrefix + token + " " + tail;
    var h2 := BearerPrefix + token;
    assert h1 == BearerPrefix + (token + " " + tail);
    TokenAfterBearer(token + " " + tail);
    TokenAfterBearer(token);
    assert TakeUntil(token + " " + tail, ' ') == token by {
      var s := token + " " + tail;
      assert s[|token|] == ' ';
      assert forall k :: 0 <= k < |token| ==> s[k] == token[k];
      assert |TakeUntil(s, ' ')| <= |token| ==> s[..|TakeUntil(s, ' ')|] == token[..|TakeUntil(s, ' ')|];
    }
    assert IsPrefix(BearerPrefix, h1) && IsPrefix(BearerPrefix, h2);
  }
}

=== FILE: domain.dfy ===
/**
 * The competition's records: teams, users (administrators and judges),
 * posts with their criteria, raw score entries, and the two derived
 * ranking records. Optional fields of the source records become `Option`;
 * an absent criterion list is the empty sequence, exactly as the code reads
 * it (`?? []`).
 */
module Domain {

  import opened Wrappers
  import opened Seqs

  datatype Role = Admin | Judge | Public

  datatype Level = SD | SMP | SMA | UMUM

  datatype Gender = Putra | Putri

  /** The request methods the handlers distinguish; every other method is `OTHER`. */
  datatype HttpMethod = GET | POST | PUT | DELETE | OTHER

  /** The name that marks the super administrator. */
  const SuperAdminName: string := "admin"

  datatype Team = Team(id: string, name: string, number: string, level: Level, gender: Gender)

  /**
   * A user record. In the database `id` is the `_id` of the document.
   * `permissions` and `isRovingJudge` are document fields the handlers read.
   */
  datatype User = User(
    id: string,
    name: string,
    role: Role,
    password: Option<string>,
    assignedPostId: Option<string>,
    assignedCriteriaIds: seq<string>,
    permissions: seq<string>,
    isRovingJudge: bool)

  datatype Criterion = Criterion(id: string, name: string, maxScore: int)

  datatype Post = Post(id: string, name: string, criteria: seq<Criterion>)

  /** A raw score entry: one judge's criterion values for one team at one post. */
  datatype Score = Score(
    teamId: string,
    postId: string,
    judgeId: string,
    scores: map<string, int>,
    notes: Option<string>)

  datatype JudgeScoreDetail = JudgeScoreDetail(judgeId: string, judgeName: string, postName: string, score: int)

  datatype TeamTotalScore = TeamTotalScore(
    teamId: string,
    teamName: string,
    teamNumber: string,
    totalScore: int,
    judgeScores: seq<JudgeScoreDetail>)

  /** JavaScript truthiness of an optional string: present and non-empty. */
  predicate Truthy(s: Option<string>) {
    s.Some? && s.value != ""
  }

  predicate InCategory(t: Team, level: Level, gender: Gender) {
    t.level == level && t.gender == gender
  }

  /** The user as handed to a client: `id` is the document id, the password is gone. */
  function ToClient(doc: User): (u: User)
    ensures u.password == None && u.id == doc.id
    ensures u.(password := doc.password) == doc
  {
    doc.(password := None)
  }

  /** `users.find(u => u.id === id)`, and the store's `findOne({ _id: id })`. */
  function FindUser(users: seq<User>, id: string): (r: Option<User>)
    ensures r.Some? ==> r.value in users && r.value.id == id
    ensures r.None? <==> forall i :: 0 <= i < |users| ==> users[i].id != id
  {
    Find(users, (u: User) => u.id == id)
  }

  /** `posts.find(p => p.id === id)`. */
  function FindPost(posts: seq<Post>, id: string): (r: Option<Post>)
    ensures r.Some? ==> r.value in posts && r.value.id == id
    ensures r.None? <==> forall i :: 0 <= i < |posts| ==> posts[i].id != id
  {
    Find(posts, (p: Post) => p.id == id)
  }
}

=== FILE: judge_portal.dfy ===
/**
 * The judge's scoring screen (pages/judge/JudgePortal.tsx): which criteria
 * the judge scores, the form prefilled from the ledger, the clamping of what
 * is typed, the entry built on save, and the searchable team list.
 *
 * A form field holds either a number or the text as typed (`Input`); the
 * form is a map from team id to a map from criterion id to field. JavaScript
 * `parseInt(s, 10)` is the parameter `parseInt`, `None` standing for NaN.
 */
module JudgePortal {

  import opened Wrappers
  import opened Domain
  import opened Seqs
  import opened Strings
  import StableSort
  import Ledger
  import Ranking

  datatype Input = Num(n: int) | Text(s: string)

  type Row = map<string, Input>

  /** What the screen holds about the judge's assignment. */
  datatype Assignment = Assignment(post: Option<Post>, criteria: seq<Criterion>)

  // ---- the criteria in scope ----

  /** The criteria filter: the criterion's id is one of the assigned ids. */
  function Assigned(ids: seq<string>): Criterion -> bool {
    (c: Criterion) => c.id in ids
  }

  /**
   * The assignment effect. It runs only for a logged-in user with a post id
   * and otherwise leaves the previous assignment in place.
   */
  function Assign(prev: Assignment, user: Option<User>, posts: seq<Post>): (a: Assignment)
    ensures !(user.Some? && Truthy(user.value.assignedPostId)) ==> a == prev
    ensures user.Some? && Truthy(user.value.assignedPostId) ==>
      && a.post == FindPost(posts, user.value.assignedPostId.value)
      && (a.post.None? ==> a.criteria == [])
      && (a.post.Some? ==>
            var ids := user.value.assignedCriteriaIds;
            && (|ids| == 0 ==> a.criteria == a.post.value.criteria)
            && (forall i :: 0 <= i < |a.criteria| ==> a.criteria[i] in a.post.value.criteria && Ranking.InScope(ids, a.criteria[i].id))
            && (forall i :: 0 <= i < |a.post.value.criteria| && Ranking.InScope(ids, a.post.value.criteria[i].id) ==>
                  a.post.value.criteria[i] in a.criteria))
  {
    if user.Some? && Truthy(user.value.assignedPostId) then
      var post := FindPost(posts, user.value.assignedPostId.value);
      var ids := user.value.assignedCriteriaIds;
      if post.Some? && |ids| > 0 then Assignment(post, Filter(post.value.criteria, Assigned(ids)))
      else if post.Some? then Assignment(post, post.value.criteria)
      else Assignment(None, [])
    else prev
  }

  /**
   * With a non-empty assignment the judge's criteria are the post's assigned
   * criteria, in the order the post lists them.
   */
  lemma AssignKeepsPostOrder(prev: Assignment, u: User, posts: seq<Post>, p: Post)
    requires Truthy(u.assignedPostId) && FindPost(posts, u.assignedPostId.value) == Some(p)
    requires |u.assignedCriteriaIds| > 0
    ensures var cs := Assign(prev, Some(u), posts).criteria;
      && Subseq(cs, p.criteria)
      && forall c :: c in cs <==> c in p.criteria && c.id in u.assignedCriteriaIds
  {
    FilterIsSubseq(p.criteria, Assigned(u.assignedCriteriaIds));
  }

  // ---- typing a value ----

  /** `Math.max(0, Math.min(100, x))`. */
  function Clamp(x: int): (r: int)
    ensures 0 <= r <= 100
    ensures 0 <= x <= 100 ==> r == x
    ensures x < 0 ==> r == 0
    ensures x > 100 ==> r == 100
  {
    if x < 0 then 0 else if x > 100 then 100 else x
  }

  /** The field value `handleScoreChange` stores for the typed text. */
  function Typed(value: string, parseInt: string -> Option<int>): (r: Input)
    ensures value == "" ==> r == Text("")
    ensures value != "" && parseInt(value).None? ==> r == Text(value)
    ensures value != "" && parseInt(value).Some? ==> r == Num(Clamp(parseInt(value).value))
  {
    if value != "" && parseInt(value).Some? then Num(Clamp(parseInt(value).value)) else Text(value)
  }

  /** `handleScoreChange(teamId, criterionId, value)`: one field of one team's row changes. */
  function ScoreChange(form: map<string, Row>, teamId: string, criterionId: string, value: string,
                       parseInt: string -> Option<int>): (r: map<string, Row>)
    ensures r.Keys == form.Keys + {teamId}
    ensures forall t :: t in form && t != teamId ==> r[t] == form[t]
    ensures teamId in r && criterionId in r[teamId] && r[teamId][criterionId] == Typed(value, parseInt)
    ensures forall c :: c != criterionId ==>
      (c in r[teamId] <==> teamId in form && c in form[teamId])
    ensures teamId in form ==> forall c :: c in form[teamId] && c != criterionId ==> r[teamId][c] == form[teamId][c]
  {
    var row := RowOf(form, teamId);
    form[teamId := row[criterionId := Typed(value, parseInt)]]
  }

  // ---- saving ----

  /** The number a field contributes on save: missing, empty or unparseable fields give 0. */
  function SaveValue(v: Option<Input>, parseInt: string -> Option<int>): (r: int)
    ensures 0 <= r <= 100
    ensures v.None? || v == Some(Text("")) ==> r == 0
    ensures v.Some? && v.value.Num? ==> r == Clamp(v.value.n)
    ensures v.Some? && v.value.Text? && v.value.s != "" && parseInt(v.value.s).None? ==> r == 0
  {
    match v
    case None => 0
    case Some(Num(n)) => Clamp(n)
    case Some(Text(s)) =>
      if s == "" then 0
      else match parseInt(s) case None => 0 case Some(n) => Clamp(n)
  }

  function CriterionIds(criteria: seq<Criterion>): (ids: set<string>)
    ensures forall i :: 0 <= i < |criteria| ==> criteria[i].id in ids
    ensures forall c :: c in ids ==> exists i :: 0 <= i < |criteria| && criteria[i].id == c
  {
    set i | 0 <= i < |criteria| :: criteria[i].id
  }

  function Field(row: Row, c: string): Option<Input> {
    if c in row then Some(row[c]) else None
  }

  /** `teamScores[teamId] || {}`. */
  function RowOf(form: map<string, Row>, teamId: string): Row {
    if teamId in form then form[teamId] else map[]
  }

  /**
   * `handleSave(teamId)`: the entry sent for one team, or nothing when the
   * judge has no post or nobody is logged in.
   */
  function HandleSave(a: Assignment, user: Option<User>, form: map<string, Row>, teamId: string,
                      parseInt: string -> Option<int>): (r: Option<Score>)
    ensures r.None? <==> a.post.None? || user.None?
    ensures r.Some? ==>
      && r.value.teamId == teamId && r.value.postId == a.post.value.id && r.value.judgeId == user.value.id
      && r.value.notes.None?
      && r.value.scores.Keys == CriterionIds(a.criteria)
      && (forall c :: c in r.value.scores ==> 0 <= r.value.scores[c] <= 100)
      && (forall c :: c in r.value.scores && (teamId !in form || c !in form[teamId]) ==> r.value.scores[c] == 0)
      && (forall c :: c in r.value.scores ==> r.value.scores[c] == SaveValue(Field(RowOf(form, teamId), c), parseInt))
  {
    if a.post.None? || user.None? then None
    else
      var row := RowOf(form, teamId);
      var scores := map c | c in CriterionIds(a.criteria) :: SaveValue(Field(row, c), parseInt);
      Some(Score(teamId, a.post.value.id, user.value.id, scores, None))
  }

  // ---- the prefill ----

  /** `s` was filed by judge `u` for the team at `u`'s post. */
  predicate EntryOf(s: Score, teamId: string, u: User) {
    s.teamId == teamId && Some(s.postId) == u.assignedPostId && s.judgeId == u.id
  }

  /** The entry this judge already filed for this team at the assigned post. */
  function ExistingEntry(ledger: seq<Score>, teamId: string, user: Option<User>): (r: Option<Score>)
    ensures user.None? || user.value.assignedPostId.None? ==> r.None?
    ensures r.Some? ==>
      && r.value in ledger && r.value.teamId == teamId
      && r.value.judgeId == user.value.id && Some(r.value.postId) == user.value.assignedPostId
    ensures user.Some? && user.value.assignedPostId.Some? ==>
      (r.Some? <==> exists s :: s in ledger && EntryOf(s, teamId, user.value))
    ensures r.Some? ==> exists i :: 0 <= i < |ledger| && ledger[i] == r.value && forall j :: 0 <= j < i ==> !EntryOf(ledger[j], teamId, user.value)
  {
    if user.None? || user.value.assignedPostId.None? then None
    else Ledger.Lookup(ledger, teamId, user.value.assignedPostId.value, user.value.id)
  }

  function AsInputs(scores: map<string, int>): (row: Row)
    ensures row.Keys == scores.Keys
    ensures forall c :: c in row ==> row[c] == Num(scores[c])
  {
    map c | c in scores :: Num(scores[c])
  }

  function TeamIds(teams: seq<Team>): set<string> {
    set i | 0 <= i < |teams| :: teams[i].id
  }

  /** The prefill effect: every team's row from its existing entry, or empty. */
  function Prefill(teams: seq<Team>, ledger: seq<Score>, user: Option<User>): (form: map<string, Row>)
    ensures form.Keys == TeamIds(teams)
    ensures forall t :: t in form ==>
      (ExistingEntry(ledger, t, user).None? ==> form[t] == map[])
      && (ExistingEntry(ledger, t, user).Some? ==>
            form[t].Keys == ExistingEntry(ledger, t, user).value.scores.Keys
            && forall c :: c in form[t] ==> form[t][c] == Num(ExistingEntry(ledger, t, user).value.scores[c]))
  {
    map t | t in TeamIds(teams) ::
      match ExistingEntry(ledger, t, user) case Some(e) => AsInputs(e.scores) case None => map[]
  }

  /**
   * Reopening the screen and saving without edits files again exactly the
   * values already stored, when they cover the judge's criteria and lie in
   * [0, 100].
   */
  lemma PrefillThenSave(a: Assignment, u: User, teams: seq<Team>, ledger: seq<Score>, team: Team,
                        parseInt: string -> Option<int>)
    requires a.post.Some? && u.assignedPostId == Some(a.post.value.id) && team in teams
    requires var e := ExistingEntry(ledger, team.id, Some(u));
      e.Some? && e.value.scores.Keys == CriterionIds(a.criteria)
      && forall c :: c in e.value.scores ==> 0 <= e.value.scores[c] <= 100
    ensures var e := ExistingEntry(ledger, team.id, Some(u)).value;
      HandleSave(a, Some(u), Prefill(teams, ledger, Some(u)), team.id, parseInt)
        == Some(Score(team.id, a.post.value.id, u.id, e.scores, None))
  {
    var e := ExistingEntry(ledger, team.id, Some(u)).value;
    var form := Prefill(teams, ledger, Some(u));
    assert team.id in TeamIds(teams);
    SaveRowOfScores(a, u, form, team.id, parseInt, e.scores);
  }

  /** Saving a row that shows exactly `scores`, in range and over the judge's criteria, sends `scores`. */
  lemma SaveRowOfScores(a: Assignment, u: User, form: map<string, Row>, teamId: string,
                        parseInt: string -> Option<int>, scores: map<string, int>)
    requires a.post.Some? && teamId in form
    requires form[teamId].Keys == scores.Keys && scores.Keys == CriterionIds(a.criteria)
    requires forall c :: c in form[teamId] ==> form[teamId][c] == Num(scores[c])
    requires forall c :: c in scores ==> 0 <= scores[c] <= 100
    ensures HandleSave(a, Some(u), form, teamId, parseInt).value.scores == scores
  {
    var row := form[teamId];
    var saved := HandleSave(a, Some(u), form, teamId, parseInt).value;
    forall c | c in saved.scores
      ensures saved.scores[c] == scores[c]
    {
      assert Field(row, c) == Some(Num(scores[c]));
    }
  }

  /** A parseable value typed into a field is saved clamped; its neighbours keep their values. */
  lemma TypeThenSave(a: Assignment, u: User, form: map<string, Row>, teamId: string, c: string, value: string,
                     parseInt: string -> Option<int>)
    requires a.post.Some? && c in CriterionIds(a.criteria)
    requires value != "" && parseInt(value).Some?
    ensures var saved := HandleSave(a, Some(u), ScoreChange(form, teamId, c, value, parseInt), teamId, parseInt);
      saved.Some? && saved.value.scores[c] == Clamp(parseInt(value).value)
      && forall d :: d in saved.value.scores && d != c ==>
           saved.value.scores[d] == HandleSave(a, Some(u), form, teamId, parseInt).value.scores[d]
  {
    var form' := ScoreChange(form, teamId, c, value, parseInt);
    var saved := HandleSave(a, Some(u), form', teamId, parseInt).value;
    var before := HandleSave(a, Some(u), form, teamId, parseInt).value;
    assert Field(form'[teamId], c) == Some(Num(Clamp(parseInt(value).value)));
    forall d | d in saved.scores && d != c
      ensures saved.scores[d] == before.scores[d]
    {
      var row := if teamId in form then form[teamId] else map[];
      assert Field(form'[teamId], d) == Field(row, d);
    }
  }

  /**
   * Nothing a judge saves is lost to the ranking: every criterion in the
   * saved entry is one the judge's scope counts, so the entry contributes
   * the sum of all its values.
   */
  lemma SavedEntryCountsWhole(prev: Assignment, u: User, posts: seq<Post>, form: map<string, Row>, teamId: string,
                              parseInt: string -> Option<int>)
    requires Truthy(u.assignedPostId)
    requires HandleSave(Assign(prev, Some(u), posts), Some(u), form, teamId, parseInt).Some?
    ensures var e := HandleSave(Assign(prev, Some(u), posts), Some(u), form, teamId, parseInt).value;
      Ranking.ScopedKeys(e.scores, u.assignedCriteriaIds) == e.scores.Keys
  {
    var a := Assign(prev, Some(u), posts);
    var e := HandleSave(a, Some(u), form, teamId, parseInt).value;
    forall c | c in e.scores
      ensures Ranking.InScope(u.assignedCriteriaIds, c)
    {
      var i :| 0 <= i < |a.criteria| && a.criteria[i].id == c;
    }
  }

  // ---- the team list ----

  /** A team matches when its lower-cased name contains the lower-cased term, or its number contains the term. */
  predicate MatchesSearch(t: Team, term: string) {
    Contains(Lower(t.name), Lower(term)) || Contains(t.number, term)
  }

  function Matching(term: string): Team -> bool {
    (t: Team) => MatchesSearch(t, term)
  }

  /** The teams shown: the matching ones, ordered by number. */
  function VisibleTeams(teams: seq<Team>, term: string): (r: seq<Team>)
    ensures StableSort.Sorted(r, Ledger.NumberOrder)
    ensures forall t :: t in r <==> t in teams && MatchesSearch(t, term)
    ensures multiset(r) <= multiset(teams)
    ensures multiset(r) == multiset(Filter(teams, Matching(term)))
    ensures forall z :: StableSort.Class(r, z, Ledger.NumberOrder) == StableSort.Class(Filter(teams, Matching(term)), z, Ledger.NumberOrder)
  {
    var shown := Filter(teams, Matching(term));
    var r := Ledger.SortByNumber(shown);
    assert forall t :: t in r <==> t in multiset(shown);
    r
  }

  /** With an empty search box every team is shown. */
  lemma EmptySearchShowsAll(teams: seq<Team>)
    ensures multiset(VisibleTeams(teams, "")) == multiset(teams)
  {
    forall t: Team
      ensures MatchesSearch(t, "")
    {
      assert IsPrefix("", t.number);
    }
    FilterAll(teams, Matching(""));
  }
}

=== FILE: ledger.dfy ===
/**
 * The client-side application state and its reducer
 * (context/AppContext.tsx). The score ledger is a sequence of raw entries
 * keyed by (teamId, postId, judgeId); `SubmitScore` is the upsert the
 * reducer performs after the server accepted a submission.
 */
module Ledger {

  import opened Wrappers
  import opened Domain
  import opened Seqs
  import StableSort
  import Strings

  // ---- the score ledger ----

  predicate SameKey(a: Score, b: Score) {
    a.teamId == b.teamId && a.postId == b.postId && a.judgeId == b.judgeId
  }

  /** At most one entry per (teamId, postId, judgeId). */
  ghost predicate UniqueKeys(ledger: seq<Score>) {
    forall i, j :: 0 <= i < j < |ledger| ==> !SameKey(ledger[i], ledger[j])
  }

  /** The position of the entry with `e`'s key, or -1. */
  function KeyIndex(ledger: seq<Score>, e: Score): (i: int)
    ensures -1 <= i < |ledger|
    ensures i == -1 <==> forall j :: 0 <= j < |ledger| ==> !SameKey(ledger[j], e)
    ensures 0 <= i ==> SameKey(ledger[i], e) && forall j :: 0 <= j < i ==> !SameKey(ledger[j], e)
  {
    FindIndex(ledger, (s: Score) => SameKey(s, e))
  }

  /** The first entry stored under a key. */
  function Lookup(ledger: seq<Score>, teamId: string, postId: string, judgeId: string): (r: Option<Score>)
    ensures r.Some? ==> r.value in ledger && r.value.teamId == teamId && r.value.postId == postId && r.value.judgeId == judgeId
    ensures r.None? <==> forall j :: 0 <= j < |ledger| ==> !(ledger[j].teamId == teamId && ledger[j].postId == postId && ledger[j].judgeId == judgeId)
    ensures r.Some? ==> exists i :: 0 <= i < |ledger| && ledger[i] == r.value && forall j :: 0 <= j < i ==> !(ledger[j].teamId == teamId && ledger[j].postId == postId && ledger[j].judgeId == judgeId)
  {
    Find(ledger, (s: Score) => s.teamId == teamId && s.postId == postId && s.judgeId == judgeId)
  }

  /**
   * `{ ...prev, ...payload }`: every field the payload carries wins. The key
   * fields agree already, `scores` is taken whole, and `notes` survives from
   * the old entry only when the payload has none.
   */
  function Merge(prev: Score, payload: Score): (r: Score)
    requires SameKey(prev, payload)
    ensures SameKey(r, prev) && r.scores == payload.scores
    ensures payload.notes.Some? ==> r == payload
    ensures payload.notes.None? ==> r.notes == prev.notes
  {
    payload.(notes := if payload.notes.Some? then payload.notes else prev.notes)
  }

  /** The `SUBMIT_SCORE_SUCCESS` case: replace the entry with the same key in place, or append. */
  function SubmitScore(ledger: seq<Score>, payload: Score): (r: seq<Score>)
    ensures KeyIndex(ledger, payload) >= 0 ==> |r| == |ledger|
    ensures KeyIndex(ledger, payload) == -1 ==> |r| == |ledger| + 1 && r[..|ledger|] == ledger
    ensures forall j :: 0 <= j < |ledger| && j != KeyIndex(ledger, payload) ==> r[j] == ledger[j]
    ensures KeyIndex(ledger, payload) == -1 ==> r == ledger + [payload]
    ensures KeyIndex(ledger, payload) >= 0 ==> r[KeyIndex(ledger, payload)] == Merge(ledger[KeyIndex(ledger, payload)], payload)
  {
    var i := KeyIndex(ledger, payload);
    if i >= 0 then ledger[i := Merge(ledger[i], payload)] else ledger + [payload]
  }

  /** After a submission the entry under its key holds exactly the submitted scores. */
  lemma SubmitStoresScores(ledger: seq<Score>, p: Score)
    ensures var e := Lookup(SubmitScore(ledger, p), p.teamId, p.postId, p.judgeId);
      e.Some? && e.value.scores == p.scores && (p.notes.Some? ==> e.value == p)
  {
    var r := SubmitScore(ledger, p);
    var i := KeyIndex(ledger, p);
    var k := if i >= 0 then i else |ledger|;
    assert SameKey(r[k], p) && r[k].scores == p.scores;
    assert forall j :: 0 <= j < k ==> !SameKey(r[j], p);
    var e := Lookup(r, p.teamId, p.postId, p.judgeId);
    var m :| 0 <= m < |r| && r[m] == e.value && forall j :: 0 <= j < m ==> !SameKey(r[j], p);
    assert m == k;
  }

  /** Entries under every other key are found exactly as before. */
  lemma SubmitKeepsOtherKeys(ledger: seq<Score>, p: Score, teamId: string, postId: string, judgeId: string)
    requires !(teamId == p.teamId && postId == p.postId && judgeId == p.judgeId)
    ensures Lookup(SubmitScore(ledger, p), teamId, postId, judgeId) == Lookup(ledger, teamId, postId, judgeId)
  {
    var r := SubmitScore(ledger, p);
    var matches := (s: Score) => s.teamId == teamId && s.postId == postId && s.judgeId == judgeId;
    assert forall j :: 0 <= j < |r| ==> (matches(r[j]) <==> j < |ledger| && matches(ledger[j]));
    var a := FindIndex(r, matches);
    var b := FindIndex(ledger, matches);
    assert a == b by {
      if b >= 0 { assert matches(r[b]); }
      if a >= 0 { assert matches(ledger[a]); }
    }
  }

  /** The ledger keeps at most one entry per key. */
  lemma SubmitPreservesUniqueKeys(ledger: seq<Score>, p: Score)
    requires UniqueKeys(ledger)
    ensures UniqueKeys(SubmitScore(ledger, p))
  {
    var r := SubmitScore(ledger, p);
    var i := KeyIndex(ledger, p);
    forall a, b | 0 <= a < b < |r|
      ensures !SameKey(r[a], r[b])
    {
      if b == |ledger| {
        assert r[b] == p && r[a] == ledger[a];
      } else {
        assert SameKey(r[a], ledger[a]) && SameKey(r[b], ledger[b]);
      }
    }
  }

  /** Submitting the same entry twice leaves the ledger as after the first submission. */
  lemma SubmitIdempotent(ledger: seq<Score>, p: Score)
    ensures SubmitScore(SubmitScore(ledger, p), p) == SubmitScore(ledger, p)
  {
    var r := SubmitScore(ledger, p);
    var i := KeyIndex(ledger, p);
    var k := if i >= 0 then i else |ledger|;
    assert SameKey(r[k], p) && forall j :: 0 <= j < k ==> !SameKey(r[j], p);
    assert KeyIndex(r, p) == k;
    assert Merge(r[k], p) == r[k];
  }

  /**
   * Resubmission overwrites and does not merge: a later `{c1: 50}` over an
   * earlier `{c1: 80, c2: 90}` leaves exactly `{c1: 50}`.
   */
  lemma OverwriteNotMerge()
    ensures var first := Score("T1", "P1", "J1", map["c1" := 80, "c2" := 90], None);
      var second := Score("T1", "P1", "J1", map["c1" := 50], None);
      var e := Lookup(SubmitScore(SubmitScore([], first), second), "T1", "P1", "J1");
      e.Some? && e.value.scores == map["c1" := 50] && "c2" !in e.value.scores
  {
    var second := Score("T1", "P1", "J1", map["c1" := 50], None);
    SubmitStoresScores(SubmitScore([], Score("T1", "P1", "J1", map["c1" := 80, "c2" := 90], None)), second);
  }

  // ---- the reducer ----

  datatype State = State(
    teams: seq<Team>,
    users: seq<User>,
    posts: seq<Post>,
    scores: seq<Score>,
    currentUser: Option<User>,
    loading: bool,
    error: Option<string>)

  datatype Action =
    | SetLoading(loading: bool)
    | SetError(message: Option<string>)
    | SetData(teams: seq<Team>, users: seq<User>, posts: seq<Post>, scores: seq<Score>)
    | LoginSuccess(user: User)
    | Logout
    | AddTeam(team: Team)
    | UpdateTeam(team: Team)
    | DeleteTeam(id: string)
    | AddUser(user: User)
    | UpdateUser(user: User)
    | DeleteUser(id: string)
    | AddPost(post: Post)
    | UpdatePost(post: Post)
    | DeletePost(id: string)
    | SubmitScoreSuccess(score: Score)

  /** `a.number.localeCompare(b.number) <= 0`, with code-unit order standing in for the locale's. */
  predicate NumberOrder(a: Team, b: Team) {
    Strings.StrLe(a.number, b.number)
  }

  lemma NumberOrderIsPreorder()
    ensures StableSort.TotalPreorder(NumberOrder)
  {
    Strings.StrKeyPreorder((t: Team) => t.number, NumberOrder);
  }

  /** The team list re-sorted by number, as the reducer does after adding or updating a team. */
  function SortByNumber(teams: seq<Team>): (r: seq<Team>)
    ensures StableSort.Sorted(r, NumberOrder)
    ensures multiset(r) == multiset(teams) && |r| == |teams|
    ensures forall z :: StableSort.Class(r, z, NumberOrder) == StableSort.Class(teams, z, NumberOrder)
  {
    NumberOrderIsPreorder();
    StableSort.Sort(teams, NumberOrder)
  }

  /** The filter `DELETE_USER` keeps: users with a different id. */
  function OtherUser(id: string): User -> bool {
    (x: User) => x.id != id
  }

  /** The filter `DELETE_TEAM` keeps: teams with a different id. */
  function OtherTeam(id: string): Team -> bool {
    (x: Team) => x.id != id
  }

  /** The filter `DELETE_POST` keeps: posts with a different id. */
  function OtherPost(id: string): Post -> bool {
    (x: Post) => x.id != id
  }

  /** The test `UPDATE_TEAM` replaces by. */
  function TeamWithId(id: string): Team -> bool {
    (x: Team) => x.id == id
  }

  /** The test `UPDATE_POST` replaces by. */
  function PostWithId(id: string): Post -> bool {
    (x: Post) => x.id == id
  }

  /** The state with its team list replaced. */
  function WithTeams(st: State, teams: seq<Team>): State {
    State(teams, st.users, st.posts, st.scores, st.currentUser, st.loading, st.error)
  }

  /** The state with its user list replaced. */
  function WithUsers(st: State, users: seq<User>): State {
    State(st.teams, users, st.posts, st.scores, st.currentUser, st.loading, st.error)
  }

  /** The state with its post list replaced. */
  function WithPosts(st: State, posts: seq<Post>): State {
    State(st.teams, st.users, posts, st.scores, st.currentUser, st.loading, st.error)
  }

  function Reduce(st: State, a: Action): (r: State)
    ensures a.SubmitScoreSuccess? ==> r.(scores := st.scores) == st
    ensures (a.AddTeam? || a.UpdateTeam? || a.DeleteTeam?) ==> r.(teams := st.teams) == st
    ensures (a.AddUser? || a.UpdateUser? || a.DeleteUser?) ==> r.(users := st.users) == st
    ensures (a.AddPost? || a.UpdatePost? || a.DeletePost?) ==> r.(posts := st.posts) == st
    ensures (a.AddTeam? || a.UpdateTeam?) ==> StableSort.Sorted(r.teams, NumberOrder)
    ensures a.AddTeam? ==> multiset(r.teams) == multiset(st.teams) + multiset{a.team}
    ensures a.UpdateTeam? ==> |r.teams| == |st.teams|
  {
    match a
    case SetLoading(b) => st.(loading := b)
    case SetError(m) => st.(error := m, loading := false)
    case SetData(ts, us, ps, ss) => st.(teams := ts, users := us, posts := ps, scores := ss, loading := false)
    case LoginSuccess(u) => st.(currentUser := Some(u), loading := false)
    case Logout => st.(currentUser := None, loading := false)
    case AddTeam(t) => WithTeams(st, SortByNumber(st.teams + [t]))
    case UpdateTeam(t) => WithTeams(st, SortByNumber(Replace(st.teams, TeamWithId(t.id), t)))
    case DeleteTeam(id) => WithTeams(st, Filter(st.teams, OtherTeam(id)))
    case AddUser(u) => WithUsers(st, st.users + [u])
    case UpdateUser(u) => WithUsers(st, Replace(st.users, (x: User) => x.id == u.id, u))
    case DeleteUser(id) => WithUsers(st, Filter(st.users, OtherUser(id)))
    case AddPost(p) => WithPosts(st, st.posts + [p])
    case UpdatePost(p) => WithPosts(st, Replace(st.posts, PostWithId(p.id), p))
    case DeletePost(id) => WithPosts(st, Filter(st.posts, OtherPost(id)))
    case SubmitScoreSuccess(s) => st.(scores := SubmitScore(st.scores, s))
  }

  /**
   * The actions outside the lists: each sets its own fields of the session
   * (loading flag, error, current user, or the four lists on a reload) and
   * keeps every other field as it was.
   */
  lemma SessionActionsTouchOnlyTheirFields(st: State, a: Action)
    ensures a.SetLoading? ==> var r := Reduce(st, a); r.loading == a.loading && r.(loading := st.loading) == st
    ensures a.SetError? ==> var r := Reduce(st, a); r.error == a.message && !r.loading && r.(error := st.error, loading := st.loading) == st
    ensures a.SetData? ==> var r := Reduce(st, a);
      r.teams == a.teams && r.users == a.users && r.posts == a.posts && r.scores == a.scores && !r.loading
      && r.currentUser == st.currentUser && r.error == st.error
    ensures a.LoginSuccess? ==> var r := Reduce(st, a); r.currentUser == Some(a.user) && !r.loading && r.(currentUser := st.currentUser, loading := st.loading) == st
    ensures a.Logout? ==> var r := Reduce(st, a); r.currentUser.None? && !r.loading && r.(currentUser := st.currentUser, loading := st.loading) == st
  {
  }

  /** Adding a user appends exactly that user after the unchanged list. */
  lemma AddUserAppends(st: State, u: User)
    ensures Reduce(st, AddUser(u)).users == st.users + [u]
  {
  }

  /** An update puts the payload in place of every team with its id, then re-sorts stably by number. */
  lemma UpdateTeamReplaces(st: State, t: Team)
    ensures var r := Reduce(st, UpdateTeam(t)).teams;
      var replaced := Replace(st.teams, TeamWithId(t.id), t);
      && multiset(r) == multiset(replaced)
      && StableSort.Sorted(r, NumberOrder)
      && forall z :: StableSort.Class(r, z, NumberOrder) == StableSort.Class(replaced, z, NumberOrder)
  {
  }

  lemma ReduceDeleteTeam(st: State, id: string)
    ensures Reduce(st, DeleteTeam(id)).teams == Filter(st.teams, OtherTeam(id))
  {
  }

  /** A team delete keeps exactly the teams with another id, in their order. */
  lemma DeleteTeamRemovesOnlyThatId(st: State, id: string)
    ensures var r := Reduce(st, DeleteTeam(id)).teams;
      (forall x :: x in r <==> x in st.teams && x.id != id) && Subseq(r, st.teams)
  {
    ReduceDeleteTeam(st, id);
    FilterMembers(st.teams, OtherTeam(id));
    FilterIsSubseq(st.teams, OtherTeam(id));
  }

  /** A new post is appended after the existing ones. */
  lemma AddPostAppends(st: State, p: Post)
    ensures Reduce(st, AddPost(p)).posts == st.posts + [p]
  {
  }

  /** An update puts the payload in place of every post with its id and keeps the rest where they were. */
  lemma UpdatePostReplaces(st: State, p: Post)
    ensures var r := Reduce(st, UpdatePost(p)).posts;
      |r| == |st.posts|
      && forall i :: 0 <= i < |st.posts| ==> r[i] == if st.posts[i].id == p.id then p else st.posts[i]
  {
  }

  lemma ReduceDeletePost(st: State, id: string)
    ensures Reduce(st, DeletePost(id)).posts == Filter(st.posts, OtherPost(id))
  {
  }

  /** A post delete keeps exactly the posts with another id, in their order. */
  lemma DeletePostRemovesOnlyThatId(st: State, id: string)
    ensures var r := Reduce(st, DeletePost(id)).posts;
      (forall x :: x in r <==> x in st.posts && x.id != id) && Subseq(r, st.posts)
  {
    ReduceDeletePost(st, id);
    FilterMembers(st.posts, OtherPost(id));
    FilterIsSubseq(st.posts, OtherPost(id));
  }

  /** After a delete no user with that id remains, and every other user is kept in order. */
  lemma DeleteUserRemovesOnlyThatId(st: State, id: string)
    ensures var r := Reduce(st, DeleteUser(id)).users;
      (forall u :: u in r ==> u.id != id) && (forall u :: u in st.users && u.id != id ==> u in r)
      && |r| == |st.users| - |Filter(st.users, (x: User) => x.id == id)|
  {
    ReduceDeleteUser(st, id);
    FilterSplit(st.users, OtherUser(id), (x: User) => x.id == id);
  }

  lemma ReduceDeleteUser(st: State, id: string)
    ensures Reduce(st, DeleteUser(id)).users == Filter(st.users, OtherUser(id))
  {
  }

  lemma {:induction false} FilterSplit<T>(s: seq<T>, p: T -> bool, q: T -> bool)
    requires forall x :: p(x) <==> !q(x)
    ensures |Filter(s, p)| + |Filter(s, q)| == |s|
  {
    if |s| > 0 {
      FilterSplit(s[1..], p, q);
    }
  }

  /** Adding a user with a fresh id and then deleting that id restores the user list. */
  lemma AddThenDeleteUser(st: State, u: User)
    requires forall x :: x in st.users ==> x.id != u.id
    ensures Reduce(Reduce(st, AddUser(u)), DeleteUser(u.id)) == st
  {
    DeleteUndoesAppend(st.users, u);
  }

  lemma DeleteUndoesAppend(users: seq<User>, u: User)
    requires forall x :: x in users ==> x.id != u.id
    ensures Filter(users + [u], OtherUser(u.id)) == users
  {
    var keep := OtherUser(u.id);
    FilterConcat(users, [u], keep);
    FilterAll(users, keep);
    assert Filter([u], keep) == [] by {
      assert [u][1..] == [];
    }
  }

  /** An update replaces every user with that id by the payload, keeps the others and is idempotent. */
  lemma UpdateUserReplaces(st: State, u: User)
    ensures var r := Reduce(st, UpdateUser(u)).users;
      |r| == |st.users|
      && (forall i :: 0 <= i < |r| ==> r[i].id == st.users[i].id)
      && (forall i :: 0 <= i < |r| && st.users[i].id == u.id ==> r[i] == u)
      && (forall i :: 0 <= i < |r| && st.users[i].id != u.id ==> r[i] == st.users[i])
      && Reduce(st, UpdateUser(u)).(users := st.users) == st
      && Reduce(Reduce(st, UpdateUser(u)), UpdateUser(u)) == Reduce(st, UpdateUser(u))
  {
  }
}

=== FILE: login.dfy ===
/**
 * The login endpoint (api/login.ts): the request checks, the lookup by name
 * and role, and the plain-text password comparison. A successful login hands
 * back the stored user without its password; that user's id is the bearer
 * token the client sends afterwards, so `LoginThenAuthenticate` ties this
 * module to `Auth`.
 */
module Login {

  import opened Wrappers
  import opened Domain
  import opened Seqs
  import opened Strings
  import Auth

  /** The fields of the request body the handler reads; an absent field is `None`. */
  datatype LoginBody = LoginBody(role: Option<Role>, username: Option<string>, password: Option<string>)

  datatype LoginReply = LoginFailed(status: int) | LoggedIn(user: User)

  /** `findOne({ name, role })`: the first stored user with that name and role. */
  function FindByNameRole(users: seq<User>, name: string, role: Role): (r: Option<User>)
    ensures r.Some? ==> r.value in users && r.value.name == name && r.value.role == role
    ensures r.None? <==> forall i :: 0 <= i < |users| ==> !(users[i].name == name && users[i].role == role)
  {
    Find(users, (u: User) => u.name == name && u.role == role)
  }

  /** Only administrators and judges log in, and both fields must be non-empty. */
  predicate WellFormed(body: LoginBody) {
    && body.role.Some? && (body.role.value == Admin || body.role.value == Judge)
    && Truthy(body.username) && Truthy(body.password)
  }

  function HandleLogin(m: HttpMethod, body: LoginBody, users: seq<User>): (r: LoginReply)
    ensures m != POST ==> r == LoginFailed(405)
    ensures m == POST && !WellFormed(body) ==> r == LoginFailed(400)
    ensures r.LoginFailed? ==> r.status in {400, 401, 405}
    ensures r == LoginFailed(401) <==>
      && m == POST && WellFormed(body)
      && var found := FindByNameRole(users, body.username.value, body.role.value);
      && (found.None? || !Truthy(found.value.password) || found.value.password != body.password)
    ensures r.LoggedIn? ==>
      && m == POST && WellFormed(body)
      && var found := FindByNameRole(users, body.username.value, body.role.value);
      && found.Some? && found.value.password == body.password
      && r.user == ToClient(found.value)
  {
    if m != POST then LoginFailed(405)
    else if !WellFormed(body) then LoginFailed(400)
    else
      match FindByNameRole(users, body.username.value, body.role.value)
      case None => LoginFailed(401)
      case Some(u) =>
        if !Truthy(u.password) then LoginFailed(401)
        else if u.password != body.password then LoginFailed(401)
        else LoggedIn(ToClient(u))
  }

  /** A stored user with a non-empty password who sends exactly that password logs in. */
  lemma CorrectPasswordLogsIn(users: seq<User>, u: User)
    requires u.role == Admin || u.role == Judge
    requires Truthy(u.password) && u.name != ""
    requires FindByNameRole(users, u.name, u.role) == Some(u)
    ensures HandleLogin(POST, LoginBody(Some(u.role), Some(u.name), u.password), users) == LoggedIn(ToClient(u))
  {
  }

  /** Any other password is refused with 401, the same reply as an unknown name. */
  lemma WrongPasswordRefused(users: seq<User>, u: User, guess: string)
    requires u.role == Admin || u.role == Judge
    requires guess != "" && u.name != ""
    requires FindByNameRole(users, u.name, u.role) == Some(u)
    requires u.password != Some(guess)
    ensures HandleLogin(POST, LoginBody(Some(u.role), Some(u.name), Some(guess)), users) == LoginFailed(401)
  {
  }

  /**
   * The user a login returns is admitted by the bearer guard under its own id,
   * provided ids identify stored users and the id is a well-formed token.
   */
  lemma LoginThenAuthenticate(m: HttpMethod, body: LoginBody, users: seq<User>, allowed: seq<Role>,
                              isValid: string -> bool, toId: string -> string)
    requires HandleLogin(m, body, users).LoggedIn?
    requires forall i, j :: 0 <= i < j < |users| ==> users[i].id != users[j].id
    requires var id := HandleLogin(m, body, users).user.id;
      id != "" && ' ' !in id && isValid(id) && toId(id) == id
    requires HandleLogin(m, body, users).user.role in allowed
    ensures var cu := HandleLogin(m, body, users).user;
      Auth.Authenticate(Some(Auth.BearerPrefix + cu.id), users, allowed, isValid, toId) == Auth.Admitted(cu)
  {
    var found := FindByNameRole(users, body.username.value, body.role.value).value;
    var cu := HandleLogin(m, body, users).user;
    assert FindUser(users, cu.id) == Some(found) by {
      var k :| 0 <= k < |users| && users[k] == found;
      var f := FindUser(users, cu.id);
      assert f.Some?;
      var i :| 0 <= i < |users| && users[i] == f.value;
      assert users[i].id == users[k].id;
      assert i == k;
    }
    Auth.BearerAdmits(cu.id, users, allowed, isValid, toId, found);
  }
}

=== FILE: manage_posts.dfy ===
/**
 * The post administration page (pages/admin/ManagePosts.tsx): the criteria
 * draft list the modal edits, and the clean-up that turns it into the
 * criteria sent to the server. The clock reading used for fresh criterion
 * ids is a parameter.
 */
module ManagePosts {

  import opened Wrappers
  import opened Domain
  import opened Seqs
  import opened Strings

  /** A criterion being edited; its name may be missing. */
  datatype Draft = Draft(id: string, name: Option<string>, maxScore: int)

  /** The modal's fields; `current` is the post being edited, if any. */
  datatype PostForm = PostForm(current: Option<Post>, name: string, criteria: seq<Draft>)

  function AsDraft(c: Criterion): Draft {
    Draft(c.id, Some(c.name), c.maxScore)
  }

  /** `{ id: 'c' + now, name: '', maxScore: 100 }`. */
  function BlankCriterion(now: int): (d: Draft)
    ensures d.name == Some("") && d.maxScore == 100
  {
    Draft("c" + IntToString(now), Some(""), 100)
  }

  /** `openModal(post)`: the post's own criteria, or one blank criterion for a new post. */
  function OpenModal(post: Option<Post>, now: int): (f: PostForm)
    ensures f.current == post
    ensures post.None? ==> f.name == "" && f.criteria == [BlankCriterion(now)]
    ensures post.Some? ==>
      && f.name == post.value.name
      && |f.criteria| == |post.value.criteria|
      && forall i :: 0 <= i < |f.criteria| ==> f.criteria[i] == AsDraft(post.value.criteria[i])
  {
    match post
    case Some(p) => PostForm(post, p.name, seq(|p.criteria|, i requires 0 <= i < |p.criteria| => AsDraft(p.criteria[i])))
    case None => PostForm(None, "", [BlankCriterion(now)])
  }

  /** `addCriterion()`: one more blank criterion at the end. */
  function AddCriterion(f: PostForm, now: int): (g: PostForm)
    ensures g.current == f.current && g.name == f.name
    ensures |g.criteria| == |f.criteria| + 1 && g.criteria[..|f.criteria|] == f.criteria
    ensures g.criteria[|f.criteria|] == BlankCriterion(now)
  {
    f.(criteria := f.criteria + [BlankCriterion(now)])
  }

  /** `s.filter((_, i) => i !== index)`. */
  function DropIndex<T>(s: seq<T>, index: int): (r: seq<T>)
    ensures 0 <= index < |s| ==> r == s[..index] + s[index + 1..]
    ensures !(0 <= index < |s|) ==> r == s
  {
    if |s| == 0 then []
    else
      var rest := DropIndex(s[1..], index - 1);
      assert s == [s[0]] + s[1..];
      if 1 <= index < |s| then
        assert s[1..][..index - 1] + s[1..][index..] == s[1..index] + s[index + 1..];
        assert [s[0]] + s[1..index] == s[..index];
        [s[0]] + rest
      else if index == 0 then rest
      else [s[0]] + rest
  }

  /**
   * `handleCriterionChange(index, value)`: the criterion at `index` takes the
   * typed name. The page only calls it with the index of a rendered row.
   */
  function RenameCriterion(f: PostForm, index: int, value: string): (g: PostForm)
    requires 0 <= index < |f.criteria|
    ensures g.current == f.current && g.name == f.name && |g.criteria| == |f.criteria|
    ensures g.criteria[index] == f.criteria[index].(name := Some(value))
    ensures forall i :: 0 <= i < |f.criteria| && i != index ==> g.criteria[i] == f.criteria[i]
  {
    f.(criteria := f.criteria[index := f.criteria[index].(name := Some(value))])
  }

  /** `removeCriterion(index)`. */
  function RemoveCriterion(f: PostForm, index: int): (g: PostForm)
    ensures g.current == f.current && g.name == f.name
    ensures 0 <= index < |f.criteria| ==> |g.criteria| == |f.criteria| - 1
    ensures 0 <= index < |f.criteria| ==> g.criteria == f.criteria[..index] + f.criteria[index + 1..]
    ensures !(0 <= index < |f.criteria|) ==> g == f
  {
    f.(criteria := DropIndex(f.criteria, index))
  }

  /** Removing the criterion just added gives back the form as it was. */
  lemma AddThenRemoveCriterion(f: PostForm, now: int)
    ensures RemoveCriterion(AddCriterion(f, now), |f.criteria|) == f
  {
    var g := AddCriterion(f, now);
    assert g.criteria[..|f.criteria|] + g.criteria[|f.criteria| + 1..] == f.criteria;
  }

  /** A criterion survives the clean-up when its name is present and not blank. */
  predicate Named(d: Draft) {
    Truthy(d.name) && Trim(d.name.value) != ""
  }

  /** `.map(c => ({ id: c.id, name: c.name, maxScore: 100 }))` over drafts that have names. */
  function AsCriteria(kept: seq<Draft>): (r: seq<Criterion>)
    requires forall i :: 0 <= i < |kept| ==> kept[i].name.Some?
    ensures |r| == |kept|
    ensures forall i :: 0 <= i < |r| ==> r[i] == Criterion(kept[i].id, kept[i].name.value, 100)
  {
    seq(|kept|, i requires 0 <= i < |kept| => Criterion(kept[i].id, kept[i].name.value, 100))
  }

  lemma AsCriteriaConcat(a: seq<Draft>, b: seq<Draft>)
    requires forall i :: 0 <= i < |a| ==> a[i].name.Some?
    requires forall i :: 0 <= i < |b| ==> b[i].name.Some?
    ensures AsCriteria(a + b) == AsCriteria(a) + AsCriteria(b)
  {
    assert forall i :: 0 <= i < |a + b| ==> (a + b)[i] == if i < |a| then a[i] else b[i - |a|];
  }

  /** `criteria.filter(c => c.name && c.name.trim() !== '')` followed by the mapping above. */
  function FinalCriteria(ds: seq<Draft>): (r: seq<Criterion>)
    ensures |r| <= |ds|
    ensures forall i :: 0 <= i < |r| ==> r[i].maxScore == 100
  {
    AsCriteria(Filter(ds, (d: Draft) => Named(d)))
  }

  /** A name with at least one character that is not white space. */
  predicate HasText(s: string) {
    exists k :: 0 <= k < |s| && !IsSpace(s[k])
  }

  /** What one draft contributes to the cleaned list. */
  function Keep(d: Draft): seq<Criterion> {
    if d.name.Some? && HasText(d.name.value) then [Criterion(d.id, d.name.value, 100)] else []
  }

  lemma NamedIffHasText(d: Draft)
    ensures Named(d) <==> d.name.Some? && HasText(d.name.value)
  {
    if d.name.Some? {
      TrimEmptyIffBlank(d.name.value);
    }
  }

  /**
   * The clean-up works draft by draft: a draft is sent, with its id, its
   * name and a maximum of 100, exactly when its name has a non-space
   * character.
   */
  lemma FinalCriteriaPerDraft(ds: seq<Draft>)
    ensures |ds| == 0 ==> FinalCriteria(ds) == []
    ensures |ds| > 0 ==> FinalCriteria(ds) == Keep(ds[0]) + FinalCriteria(ds[1..])
  {
    if |ds| > 0 {
      var p := (d: Draft) => Named(d);
      NamedIffHasText(ds[0]);
      assert ds == [ds[0]] + ds[1..];
      FilterConcat([ds[0]], ds[1..], p);
      var head := Filter([ds[0]], p);
      assert head == if p(ds[0]) then [ds[0]] else [] by {
        assert [ds[0]][1..] == [];
      }
      AsCriteriaConcat(head, Filter(ds[1..], p));
      assert AsCriteria(head) == Keep(ds[0]);
    }
  }

  /** Every criterion sent has a name with a non-space character and came from a draft with that id and name. */
  lemma FinalCriteriaAreNamed(ds: seq<Draft>)
    ensures forall c :: c in FinalCriteria(ds) ==>
      c.maxScore == 100 && HasText(c.name) && exists d :: d in ds && d.id == c.id && d.name == Some(c.name)
  {
    var kept := Filter(ds, (d: Draft) => Named(d));
    var r := FinalCriteria(ds);
    forall c | c in r
      ensures c.maxScore == 100 && HasText(c.name) && exists d :: d in ds && d.id == c.id && d.name == Some(c.name)
    {
      var i :| 0 <= i < |r| && r[i] == c;
      assert Named(kept[i]);
      NamedIffHasText(kept[i]);
      assert kept[i] in ds;
    }
  }

  /** A criterion renamed to a name with a non-space character is sent under its id with that name. */
  lemma RenamedCriterionSent(f: PostForm, index: int, value: string)
    requires 0 <= index < |f.criteria| && HasText(value)
    ensures Criterion(f.criteria[index].id, value, 100) in FinalCriteria(RenameCriterion(f, index, value).criteria)
  {
    var ds := RenameCriterion(f, index, value).criteria;
    var kept := Filter(ds, (d: Draft) => Named(d));
    NamedIffHasText(ds[index]);
    assert ds[index] in kept;
    var k :| 0 <= k < |kept| && kept[k] == ds[index];
    assert FinalCriteria(ds)[k] == Criterion(f.criteria[index].id, value, 100);
  }

  /** A criterion added and left blank is dropped again: it changes nothing that is sent. */
  lemma BlankCriterionDropped(f: PostForm, now: int)
    ensures FinalCriteria(AddCriterion(f, now).criteria) == FinalCriteria(f.criteria)
    ensures Submit(AddCriterion(f, now)) == Submit(f)
  {
    var ds := f.criteria;
    assert AddCriterion(f, now).criteria == ds + [BlankCriterion(now)];
    var p := (d: Draft) => Named(d);
    FilterConcat(ds, [BlankCriterion(now)], p);
    assert Filter([BlankCriterion(now)], p) == [] by {
      assert [BlankCriterion(now)][1..] == [];
    }
    assert Filter(ds + [BlankCriterion(now)], p) == Filter(ds, p);
  }

  /** What a submitted form sends. */
  datatype PostSubmit =
    | UpdatePost(post: Post)
    | AddPost(name: string, criteria: seq<Criterion>)

  function Submit(f: PostForm): (s: PostSubmit)
    ensures f.current.Some? <==> s.UpdatePost?
    ensures s.UpdatePost? ==> s.post.id == f.current.value.id && s.post.name == f.name
    ensures s.UpdatePost? ==> s.post.criteria == FinalCriteria(f.criteria)
    ensures s.AddPost? ==> s.name == f.name && s.criteria == FinalCriteria(f.criteria)
  {
    match f.current
    case Some(p) => UpdatePost(p.(name := f.name, criteria := FinalCriteria(f.criteria)))
    case None => AddPost(f.name, FinalCriteria(f.criteria))
  }

  /**
   * Opening a post whose criteria are all named and capped at 100 and saving
   * without edits sends that very post back.
   */
  lemma EditUnchangedKeepsPost(post: Post, now: int)
    requires forall i :: 0 <= i < |post.criteria| ==> post.criteria[i].maxScore == 100 && HasText(post.criteria[i].name)
    ensures Submit(OpenModal(Some(post), now)) == UpdatePost(post)
  {
    var ds := OpenModal(Some(post), now).criteria;
    var p := (d: Draft) => Named(d);
    forall i | 0 <= i < |ds|
      ensures p(ds[i])
    {
      NamedIffHasText(ds[i]);
    }
    FilterAll(ds, p);
    assert FinalCriteria(ds) == post.criteria;
  }
}

=== FILE: manage_teams.dfy ===
/**
 * The team administration page (pages/admin/ManageTeams.tsx): the number
 * proposed for a new team, the form the modal opens with, and the payload a
 * submitted form becomes. `parseInt(s, 10)` is a parameter; `None` stands for
 * `NaN`.
 */
module ManageTeams {

  import opened Wrappers
  import opened Domain
  import opened Strings

  /** `Math.max(...xs)` over parsed numbers: `NaN` as soon as one of them is `NaN`. */
  function MaxParsed(xs: seq<Option<int>>): (r: Option<int>)
    requires |xs| > 0
    ensures r.None? <==> exists i :: 0 <= i < |xs| && xs[i].None?
    ensures r.Some? ==> forall i :: 0 <= i < |xs| ==> xs[i].Some? && xs[i].value <= r.value
    ensures r.Some? ==> exists i :: 0 <= i < |xs| && xs[i] == r
  {
    if |xs| == 1 then xs[0]
    else
      var rest := MaxParsed(xs[1..]);
      assert forall i :: 1 <= i < |xs| ==> xs[i] == xs[1..][i - 1];
      if xs[0].None? || rest.None? then None
      else if xs[0].value >= rest.value then xs[0]
      else
        assert exists i :: 1 <= i < |xs| && xs[i] == rest by {
          var k :| 0 <= k < |xs[1..]| && xs[1..][k] == rest;
          assert xs[k + 1] == rest;
        }
        rest
  }

  /** `teams.map(t => parseInt(t.number, 10))`. */
  function Parsed(teams: seq<Team>, parseInt: string -> Option<int>): (r: seq<Option<int>>)
    ensures |r| == |teams|
    ensures forall i :: 0 <= i < |teams| ==> r[i] == parseInt(teams[i].number)
  {
    seq(|teams|, i requires 0 <= i < |teams| => parseInt(teams[i].number))
  }

  /**
   * The number proposed for a new team: one more than the largest parsed
   * number, written in decimal and padded with zeros to three characters;
   * `"001"` for the first team and `"NaN"` once some number does not parse.
   */
  function NextNumber(teams: seq<Team>, parseInt: string -> Option<int>): (r: string)
    ensures |r| >= 3
    ensures teams == [] ==> r == "001"
    ensures (exists i :: 0 <= i < |teams| && parseInt(teams[i].number).None?) ==> r == "NaN"
  {
    var next: Option<int> :=
      if |teams| > 0 then
        match MaxParsed(Parsed(teams, parseInt))
        case None => None
        case Some(m) => Some(m + 1)
      else Some(1);
    match next
    case None => PadStart("NaN", 3, '0')
    case Some(v) =>
      assert IntToString(1) == "1" by { assert DigitChar(1) == '1'; }
      PadStart(IntToString(v), 3, '0')
  }

  /** `parseInt(s, 10)` reads a string of decimal digits as its value. */
  ghost predicate ReadsDecimal(parseInt: string -> Option<int>) {
    forall s: string :: |s| > 0 && (forall i :: 0 <= i < |s| ==> IsDigit(s[i])) ==>
      parseInt(s) == Some(DigitsValue(s))
  }

  /** A natural number padded to three digits reads back as itself. */
  lemma PaddedProposalParses(v: nat, parseInt: string -> Option<int>)
    requires ReadsDecimal(parseInt)
    ensures parseInt(PadStart(IntToString(v), 3, '0')) == Some(v)
  {
    assert IntToString(v) == NatToString(v);
    PaddedNumeralValue(v, 3);
  }

  /** The largest parsed number is one of the parsed numbers and bounds them all. */
  lemma MaxParsedWitness(teams: seq<Team>, parseInt: string -> Option<int>) returns (k: nat)
    requires |teams| > 0
    requires forall i :: 0 <= i < |teams| ==> parseInt(teams[i].number).Some? && parseInt(teams[i].number).value >= 0
    ensures k < |teams| && MaxParsed(Parsed(teams, parseInt)) == parseInt(teams[k].number)
    ensures forall i :: 0 <= i < |teams| ==> parseInt(teams[i].number).value <= parseInt(teams[k].number).value
  {
    var ps := Parsed(teams, parseInt);
    var m := MaxParsed(ps);
    assert ps[0].Some?;
    assert m.Some?;
    k :| 0 <= k < |ps| && ps[k] == m;
  }

  /**
   * When every existing number parses to a natural number, the proposed
   * number parses back to 1 for the first team and otherwise to one more
   * than some existing number; that value is above all of them, so it is
   * not the number of any existing team.
   */
  lemma NextNumberIsFresh(teams: seq<Team>, parseInt: string -> Option<int>)
    requires ReadsDecimal(parseInt)
    requires forall i :: 0 <= i < |teams| ==> parseInt(teams[i].number).Some? && parseInt(teams[i].number).value >= 0
    ensures var r := NextNumber(teams, parseInt);
      && parseInt(r).Some?
      && (teams == [] ==> parseInt(r) == Some(1))
      && (teams != [] ==> exists i :: 0 <= i < |teams| && parseInt(r).value == parseInt(teams[i].number).value + 1)
      && (forall i :: 0 <= i < |teams| ==> parseInt(teams[i].number).value < parseInt(r).value)
      && (forall i :: 0 <= i < |teams| ==> teams[i].number != r)
  {
    var r := NextNumber(teams, parseInt);
    var v: nat;
    if |teams| == 0 {
      v := 1;
    } else {
      var k := MaxParsedWitness(teams, parseInt);
      v := parseInt(teams[k].number).value + 1;
    }
    assert r == PadStart(IntToString(v), 3, '0');
    PaddedProposalParses(v, parseInt);
  }

  /** The modal's fields; `current` is the team being edited, if any. */
  datatype TeamForm = TeamForm(current: Option<Team>, name: string, number: string, level: Level, gender: Gender)

  /** `openModal(team)`: an existing team's fields, or a blank SMA/Putra form with the next number. */
  function OpenModal(team: Option<Team>, teams: seq<Team>, parseInt: string -> Option<int>): (f: TeamForm)
    ensures f.current == team
    ensures team.None? ==> f == TeamForm(None, "", NextNumber(teams, parseInt), SMA, Putra)
  {
    match team
    case Some(t) => TeamForm(team, t.name, t.number, t.level, t.gender)
    case None => TeamForm(None, "", NextNumber(teams, parseInt), SMA, Putra)
  }

  /** What a submitted form sends: the edited team under its old id, or the fields of a new one. */
  datatype TeamSubmit =
    | UpdateTeam(team: Team)
    | AddTeam(name: string, number: string, level: Level, gender: Gender)

  function Submit(f: TeamForm): (s: TeamSubmit)
    ensures f.current.Some? <==> s.UpdateTeam?
    ensures s.UpdateTeam? ==> s.team.id == f.current.value.id
    ensures s.UpdateTeam? ==>
      s.team.name == f.name && s.team.number == f.number && s.team.level == f.level && s.team.gender == f.gender
    ensures s.AddTeam? ==> s.name == f.name && s.number == f.number && s.level == f.level && s.gender == f.gender
  {
    match f.current
    case Some(t) => UpdateTeam(t.(name := f.name, number := f.number, level := f.level, gender := f.gender))
    case None => AddTeam(f.name, f.number, f.level, f.gender)
  }

  /** Opening a team and saving without edits sends that very team back. */
  lemma EditUnchangedKeepsTeam(t: Team, teams: seq<Team>, parseInt: string -> Option<int>)
    ensures Submit(OpenModal(Some(t), teams, parseInt)) == UpdateTeam(t)
  {
  }

  /**
   * Opening the team an edit sent shows the edited fields again, under the
   * same id, and saving that form unchanged sends the same team once more.
   */
  lemma ReopenShowsEdit(f: TeamForm, teams: seq<Team>, parseInt: string -> Option<int>)
    requires f.current.Some?
    ensures var g := OpenModal(Some(Submit(f).team), teams, parseInt);
      && g.current.value.id == f.current.value.id
      && g.name == f.name && g.number == f.number && g.level == f.level && g.gender == f.gender
      && Submit(g) == Submit(f)
  {
  }
}

=== FILE: manage_users.dfy ===
/**
 * The user-administration form (pages/admin/ManageUsers.tsx): opening the
 * form, the post and criteria pickers, the permission toggles, the payload
 * sent on submit, and the guards before a deletion. The payload and the
 * deletion guard are related to what the users endpoint then does.
 */
module ManageUsers {

  import opened Wrappers
  import opened Domain
  import opened Seqs
  import UsersApi
  import Strings

  /** The form state. */
  datatype UserForm = UserForm(
    editing: Option<User>,
    name: string,
    password: string,
    role: Role,
    assignedPostId: Option<string>,
    assignedCriteriaIds: seq<string>,
    permissions: seq<string>)

  /** `openModal(user)`: a blank judge form, or the user's own values with the password cleared. */
  function OpenModal(user: Option<User>): (f: UserForm)
    ensures f.editing == user && f.password == ""
    ensures user.None? ==> f.name == "" && f.role == Judge && f.assignedPostId.None? && f.assignedCriteriaIds == [] && f.permissions == []
    ensures user.Some? ==> f.name == user.value.name && f.role == user.value.role
    ensures user.Some? && user.value.role == Judge ==>
      f.assignedPostId == user.value.assignedPostId && f.assignedCriteriaIds == user.value.assignedCriteriaIds && f.permissions == []
    ensures user.Some? && user.value.role == Admin ==>
      f.assignedPostId.None? && f.assignedCriteriaIds == [] && f.permissions == user.value.permissions
  {
    match user
    case None => UserForm(None, "", "", Judge, None, [], [])
    case Some(u) =>
      UserForm(user, u.name, "", u.role,
               if u.role == Judge then u.assignedPostId else None,
               if u.role == Judge then u.assignedCriteriaIds else [],
               if u.role == Admin then u.permissions else [])
  }

  /** The criteria offered for the chosen post: only for a judge with a post. */
  function AvailableCriteria(f: UserForm, posts: seq<Post>): (r: seq<Criterion>)
    ensures !(f.role == Judge && Truthy(f.assignedPostId)) ==> r == []
    ensures f.role == Judge && Truthy(f.assignedPostId) ==>
      match FindPost(posts, f.assignedPostId.value) case Some(p) => r == p.criteria case None => r == []
  {
    if f.role == Judge && Truthy(f.assignedPostId) then
      match FindPost(posts, f.assignedPostId.value) case Some(p) => p.criteria case None => []
    else []
  }

  /** The effect on a role change: a judge holds no permissions. */
  function OnRoleChange(f: UserForm): (r: UserForm)
    ensures r.role == Judge ==> r.permissions == []
    ensures r.role != Judge ==> r == f
    ensures r.(permissions := f.permissions) == f
  {
    if f.role == Judge then f.(permissions := []) else f
  }

  /** `handlePostChange(postId)`: a new post, no criteria picked yet. */
  function PostChange(f: UserForm, postId: string): (r: UserForm)
    ensures r.assignedCriteriaIds == []
    ensures postId == "" ==> r.assignedPostId.None?
    ensures postId != "" ==> r.assignedPostId == Some(postId)
    ensures r.(assignedPostId := f.assignedPostId, assignedCriteriaIds := f.assignedCriteriaIds) == f
  {
    f.(assignedPostId := if postId == "" then None else Some(postId), assignedCriteriaIds := [])
  }

  // ---- the toggles ----

  /** Remove `x` if present, keeping the others in order; append it at the end if absent. */
  function Toggle(prev: seq<string>, x: string): (r: seq<string>)
    ensures x in r <==> x !in prev
    ensures forall y :: y != x ==> (y in r <==> y in prev)
    ensures x in prev ==> Subseq(r, prev)
    ensures x !in prev ==> |r| == |prev| + 1 && r[..|prev|] == prev && r[|prev|] == x
  {
    if x in prev then
      FilterIsSubseq(prev, (y: string) => y != x);
      Filter(prev, (y: string) => y != x)
    else prev + [x]
  }

  predicate NoDuplicates(s: seq<string>) {
    forall i, j :: 0 <= i < j < |s| ==> s[i] != s[j]
  }

  /** Toggling an absent id twice gives back the very same list; a present one comes back at the end. */
  lemma ToggleTwice(prev: seq<string>, x: string)
    ensures x !in prev ==> Toggle(Toggle(prev, x), x) == prev
    ensures forall y :: y in Toggle(Toggle(prev, x), x) <==> y in prev
  {
    if x !in prev {
      var keep := (y: string) => y != x;
      FilterConcat(prev, [x], keep);
      FilterAll(prev, keep);
      assert Filter([x], keep) == [];
    }
  }

  /** Toggling never introduces a duplicate. */
  lemma {:induction false} ToggleKeepsNoDuplicates(prev: seq<string>, x: string)
    requires NoDuplicates(prev)
    ensures NoDuplicates(Toggle(prev, x))
  {
    if x in prev {
      FilterKeepsNoDuplicates(prev, (y: string) => y != x);
    }
  }

  lemma {:induction false} FilterKeepsNoDuplicates(s: seq<string>, p: string -> bool)
    requires NoDuplicates(s)
    ensures NoDuplicates(Filter(s, p))
  {
    if |s| > 0 {
      FilterKeepsNoDuplicates(s[1..], p);
      var rest := Filter(s[1..], p);
      assert s[0] !in s[1..];
      assert forall i :: 0 <= i < |rest| ==> rest[i] in s[1..];
    }
  }

  function CriteriaChange(f: UserForm, criterionId: string): (r: UserForm)
    ensures criterionId in r.assignedCriteriaIds <==> criterionId !in f.assignedCriteriaIds
    ensures r.(assignedCriteriaIds := f.assignedCriteriaIds) == f
  {
    f.(assignedCriteriaIds := Toggle(f.assignedCriteriaIds, criterionId))
  }

  function PermissionChange(f: UserForm, permission: string): (r: UserForm)
    ensures permission in r.permissions <==> permission !in f.permissions
    ensures r.(permissions := f.permissions) == f
  {
    f.(permissions := Toggle(f.permissions, permission))
  }

  // ---- submitting ----

  /** The body `addUser` sends for a new user. */
  function NewUserPayload(f: UserForm): (b: UsersApi.NewUserBody)
    ensures b.name == f.name && b.role == f.role && !b.isRovingJudge
    ensures b.password.Some? <==> f.role == Admin
    ensures f.role == Admin ==> b.password == Some(f.password) && b.permissions == f.permissions
    ensures f.role != Admin ==> b.permissions == []
    ensures f.role == Judge ==> b.assignedPostId == f.assignedPostId && b.assignedCriteriaIds == f.assignedCriteriaIds
    ensures f.role != Judge ==> b.assignedPostId.None? && b.assignedCriteriaIds == []
  {
    UsersApi.NewUserBody(
      f.name, f.role,
      if f.role == Admin then Some(f.password) else None,
      if f.role == Judge then f.assignedPostId else None,
      if f.role == Judge then f.assignedCriteriaIds else [],
      if f.role == Admin then f.permissions else [],
      false)
  }

  /** The user `updateUser` sends when editing: the edited record with the form's fields over it. */
  function UpdatePayload(f: UserForm, edited: User): (u: User)
    ensures u.id == edited.id && u.isRovingJudge == edited.isRovingJudge
    ensures u.name == f.name && u.role == f.role
    ensures u.assignedPostId == f.assignedPostId && u.assignedCriteriaIds == f.assignedCriteriaIds
    ensures f.role == Admin ==> u.permissions == f.permissions
    ensures f.role != Admin ==> u.permissions == []
    ensures f.password != "" && f.role == Admin ==> u.password == Some(f.password)
    ensures !(f.password != "" && f.role == Admin) ==> u.password == edited.password
  {
    edited.(name := f.name, role := f.role, assignedPostId := f.assignedPostId,
            assignedCriteriaIds := f.assignedCriteriaIds,
            permissions := if f.role == Admin then f.permissions else [],
            password := if f.password != "" && f.role == Admin then Some(f.password) else edited.password)
  }

  /** The PUT body the server receives: JSON drops the fields that are undefined. */
  function AsPatch(u: User): (p: UsersApi.UserPatch)
    ensures p.id == Some(u.id) && p.password == u.password && p.assignedPostId == u.assignedPostId
  {
    UsersApi.UserPatch(Some(u.id), Some(u.name), Some(u.role), u.password, u.assignedPostId,
                       Some(u.assignedCriteriaIds), Some(u.permissions), Some(u.isRovingJudge))
  }

  /**
   * A super administrator's edit is stored as the form showed it, provided a
   * blank password means "keep the old one" and a cleared post was not
   * cleared on the server already.
   */
  lemma PatchStoresEdit(stored: User, u: User)
    requires stored.id == u.id
    requires Truthy(u.password) || u.password == stored.password
    requires u.assignedPostId.Some? || u.assignedPostId == stored.assignedPostId
    ensures UsersApi.ApplyPatch(stored, AsPatch(u), true) == u
  {
  }

  /**
   * Clearing a judge's post in the form is not stored: the undefined post id
   * is not sent, so the server keeps the old post while the client's copy
   * shows none.
   */
  lemma ClearedPostNotStored(judge: User, postId: string)
    requires judge.role == Judge && judge.assignedPostId == Some(postId) && judge.password.None?
    ensures var f := PostChange(OpenModal(Some(judge)), "");
      var sent := UpdatePayload(f, judge);
      sent.assignedPostId.None?
      && UsersApi.ApplyPatch(judge, AsPatch(sent), true).assignedPostId == Some(postId)
  {
  }

  /** A new judge's record on the server has no password and no permissions. */
  lemma NewJudgeStoredWithoutPassword(caller: User, f: UserForm, users: seq<User>, freshId: string)
    requires f.role == Judge
    ensures var o := UsersApi.CreateUser(caller, NewUserPayload(f), users, freshId);
      o.status == 201 && o.users[|users|].password.None? && o.users[|users|].permissions == []
      && o.users[|users|].assignedPostId == f.assignedPostId
  {
  }

  // ---- deleting ----

  datatype DeleteDecision = RefuseSelf | RefuseNotSuper | RefuseLastAdmin | Confirm

  function AdminCount(users: seq<User>): nat {
    |Filter(users, (u: User) => u.role == Admin)|
  }

  predicate IsSuper(current: Option<User>) {
    current.Some? && current.value.name == SuperAdminName
  }

  /** The row's delete button: enabled for a non-admin or by the super administrator, never for oneself. */
  predicate CanDelete(target: User, current: Option<User>) {
    var isSelf := current.Some? && target.id == current.value.id;
    (IsSuper(current) || target.role != Admin) && !isSelf
  }

  /** `handleDelete(user)` up to the confirmation prompt, guards in source order. */
  function HandleDelete(target: User, current: Option<User>, users: seq<User>): (d: DeleteDecision)
    ensures d == RefuseSelf <==> current.Some? && target.id == current.value.id
    ensures d == RefuseNotSuper <==>
      !(current.Some? && target.id == current.value.id) && target.role == Admin && !IsSuper(current)
    ensures d == RefuseLastAdmin <==>
      !(current.Some? && target.id == current.value.id) && target.role == Admin && IsSuper(current)
      && AdminCount(users) <= 1
  {
    if current.Some? && target.id == current.value.id then RefuseSelf
    else if target.role == Admin && !IsSuper(current) then RefuseNotSuper
    else if target.role == Admin && AdminCount(users) <= 1 then RefuseLastAdmin
    else Confirm
  }

  /** The handler asks for confirmation exactly when the button is enabled and the target is not the last admin. */
  lemma HandleDeleteMatchesButton(target: User, current: Option<User>, users: seq<User>)
    ensures HandleDelete(target, current, users) == Confirm <==>
      CanDelete(target, current) && !(target.role == Admin && AdminCount(users) <= 1)
  {
  }

  /**
   * What the form lets through the server carries out: a confirmed deletion
   * of a stored user by a logged-in administrator succeeds.
   */
  lemma ConfirmedDeletionSucceeds(target: User, me: User, users: seq<User>,
                                  isValid: string -> bool, toId: string -> string)
    requires HandleDelete(target, Some(me), users) == Confirm
    requires target in users && forall i, j :: 0 <= i < j < |users| ==> users[i].id != users[j].id
    requires target.id != "" && isValid(target.id) && toId(target.id) == target.id
    ensures UsersApi.RemoveUser(me, Some(target.id), users, isValid, toId).status == 200
    ensures UsersApi.RemoveUserAsWritten(me, Some(target.id), users, isValid, toId).status == 200
  {
    var k :| 0 <= k < |users| && users[k] == target;
    var f := FindUser(users, target.id);
    var i :| 0 <= i < |users| && users[i] == f.value;
    assert users[i].id == users[k].id;
    assert i == k;
  }

  /** Two different administrators among the users mean at least two admins are counted. */
  lemma TwoAdminsCounted(users: seq<User>, a: User, b: User)
    requires a in users && b in users && a != b && a.role == Admin && b.role == Admin
    ensures AdminCount(users) >= 2
  {
    var admins := Filter(users, (u: User) => u.role == Admin);
    var ka :| 0 <= ka < |users| && users[ka] == a;
    var kb :| 0 <= kb < |users| && users[kb] == b;
    assert a in admins && b in admins;
    var i :| 0 <= i < |admins| && admins[i] == a;
    var j :| 0 <= j < |admins| && admins[j] == b;
    assert i != j;
  }

  /**
   * The server has no last-admin rule, and needs none as long as the query
   * does not resolve to the caller's own id: an administrator the DELETE
   * branch, as written, lets delete another administrator is a second one.
   */
  lemma ServerNeverRemovesLastAdmin(me: User, q: Option<string>, users: seq<User>,
                                    isValid: string -> bool, toId: string -> string)
    requires me in users && me.role == Admin
    requires var o := UsersApi.RemoveUserAsWritten(me, q, users, isValid, toId);
      o.status == 200 && toId(q.value) != me.id && FindUser(users, toId(q.value)).value.role == Admin
    ensures AdminCount(users) >= 2
  {
    var t := FindUser(users, toId(q.value)).value;
    assert t.id != me.id;
    TwoAdminsCounted(users, me, t);
  }

  /**
   * Without that proviso the DELETE branch as written removes the only
   * administrator: the super administrator deleting their own id spelled in
   * upper case.
   */
  lemma LastAdminRemovedAsWritten()
    ensures var me := User("abc", SuperAdminName, Admin, Some("pw"), None, [], [], false);
      var o := UsersApi.RemoveUserAsWritten(me, Some("ABC"), [me], _ => true, Strings.Lower);
      AdminCount([me]) == 1 && o.status == 200 && AdminCount(o.users) == 0
  {
    var me := User("abc", SuperAdminName, Admin, Some("pw"), None, [], [], false);
    UsersApi.SelfDeletionSlipsThrough();
    var o := UsersApi.RemoveUserAsWritten(me, Some("ABC"), [me], _ => true, Strings.Lower);
    assert o.users == [];
    assert Filter([me], (u: User) => u.role == Admin) == [me];
  }

  /** With the corrected self check the same holds for every query. */
  lemma CorrectedServerNeverRemovesLastAdmin(me: User, q: Option<string>, users: seq<User>,
                                             isValid: string -> bool, toId: string -> string)
    requires me in users && me.role == Admin
    requires var o := UsersApi.RemoveUser(me, q, users, isValid, toId);
      o.status == 200 && FindUser(users, toId(q.value)).value.role == Admin
    ensures AdminCount(users) >= 2
  {
    var t := FindUser(users, toId(q.value)).value;
    assert t.id != me.id;
    TwoAdminsCounted(users, me, t);
  }
}

=== FILE: ranking.dfy ===
/**
 * The ranking engine (`calculateScores` in context/AppContext.tsx): the
 * teams of one (level, gender) category, each with the sum of its judges'
 * scoped contributions, ordered by total, highest first, by a stable sort.
 *
 * Summing a score map needs an arbitrary choice of key, so the engine is
 * stated as ghost functions; the order of `Object.entries` does not matter
 * to an integer sum.
 */
module Ranking {

  import opened Wrappers
  import opened Domain
  import opened Seqs
  import StableSort

  /** The reference data and the ledger the engine reads. */
  datatype Snapshot = Snapshot(teams: seq<Team>, users: seq<User>, posts: seq<Post>, scores: seq<Score>)

  // ---- summing a score map ----

  /** Some key of a non-empty set. */
  ghost function Pick(keys: set<string>): (k: string)
    requires keys != {}
    ensures k in keys
  {
    var k :| k in keys; k
  }

  /** The sum of `m`'s values over `keys`. */
  ghost function SumOver(m: map<string, int>, keys: set<string>): int
    requires keys <= m.Keys
    decreases keys
  {
    if keys == {} then 0
    else
      var k := Pick(keys);
      m[k] + SumOver(m, keys - {k})
  }

  /** The sum does not depend on which key is taken first. */
  lemma {:induction false} SumOverPick(m: map<string, int>, keys: set<string>, k: string)
    requires keys <= m.Keys && k in keys
    ensures SumOver(m, keys) == m[k] + SumOver(m, keys - {k})
    decreases keys
  {
    var j := Pick(keys);
    if j != k {
      SumOverPick(m, keys - {j}, k);
      SumOverPick(m, keys - {k}, j);
      assert keys - {j} - {k} == keys - {k} - {j};
    }
  }

  /** Two maps that agree on `keys` have the same sum over them. */
  lemma {:induction false} SumOverAgree(m1: map<string, int>, m2: map<string, int>, keys: set<string>)
    requires keys <= m1.Keys && keys <= m2.Keys
    requires forall k :: k in keys ==> m1[k] == m2[k]
    ensures SumOver(m1, keys) == SumOver(m2, keys)
    decreases keys
  {
    if keys != {} {
      var k := Pick(keys);
      SumOverAgree(m1, m2, keys - {k});
    }
  }

  lemma {:induction false} SumOverBounds(m: map<string, int>, keys: set<string>, lo: int, hi: int)
    requires keys <= m.Keys
    requires forall k :: k in keys ==> lo <= m[k] <= hi
    ensures lo * |keys| <= SumOver(m, keys) <= hi * |keys|
    decreases keys
  {
    if keys != {} {
      var k := Pick(keys);
      var n := |keys - {k}|;
      SumOverBounds(m, keys - {k}, lo, hi);
      assert |keys| == n + 1;
      assert lo * (n + 1) == lo * n + lo && hi * (n + 1) == hi * n + hi;
    }
  }

  // ---- one judge's contribution ----

  /** A criterion counts for a judge when the judge's list is empty or names it. */
  predicate InScope(scope: seq<string>, criterionId: string) {
    |scope| == 0 || criterionId in scope
  }

  ghost function ScopedKeys(scores: map<string, int>, scope: seq<string>): (keys: set<string>)
    ensures keys <= scores.Keys
  {
    set c | c in scores.Keys && InScope(scope, c)
  }

  /** `scorePerJudge`: the sum of the entry's values for the criteria in scope. */
  ghost function Contribution(scores: map<string, int>, scope: seq<string>): int {
    SumOver(scores, ScopedKeys(scores, scope))
  }

  /** No values, no contribution. */
  lemma ContributionOfEmpty(scope: seq<string>)
    ensures Contribution(map[], scope) == 0
  {
    assert ScopedKeys(map[], scope) == {};
  }

  /** A value for a criterion outside the judge's scope never changes the contribution. */
  lemma ContributionIgnoresOutOfScope(m: map<string, int>, scope: seq<string>, c: string, v: int)
    requires !InScope(scope, c)
    ensures Contribution(m[c := v], scope) == Contribution(m, scope)
  {
    assert ScopedKeys(m[c := v], scope) == ScopedKeys(m, scope);
    SumOverAgree(m[c := v], m, ScopedKeys(m, scope));
  }

  /** A new in-scope value adds exactly itself to the contribution. */
  lemma ContributionAddsInScope(m: map<string, int>, scope: seq<string>, c: string, v: int)
    requires InScope(scope, c) && c !in m
    ensures Contribution(m[c := v], scope) == Contribution(m, scope) + v
  {
    var keys := ScopedKeys(m, scope);
    var keys' := ScopedKeys(m[c := v], scope);
    assert keys' == keys + {c};
    SumOverPick(m[c := v], keys', c);
    assert keys' - {c} == keys;
    SumOverAgree(m[c := v], m, keys);
  }

  /** With every value in [0, 100] a contribution lies between 0 and 100 per counted criterion. */
  lemma ContributionBounds(m: map<string, int>, scope: seq<string>)
    requires forall c :: c in m ==> 0 <= m[c] <= 100
    ensures 0 <= Contribution(m, scope) <= 100 * |ScopedKeys(m, scope)|
  {
    SumOverBounds(m, ScopedKeys(m, scope), 0, 100);
  }

  /** A judge assigned `c1` at a post scoring `{c1: 70, c2: 99}` contributes 70. */
  lemma ScopedJudgeExample()
    ensures Contribution(map["c1" := 70, "c2" := 99], ["c1"]) == 70
  {
    var m0: map<string, int> := map[];
    ContributionOfEmpty(["c1"]);
    ContributionAddsInScope(m0, ["c1"], "c1", 70);
    ContributionIgnoresOutOfScope(m0["c1" := 70], ["c1"], "c2", 99);
    assert m0["c1" := 70]["c2" := 99] == map["c1" := 70, "c2" := 99];
  }

  /** A judge without assigned criteria scoring `{c1: 40, c2: 60}` contributes 100. */
  lemma UnscopedJudgeExample()
    ensures Contribution(map["c1" := 40, "c2" := 60], []) == 100
  {
    var m0: map<string, int> := map[];
    ContributionOfEmpty([]);
    ContributionAddsInScope(m0, [], "c1", 40);
    ContributionAddsInScope(m0["c1" := 40], [], "c2", 60);
    assert m0["c1" := 40]["c2" := 60] == map["c1" := 40, "c2" := 60];
  }

  // ---- per-entry detail ----

  /** `judge?.assignedCriteriaIds ?? []`. */
  function ScopeOf(judge: Option<User>): seq<string> {
    if judge.Some? then judge.value.assignedCriteriaIds else []
  }

  /** `x || fallback` for an optional string. */
  function OrElse(s: Option<string>, fallback: string): (r: string)
    ensures Truthy(s) ==> r == s.value
    ensures !Truthy(s) ==> r == fallback
  {
    if Truthy(s) then s.value else fallback
  }

  function NameOf(u: Option<User>): Option<string> {
    if u.Some? then Some(u.value.name) else None
  }

  function IdOf(u: Option<User>): Option<string> {
    if u.Some? then Some(u.value.id) else None
  }

  function PostNameOf(p: Option<Post>): Option<string> {
    if p.Some? then Some(p.value.name) else None
  }

  /** The entry's contribution under its judge's current scope. */
  ghost function JudgeScore(e: Score, snap: Snapshot): int {
    Contribution(e.scores, ScopeOf(FindUser(snap.users, e.judgeId)))
  }

  ghost function Detail(e: Score, snap: Snapshot): (d: JudgeScoreDetail)
    ensures FindUser(snap.users, e.judgeId).None? ==>
      d.judgeId == "unknown-judge" && d.judgeName == "Unknown Judge" && d.score == Contribution(e.scores, [])
    ensures FindPost(snap.posts, e.postId).None? ==> d.postName == "Unknown Post"
    ensures FindUser(snap.users, e.judgeId).Some? && e.judgeId != "" ==> d.judgeId == e.judgeId
    ensures var judge := FindUser(snap.users, e.judgeId);
      judge.Some? ==>
        && d.score == Contribution(e.scores, judge.value.assignedCriteriaIds)
        && d.judgeName == (if judge.value.name != "" then judge.value.name else "Unknown Judge")
    ensures var post := FindPost(snap.posts, e.postId);
      post.Some? ==> d.postName == (if post.value.name != "" then post.value.name else "Unknown Post")
  {
    var judge := FindUser(snap.users, e.judgeId);
    var post := FindPost(snap.posts, e.postId);
    JudgeScoreDetail(
      OrElse(IdOf(judge), "unknown-judge"),
      OrElse(NameOf(judge), "Unknown Judge"),
      OrElse(PostNameOf(post), "Unknown Post"),
      JudgeScore(e, snap))
  }

  // ---- per-team totals ----

  /** The ledger entries for one team, in ledger order. */
  function EntriesFor(scores: seq<Score>, teamId: string): seq<Score> {
    Filter(scores, (s: Score) => s.teamId == teamId)
  }

  /** `totalScore += scorePerJudge`, entry by entry. */
  ghost function Accumulate(entries: seq<Score>, snap: Snapshot): int {
    if |entries| == 0 then 0
    else Accumulate(entries[..|entries| - 1], snap) + JudgeScore(entries[|entries| - 1], snap)
  }

  function SumDetails(ds: seq<JudgeScoreDetail>): int {
    if |ds| == 0 then 0 else SumDetails(ds[..|ds| - 1]) + ds[|ds| - 1].score
  }

  ghost function Details(entries: seq<Score>, snap: Snapshot): (ds: seq<JudgeScoreDetail>)
    ensures |ds| == |entries|
    ensures forall i :: 0 <= i < |entries| ==> ds[i] == Detail(entries[i], snap)
  {
    seq(|entries|, i requires 0 <= i < |entries| => Detail(entries[i], snap))
  }

  /** The accumulated total is the sum of the listed judge scores. */
  lemma {:induction false} AccumulateIsSumOfDetails(entries: seq<Score>, snap: Snapshot)
    ensures Accumulate(entries, snap) == SumDetails(Details(entries, snap))
  {
    if |entries| > 0 {
      var n := |entries| - 1;
      var init := entries[..n];
      AccumulateIsSumOfDetails(init, snap);
      var ds := Details(entries, snap);
      assert ds[..n] == Details(init, snap);
      assert ds[n].score == JudgeScore(entries[n], snap);
    }
  }

  /** One team's row of the ranking. */
  ghost function TeamTotal(t: Team, snap: Snapshot): (r: TeamTotalScore)
    ensures r.teamId == t.id && r.teamName == t.name && r.teamNumber == t.number
    ensures r.judgeScores == Details(EntriesFor(snap.scores, t.id), snap)
    ensures r.totalScore == SumDetails(r.judgeScores)
  {
    var entries := EntriesFor(snap.scores, t.id);
    AccumulateIsSumOfDetails(entries, snap);
    TeamTotalScore(t.id, t.name, t.number, Accumulate(entries, snap), Details(entries, snap))
  }

  /** A team with no ledger entries totals 0 and lists no judge. */
  lemma TeamWithoutEntries(t: Team, snap: Snapshot)
    requires forall i :: 0 <= i < |snap.scores| ==> snap.scores[i].teamId != t.id
    ensures TeamTotal(t, snap).totalScore == 0 && TeamTotal(t, snap).judgeScores == []
  {
    FilterNone(snap.scores, (s: Score) => s.teamId == t.id);
  }

  // ---- the ranking ----

  predicate RanksAtLeast(a: TeamTotalScore, b: TeamTotalScore) {
    a.totalScore >= b.totalScore
  }

  lemma RanksAtLeastIsPreorder()
    ensures StableSort.TotalPreorder(RanksAtLeast)
  {
  }

  function CategoryTeams(teams: seq<Team>, level: Level, gender: Gender): seq<Team> {
    Filter(teams, (t: Team) => InCategory(t, level, gender))
  }

  ghost function Totals(teams: seq<Team>, snap: Snapshot): (r: seq<TeamTotalScore>)
    ensures |r| == |teams|
    ensures forall i :: 0 <= i < |teams| ==> r[i] == TeamTotal(teams[i], snap)
  {
    seq(|teams|, i requires 0 <= i < |teams| => TeamTotal(teams[i], snap))
  }

  /** The rows whose total is `v`, in their order. */
  function WithTotal(s: seq<TeamTotalScore>, v: int): seq<TeamTotalScore> {
    Filter(s, (x: TeamTotalScore) => x.totalScore == v)
  }

  lemma {:induction false} ClassIsWithTotal(s: seq<TeamTotalScore>, z: TeamTotalScore)
    ensures StableSort.Class(s, z, RanksAtLeast) == WithTotal(s, z.totalScore)
  {
    if |s| > 0 {
      ClassIsWithTotal(s[1..], z);
    }
  }

  /**
   * `calculateScores({level, gender})`: the category's rows ordered by
   * total, highest first; rows with equal totals keep the team-list order.
   */
  ghost function CalculateScores(snap: Snapshot, level: Level, gender: Gender): (r: seq<TeamTotalScore>)
    ensures forall i, j :: 0 <= i < j < |r| ==> r[i].totalScore >= r[j].totalScore
    ensures multiset(r) == multiset(Totals(CategoryTeams(snap.teams, level, gender), snap))
    ensures |r| == |CategoryTeams(snap.teams, level, gender)|
    ensures forall v :: WithTotal(r, v) == WithTotal(Totals(CategoryTeams(snap.teams, level, gender), snap), v)
  {
    var rows := Totals(CategoryTeams(snap.teams, level, gender), snap);
    RanksAtLeastIsPreorder();
    var r := StableSort.Sort(rows, RanksAtLeast);
    forall v
      ensures WithTotal(r, v) == WithTotal(rows, v)
    {
      var z := TeamTotalScore("", "", "", v, []);
      ClassIsWithTotal(r, z);
      ClassIsWithTotal(rows, z);
    }
    r
  }

  lemma RowOfCategoryTeam(snap: Snapshot, level: Level, gender: Gender, t: Team)
    requires t in snap.teams && InCategory(t, level, gender)
    ensures TeamTotal(t, snap) in Totals(CategoryTeams(snap.teams, level, gender), snap)
  {
    var cat := CategoryTeams(snap.teams, level, gender);
    var k :| 0 <= k < |snap.teams| && snap.teams[k] == t;
    assert t in cat;
    var i :| 0 <= i < |cat| && cat[i] == t;
    assert Totals(cat, snap)[i] == TeamTotal(t, snap);
  }

  lemma CategoryTeamOfRow(snap: Snapshot, level: Level, gender: Gender, x: TeamTotalScore)
    requires x in Totals(CategoryTeams(snap.teams, level, gender), snap)
    ensures exists t :: t in snap.teams && InCategory(t, level, gender) && x == TeamTotal(t, snap)
  {
    var cat := CategoryTeams(snap.teams, level, gender);
    var rows := Totals(cat, snap);
    var i :| 0 <= i < |rows| && rows[i] == x;
    var t := cat[i];
    assert t in snap.teams && InCategory(t, level, gender) && x == TeamTotal(t, snap);
  }

  /** A row appears in the ranking exactly when it is the row of a team of that category. */
  lemma RankingHoldsExactlyTheCategory(snap: Snapshot, level: Level, gender: Gender, x: TeamTotalScore)
    ensures x in CalculateScores(snap, level, gender) <==>
      exists t :: t in snap.teams && InCategory(t, level, gender) && x == TeamTotal(t, snap)
  {
    var r := CalculateScores(snap, level, gender);
    var rows := Totals(CategoryTeams(snap.teams, level, gender), snap);
    assert x in r <==> x in rows by {
      assert x in r <==> x in multiset(r);
      assert x in rows <==> x in multiset(rows);
    }
    if x in rows {
      CategoryTeamOfRow(snap, level, gender, x);
    }
    forall t | t in snap.teams && InCategory(t, level, gender) && x == TeamTotal(t, snap)
      ensures x in rows
    {
      RowOfCategoryTeam(snap, level, gender, t);
    }
  }

  /**
   * The ranking is the only ordering of the category's rows that is sorted
   * by total and keeps the team-list order among equal totals: any stable
   * sort yields it.
   */
  lemma RankingIsTheStableOrder(snap: Snapshot, level: Level, gender: Gender, r': seq<TeamTotalScore>)
    requires forall i, j :: 0 <= i < j < |r'| ==> r'[i].totalScore >= r'[j].totalScore
    requires forall v :: WithTotal(r', v) == WithTotal(Totals(CategoryTeams(snap.teams, level, gender), snap), v)
    ensures r' == CalculateScores(snap, level, gender)
  {
    var r := CalculateScores(snap, level, gender);
    RanksAtLeastIsPreorder();
    forall z
      ensures StableSort.Class(r', z, RanksAtLeast) == StableSort.Class(r, z, RanksAtLeast)
    {
      ClassIsWithTotal(r', z);
      ClassIsWithTotal(r, z);
    }
    StableSort.SortedStableIsUnique(r', r, RanksAtLeast);
  }

  /** After the ledger is reset every team of the category ranks with 0, in team-list order. */
  lemma RankingAfterReset(snap: Snapshot, level: Level, gender: Gender)
    requires snap.scores == []
    ensures var cat := CategoryTeams(snap.teams, level, gender);
      CalculateScores(snap, level, gender) == seq(|cat|, i requires 0 <= i < |cat| => TeamTotalScore(cat[i].id, cat[i].name, cat[i].number, 0, []))
  {
    var cat := CategoryTeams(snap.teams, level, gender);
    var rows := Totals(cat, snap);
    forall i | 0 <= i < |cat|
      ensures rows[i] == TeamTotalScore(cat[i].id, cat[i].name, cat[i].number, 0, [])
    {
      TeamWithoutEntries(cat[i], snap);
    }
    RanksAtLeastIsPreorder();
    StableSort.SortAllEquivalent(rows, RanksAtLeast);
  }

  // ---- a worked example ----

  /** One team of SD/Putra, one judge assigned `c1` at a post with criteria c1 and c2. */
  const ExampleTeam: Team := Team("T1", "Regu 1", "101", SD, Putra)
  const ExampleJudge: User := User("J1", "Juri 1", Judge, None, Some("P1"), ["c1"], [], false)
  const ExamplePost: Post := Post("P1", "Pos 1", [Criterion("c1", "Kerapian", 100), Criterion("c2", "Semangat", 100)])
  /** The judge entered `{c1: 90, c2: 100}` for the team. */
  const ExampleEntry: Score := Score("T1", "P1", "J1", map["c1" := 90, "c2" := 100], None)
  const ExampleSnap: Snapshot := Snapshot([ExampleTeam], [ExampleJudge], [ExamplePost], [ExampleEntry])

  /** Only the criterion in the judge's scope counts: the entry contributes 90. */
  lemma ExampleJudgeScore()
    ensures JudgeScore(ExampleEntry, ExampleSnap) == 90
  {
    var m0: map<string, int> := map[];
    ContributionOfEmpty(["c1"]);
    ContributionAddsInScope(m0, ["c1"], "c1", 90);
    ContributionIgnoresOutOfScope(m0["c1" := 90], ["c1"], "c2", 100);
    assert m0["c1" := 90]["c2" := 100] == ExampleEntry.scores;
    assert FindUser(ExampleSnap.users, "J1") == Some(ExampleJudge);
  }

  lemma ExampleRow()
    ensures TeamTotal(ExampleTeam, ExampleSnap)
         == TeamTotalScore("T1", "Regu 1", "101", 90, [JudgeScoreDetail("J1", "Juri 1", "Pos 1", 90)])
  {
    ExampleJudgeScore();
    assert FindUser(ExampleSnap.users, "J1") == Some(ExampleJudge);
    assert FindPost(ExampleSnap.posts, "P1") == Some(ExamplePost);
    assert EntriesFor(ExampleSnap.scores, "T1") == [ExampleEntry];
    var ds := Details([ExampleEntry], ExampleSnap);
    assert ds == [JudgeScoreDetail("J1", "Juri 1", "Pos 1", 90)];
    assert SumDetails(ds) == 90 by {
      assert ds[..0] == [];
    }
  }

  /** The team ranks alone with 90, listing the judge once. */
  lemma WorkedExample()
    ensures CalculateScores(ExampleSnap, SD, Putra)
         == [TeamTotalScore("T1", "Regu 1", "101", 90, [JudgeScoreDetail("J1", "Juri 1", "Pos 1", 90)])]
  {
    ExampleRow();
    var row := TeamTotal(ExampleTeam, ExampleSnap);
    assert CategoryTeams(ExampleSnap.teams, SD, Putra) == [ExampleTeam];
    assert Totals([ExampleTeam], ExampleSnap) == [row];
    var r := CalculateScores(ExampleSnap, SD, Putra);
    assert multiset(r) == multiset{row};
    assert |r| == 1 && r[0] in multiset(r);
  }
}

=== FILE: report.dfy ===
/**
 * The printable report (pages/admin/ReportPage.tsx): one table per
 * (level, gender) category that has teams, columns grouped by the post each
 * judge is assigned to, one row per ranked team and one cell per judge.
 */
module Report {

  import opened Wrappers
  import opened Domain
  import opened Seqs
  import opened Ranking

  datatype Category = Category(level: Level, gender: Gender)

  /** `Object.values(TeamLevel)` and `Object.values(TeamGender)`, in declaration order. */
  const Levels: seq<Level> := [SD, SMP, SMA, UMUM]
  const Genders: seq<Gender> := [Putra, Putri]

  function LevelIndex(l: Level): (i: nat)
    ensures i < |Levels| && Levels[i] == l
  {
    match l
    case SD => 0
    case SMP => 1
    case SMA => 2
    case UMUM => 3
  }

  function GenderIndex(g: Gender): (i: nat)
    ensures i < |Genders| && Genders[i] == g
  {
    match g
    case Putra => 0
    case Putri => 1
  }

  /** The nested `forEach` that lists the categories, level by level. */
  method Categories() returns (cats: seq<Category>)
    ensures |cats| == |Levels| * |Genders|
    ensures forall i :: 0 <= i < |cats| ==> cats[i] == Category(Levels[i / 2], Genders[i % 2])
    ensures forall l: Level, g: Gender :: Category(l, g) in cats
    ensures forall i, j :: 0 <= i < j < |cats| ==> cats[i] != cats[j]
  {
    cats := [];
    var a := 0;
    while a < |Levels|
      invariant 0 <= a <= |Levels|
      invariant |cats| == 2 * a
      invariant forall i :: 0 <= i < |cats| ==> cats[i] == Category(Levels[i / 2], Genders[i % 2])
    {
      var b := 0;
      while b < |Genders|
        invariant 0 <= b <= |Genders|
        invariant |cats| == 2 * a + b
        invariant forall i :: 0 <= i < |cats| ==> cats[i] == Category(Levels[i / 2], Genders[i % 2])
      {
        cats := cats + [Category(Levels[a], Genders[b])];
        b := b + 1;
      }
      a := a + 1;
    }
    forall l: Level, g: Gender
      ensures Category(l, g) in cats
    {
      var k := 2 * LevelIndex(l) + GenderIndex(g);
      assert cats[k] == Category(l, g);
    }
    forall i, j | 0 <= i < j < |cats|
      ensures cats[i] != cats[j]
    {
      assert LevelIndex(cats[i].level) == i / 2 && GenderIndex(cats[i].gender) == i % 2;
      assert LevelIndex(cats[j].level) == j / 2 && GenderIndex(cats[j].gender) == j % 2;
    }
  }

  /** The categories that get a table: those whose ranking is not empty. */
  ghost function Rendered(snap: Snapshot, cats: seq<Category>): (r: seq<Category>)
    ensures forall c :: c in r <==> c in cats && exists t :: t in snap.teams && InCategory(t, c.level, c.gender)
  {
    var r := Filter(cats, (c: Category) => |CalculateScores(snap, c.level, c.gender)| > 0);
    forall c
      ensures c in r <==> c in cats && exists t :: t in snap.teams && InCategory(t, c.level, c.gender)
    {
      CategoryHasRows(snap, c);
    }
    r
  }

  lemma CategoryHasRows(snap: Snapshot, c: Category)
    ensures |CalculateScores(snap, c.level, c.gender)| > 0 <==>
      exists t :: t in snap.teams && InCategory(t, c.level, c.gender)
  {
    var cat := CategoryTeams(snap.teams, c.level, c.gender);
    if |cat| > 0 {
      assert cat[0] in snap.teams && InCategory(cat[0], c.level, c.gender);
    }
    forall t | t in snap.teams && InCategory(t, c.level, c.gender)
      ensures |cat| > 0
    {
      assert t in cat;
    }
  }

  // ---- judge columns grouped by post ----

  datatype JudgeRef = JudgeRef(id: string, name: string)
  datatype Group = Group(postId: string, postName: string, judges: seq<JudgeRef>)

  const MissingPost: string := "Pos Tidak Ditemukan"

  /** A judge with an assigned post gets a column. */
  predicate Posted(u: User) {
    u.role == Judge && Truthy(u.assignedPostId)
  }

  /** `post?.name || 'Pos Tidak Ditemukan'`. */
  function PostLabel(posts: seq<Post>, postId: string): string {
    OrElse(PostNameOf(FindPost(posts, postId)), MissingPost)
  }

  function RefOf(u: User): JudgeRef {
    JudgeRef(u.id, u.name)
  }

  function Refs(us: seq<User>): (r: seq<JudgeRef>)
    ensures |r| == |us|
    ensures forall i :: 0 <= i < |us| ==> r[i] == RefOf(us[i])
  {
    seq(|us|, i requires 0 <= i < |us| => RefOf(us[i]))
  }

  function AtPost(postId: string): User -> bool {
    (u: User) => u.assignedPostId == Some(postId)
  }

  function HasPost(postId: string): Group -> bool {
    (g: Group) => g.postId == postId
  }

  /** One step of the `reduce`: open the judge's post group if needed, then append the judge. */
  function AddJudge(groups: seq<Group>, judge: User, posts: seq<Post>): seq<Group>
    requires Posted(judge)
  {
    var pid := judge.assignedPostId.value;
    var i := FindIndex(groups, HasPost(pid));
    if i >= 0 then groups[i := groups[i].(judges := groups[i].judges + [RefOf(judge)])]
    else groups + [Group(pid, PostLabel(posts, pid), [RefOf(judge)])]
  }

  /** The `reduce` over the posted judges, in user-list order. */
  function GroupJudges(judges: seq<User>, posts: seq<Post>): seq<Group>
    requires forall i :: 0 <= i < |judges| ==> Posted(judges[i])
  {
    if |judges| == 0 then []
    else AddJudge(GroupJudges(judges[..|judges| - 1], posts), judges[|judges| - 1], posts)
  }

  /** The judges that get a column: every posted judge, in user-list order. */
  function PostedJudges(users: seq<User>): (r: seq<User>)
    ensures forall i :: 0 <= i < |r| ==> Posted(r[i])
    ensures forall u :: u in r <==> u in users && Posted(u)
    ensures Subseq(r, users)
  {
    FilterIsSubseq(users, Posted);
    Filter(users, Posted)
  }

  function GroupJudgesByPost(users: seq<User>, posts: seq<Post>): seq<Group> {
    GroupJudges(PostedJudges(users), posts)
  }

  /** Each post has at most one group. */
  ghost predicate DistinctPosts(groups: seq<Group>) {
    forall a, b :: 0 <= a < b < |groups| ==> groups[a].postId != groups[b].postId
  }

  /** Each group carries its post's postName. */
  ghost predicate Labelled(groups: seq<Group>, posts: seq<Post>) {
    forall a :: 0 <= a < |groups| ==> groups[a].postName == PostLabel(posts, groups[a].postId)
  }

  /** Each group holds exactly the judges of its post, in list order. */
  ghost predicate Members(groups: seq<Group>, judges: seq<User>) {
    forall a :: 0 <= a < |groups| ==> groups[a].judges == Refs(Filter(judges, AtPost(groups[a].postId)))
  }

  /** Every judge's post has a group. */
  ghost predicate Covered(groups: seq<Group>, judges: seq<User>) {
    forall i :: 0 <= i < |judges| ==>
      judges[i].assignedPostId.Some? && FindIndex(groups, HasPost(judges[i].assignedPostId.value)) >= 0
  }

  /**
   * What the grouping promises: one group per assigned post, labelled with
   * the post's name, holding exactly the judges of that post in list order,
   * and every posted judge in some group.
   */
  ghost predicate Describes(groups: seq<Group>, judges: seq<User>, posts: seq<Post>) {
    DistinctPosts(groups) && Labelled(groups, posts) && Members(groups, judges) && Covered(groups, judges)
  }

  lemma RefsSnoc(s: seq<User>, u: User)
    ensures Refs(s + [u]) == Refs(s) + [RefOf(u)]
  {
  }

  lemma JudgesOfPostAfterAdding(init: seq<User>, j: User, q: string)
    ensures Refs(Filter(init + [j], AtPost(q)))
         == Refs(Filter(init, AtPost(q))) + (if j.assignedPostId == Some(q) then [RefOf(j)] else [])
  {
    FilterSnoc(init, j, AtPost(q));
    if j.assignedPostId == Some(q) {
      RefsSnoc(Filter(init, AtPost(q)), j);
    }
  }

  /** A judge whose post already has a group joins the end of that group. */
  lemma JoinExistingGroup(g0: seq<Group>, init: seq<User>, j: User, posts: seq<Post>)
    requires Describes(g0, init, posts) && Posted(j)
    requires FindIndex(g0, HasPost(j.assignedPostId.value)) >= 0
    ensures Describes(AddJudge(g0, j, posts), init + [j], posts)
  {
    var pid := j.assignedPostId.value;
    var i := FindIndex(g0, HasPost(pid));
    var g := g0[i := g0[i].(judges := g0[i].judges + [RefOf(j)])];
    assert AddJudge(g0, j, posts) == g;
    assert g0[i].postId == pid;
    JoinKeepsLabels(g0, posts, i, g0[i].judges + [RefOf(j)]);
    JoinKeepsMembers(g0, init, j, i);
    JoinKeepsCovered(g0, init, j, i);
  }

  lemma JoinKeepsLabels(g0: seq<Group>, posts: seq<Post>, i: int, js: seq<JudgeRef>)
    requires DistinctPosts(g0) && Labelled(g0, posts) && 0 <= i < |g0|
    ensures DistinctPosts(g0[i := g0[i].(judges := js)]) && Labelled(g0[i := g0[i].(judges := js)], posts)
  {
    var g := g0[i := g0[i].(judges := js)];
    assert forall a :: 0 <= a < |g| ==> g[a].postId == g0[a].postId && g[a].postName == g0[a].postName;
  }

  lemma OpenKeepsLabels(g0: seq<Group>, posts: seq<Post>, pid: string, js: seq<JudgeRef>)
    requires DistinctPosts(g0) && Labelled(g0, posts)
    requires forall a :: 0 <= a < |g0| ==> g0[a].postId != pid
    ensures var g := g0 + [Group(pid, PostLabel(posts, pid), js)];
      DistinctPosts(g) && Labelled(g, posts)
  {
    var g := g0 + [Group(pid, PostLabel(posts, pid), js)];
    assert forall a :: 0 <= a < |g0| ==> g[a] == g0[a];
  }

  lemma JoinKeepsMembers(g0: seq<Group>, init: seq<User>, j: User, i: int)
    requires DistinctPosts(g0) && Members(g0, init)
    requires 0 <= i < |g0| && j.assignedPostId == Some(g0[i].postId)
    ensures Members(g0[i := g0[i].(judges := g0[i].judges + [RefOf(j)])], init + [j])
  {
    var g := g0[i := g0[i].(judges := g0[i].judges + [RefOf(j)])];
    forall a | 0 <= a < |g|
      ensures g[a].judges == Refs(Filter(init + [j], AtPost(g[a].postId)))
    {
      JudgesOfPostAfterAdding(init, j, g[a].postId);
      if a != i {
        assert g[a] == g0[a];
        assert g0[a].postId != g0[i].postId;
      }
    }
  }

  lemma JoinKeepsCovered(g0: seq<Group>, init: seq<User>, j: User, i: int)
    requires Covered(g0, init)
    requires 0 <= i < |g0| && j.assignedPostId == Some(g0[i].postId)
    ensures Covered(g0[i := g0[i].(judges := g0[i].judges + [RefOf(j)])], init + [j])
  {
    var g := g0[i := g0[i].(judges := g0[i].judges + [RefOf(j)])];
    forall q
      ensures FindIndex(g, HasPost(q)) == FindIndex(g0, HasPost(q))
    {
      FindIndexAgree(g, HasPost(q), g0, HasPost(q));
    }
    assert HasPost(j.assignedPostId.value)(g0[i]);
    forall k | 0 <= k < |init| + 1
      ensures (init + [j])[k] == if k < |init| then init[k] else j
    {
    }
  }

  /** A judge whose post has no group yet opens a new group at the end. */
  lemma OpenNewGroup(g0: seq<Group>, init: seq<User>, j: User, posts: seq<Post>)
    requires Describes(g0, init, posts) && Posted(j)
    requires FindIndex(g0, HasPost(j.assignedPostId.value)) == -1
    ensures Describes(AddJudge(g0, j, posts), init + [j], posts)
  {
    var pid := j.assignedPostId.value;
    var g := g0 + [Group(pid, PostLabel(posts, pid), [RefOf(j)])];
    assert AddJudge(g0, j, posts) == g;
    assert forall a :: 0 <= a < |g0| ==> g0[a].postId != pid;
    OpenKeepsLabels(g0, posts, pid, [RefOf(j)]);
    OpenKeepsMembers(g0, init, j, PostLabel(posts, pid));
    OpenKeepsCovered(g0, init, j, PostLabel(posts, pid));
  }

  lemma OpenKeepsMembers(g0: seq<Group>, init: seq<User>, j: User, postName: string)
    requires Members(g0, init) && Covered(g0, init) && j.assignedPostId.Some?
    requires forall a :: 0 <= a < |g0| ==> g0[a].postId != j.assignedPostId.value
    ensures Members(g0 + [Group(j.assignedPostId.value, postName, [RefOf(j)])], init + [j])
  {
    var pid := j.assignedPostId.value;
    var g := g0 + [Group(pid, postName, [RefOf(j)])];
    forall k | 0 <= k < |init|
      ensures !AtPost(pid)(init[k])
    {
      var a := FindIndex(g0, HasPost(init[k].assignedPostId.value));
      assert g0[a].postId != pid;
    }
    FilterNone(init, AtPost(pid));
    forall a | 0 <= a < |g|
      ensures g[a].judges == Refs(Filter(init + [j], AtPost(g[a].postId)))
    {
      JudgesOfPostAfterAdding(init, j, g[a].postId);
      if a < |g0| {
        assert g[a] == g0[a];
      }
    }
  }

  lemma OpenKeepsCovered(g0: seq<Group>, init: seq<User>, j: User, postName: string)
    requires Covered(g0, init) && j.assignedPostId.Some?
    ensures Covered(g0 + [Group(j.assignedPostId.value, postName, [RefOf(j)])], init + [j])
  {
    var g := g0 + [Group(j.assignedPostId.value, postName, [RefOf(j)])];
    forall k | 0 <= k < |init|
      ensures FindIndex(g, HasPost(init[k].assignedPostId.value)) >= 0
    {
      var q := init[k].assignedPostId.value;
      var a := FindIndex(g0, HasPost(q));
      assert HasPost(q)(g[a]);
    }
    assert HasPost(j.assignedPostId.value)(g[|g0|]);
    forall k | 0 <= k < |init| + 1
      ensures (init + [j])[k] == if k < |init| then init[k] else j
    {
    }
  }

  lemma {:induction false} GroupJudgesDescribes(judges: seq<User>, posts: seq<Post>)
    requires forall i :: 0 <= i < |judges| ==> Posted(judges[i])
    ensures Describes(GroupJudges(judges, posts), judges, posts)
  {
    if |judges| > 0 {
      var n := |judges| - 1;
      var init := judges[..n];
      var j := judges[n];
      assert judges == init + [j];
      GroupJudgesDescribes(init, posts);
      var g0 := GroupJudges(init, posts);
      if FindIndex(g0, HasPost(j.assignedPostId.value)) >= 0 {
        JoinExistingGroup(g0, init, j, posts);
      } else {
        OpenNewGroup(g0, init, j, posts);
      }
    }
  }

  /** The report's column groups satisfy `Describes` for the posted judges. */
  lemma GroupingDescribesPostedJudges(users: seq<User>, posts: seq<Post>)
    ensures Describes(GroupJudgesByPost(users, posts), PostedJudges(users), posts)
  {
    GroupJudgesDescribes(PostedJudges(users), posts);
  }

  // ---- rows and cells ----

  /** `index + 1`: the rank shown for the row at `index` of the ranking. */
  function RankAt(index: nat): nat {
    index + 1
  }

  /** A team ranked above another never has the lower total. */
  lemma BetterRankNeverLowerTotal(snap: Snapshot, level: Level, gender: Gender, i: nat, j: nat)
    requires i < j < |CalculateScores(snap, level, gender)|
    ensures RankAt(i) == i + 1 && RankAt(i) < RankAt(j)
    ensures CalculateScores(snap, level, gender)[i].totalScore >= CalculateScores(snap, level, gender)[j].totalScore
  {
  }

  function ListsJudge(judgeId: string): JudgeScoreDetail -> bool {
    (d: JudgeScoreDetail) => d.judgeId == judgeId
  }

  function FiledBy(judgeId: string): Score -> bool {
    (e: Score) => e.judgeId == judgeId
  }

  /** The cell under a judge's column: the first detail listed under that judge's id, or `-` (`None`). */
  function Cell(row: TeamTotalScore, judgeId: string): (r: Option<int>)
    ensures r.None? <==> forall k :: 0 <= k < |row.judgeScores| ==> row.judgeScores[k].judgeId != judgeId
  {
    match Find(row.judgeScores, ListsJudge(judgeId))
    case Some(d) => Some(d.score)
    case None => None
  }

  /** A detail names judge `j` exactly when its entry was filed under `j`, for a stored judge with an ordinary id. */
  lemma DetailNamesJudge(e: Score, snap: Snapshot, j: string)
    requires j != "" && j != "unknown-judge" && FindUser(snap.users, j).Some?
    ensures Detail(e, snap).judgeId == j <==> e.judgeId == j
  {
  }

  /**
   * A stored judge's cell in a team's row shows the scoped contribution of
   * that judge's first ledger entry for the team, and `-` when the judge has
   * filed none.
   */
  lemma CellShowsFirstEntry(snap: Snapshot, t: Team, j: string)
    requires j != "" && j != "unknown-judge" && FindUser(snap.users, j).Some?
    ensures var first := Find(EntriesFor(snap.scores, t.id), FiledBy(j));
      Cell(TeamTotal(t, snap), j) == if first.Some? then Some(JudgeScore(first.value, snap)) else None
  {
    var entries := EntriesFor(snap.scores, t.id);
    var ds := TeamTotal(t, snap).judgeScores;
    var p := ListsJudge(j);
    var q := FiledBy(j);
    forall k | 0 <= k < |ds|
      ensures p(ds[k]) <==> q(entries[k])
    {
      DetailNamesJudge(entries[k], snap, j);
    }
    FindIndexAgree(ds, p, entries, q);
    var k := FindIndex(entries, q);
    if k >= 0 {
      assert ds[k] == Detail(entries[k], snap);
    }
  }
}

=== FILE: scores_api.dfy ===
/**
 * The score endpoint (api/scores.ts): a judge or administrator submits one
 * judge's values for one team at one post, or an administrator resets the
 * whole ledger. The handler is a pure function from the authenticated
 * caller, the method, the body and the stored ledger to a status and the new
 * ledger; `ScoresEndpoint` puts the bearer guard in front of it.
 */
module ScoresApi {

  import opened Wrappers
  import opened Domain
  import opened Seqs
  import opened Ledger
  import Auth

  /** The request body; the key fields may be missing. */
  datatype ScoreBody = ScoreBody(
    teamId: Option<string>,
    postId: Option<string>,
    judgeId: Option<string>,
    scores: map<string, int>,
    notes: Option<string>)

  /** The status code sent and the ledger afterwards. */
  datatype Outcome = Outcome(status: int, ledger: seq<Score>)

  /** The largest value a roving judge may give any criterion. */
  const RovingCap: int := 5

  predicate OverCap(scores: map<string, int>) {
    exists c :: c in scores && scores[c] > RovingCap
  }

  /**
   * `updateOne({ teamId, postId, judgeId }, { $set: { scores, notes } }, { upsert: true })`:
   * the stored entry with that key takes the submitted scores and notes
   * wholesale, or a new entry is inserted.
   */
  function Upsert(ledger: seq<Score>, e: Score): (r: seq<Score>)
    ensures KeyIndex(ledger, e) >= 0 ==> |r| == |ledger| && r[KeyIndex(ledger, e)] == e
    ensures KeyIndex(ledger, e) == -1 ==> r == ledger + [e]
    ensures forall j :: 0 <= j < |ledger| && j != KeyIndex(ledger, e) ==> r[j] == ledger[j]
  {
    var i := KeyIndex(ledger, e);
    if i >= 0 then ledger[i := e] else ledger + [e]
  }

  /** A POST that passes every check: own id for a judge, the three key fields, and the roving cap. */
  predicate PostAccepted(caller: User, body: ScoreBody) {
    && (caller.role != Judge || body.judgeId == Some(caller.id))
    && Truthy(body.teamId) && Truthy(body.postId) && Truthy(body.judgeId)
    && !(caller.isRovingJudge && OverCap(body.scores))
  }

  /** The handler behind the guard. `caller` is the user the guard admitted. */
  function HandleScores(caller: User, m: HttpMethod, body: ScoreBody, ledger: seq<Score>): (o: Outcome)
    ensures o.status != 200 ==> o.ledger == ledger
    ensures m == POST ==> (o.status == 403 <==> caller.role == Judge && body.judgeId != Some(caller.id))
    ensures m == POST ==> (o.status == 200 <==> PostAccepted(caller, body))
    ensures m == POST && o.status != 403 && !(Truthy(body.teamId) && Truthy(body.postId) && Truthy(body.judgeId)) ==> o.status == 400
    ensures m == POST && caller.isRovingJudge && OverCap(body.scores) ==> o.status != 200
    ensures m == POST && o.status != 403 && caller.isRovingJudge && OverCap(body.scores) ==> o.status == 400
    ensures m == POST ==> o.status in {200, 400, 403}
    ensures m == POST && o.status == 200 ==>
      && Truthy(body.teamId) && Truthy(body.postId) && Truthy(body.judgeId)
      && (caller.role == Judge ==> body.judgeId.value == caller.id)
      && (caller.isRovingJudge ==> !OverCap(body.scores))
      && o.ledger == Upsert(ledger, Score(body.teamId.value, body.postId.value, body.judgeId.value, body.scores, body.notes))
    ensures m == DELETE ==> (caller.role == Admin <==> o.status == 200)
    ensures m == DELETE && caller.role != Admin ==> o.status == 403
    ensures m == DELETE && o.status == 200 ==> o.ledger == []
    ensures m != POST && m != DELETE ==> o == Outcome(405, ledger)
  {
    match m
    case POST =>
      if caller.role == Judge && body.judgeId != Some(caller.id) then Outcome(403, ledger)
      else if !Truthy(body.teamId) || !Truthy(body.postId) || !Truthy(body.judgeId) then Outcome(400, ledger)
      else if caller.isRovingJudge && OverCap(body.scores) then Outcome(400, ledger)
      else
        var e := Score(body.teamId.value, body.postId.value, body.judgeId.value, body.scores, body.notes);
        Outcome(200, Upsert(ledger, e))
    case DELETE =>
      if caller.role != Admin then Outcome(403, ledger) else Outcome(200, [])
    case _ => Outcome(405, ledger)
  }

  /** Only judges and administrators reach the handler. */
  const ScoreRoles: seq<Role> := [Judge, Admin]

  /** The exported endpoint: `withAuth(handler, [JUDGE, ADMIN])`. */
  function ScoresEndpoint(header: Option<string>, users: seq<User>, isValid: string -> bool, toId: string -> string,
                          m: HttpMethod, body: ScoreBody, ledger: seq<Score>): (o: Outcome)
    ensures Auth.Authenticate(header, users, ScoreRoles, isValid, toId).Refused? ==>
      o == Outcome(Auth.Authenticate(header, users, ScoreRoles, isValid, toId).status, ledger)
    ensures o.ledger != ledger ==>
      var g := Auth.Authenticate(header, users, ScoreRoles, isValid, toId);
      g.Admitted? && (g.user.role == Judge || g.user.role == Admin)
    ensures var g := Auth.Authenticate(header, users, ScoreRoles, isValid, toId);
      g.Admitted? ==> o == HandleScores(g.user, m, body, ledger)
  {
    match Auth.Authenticate(header, users, ScoreRoles, isValid, toId)
    case Refused(status) => Outcome(status, ledger)
    case Admitted(u) => HandleScores(u, m, body, ledger)
  }

  // ---- properties ----

  /** The server keeps at most one entry per key, like the client. */
  lemma UpsertPreservesUniqueKeys(ledger: seq<Score>, e: Score)
    requires UniqueKeys(ledger)
    ensures UniqueKeys(Upsert(ledger, e))
  {
    var r := Upsert(ledger, e);
    forall a, b | 0 <= a < b < |r|
      ensures !SameKey(r[a], r[b])
    {
      if b == |ledger| {
        assert r[b] == e && r[a] == ledger[a];
      } else {
        assert SameKey(r[a], ledger[a]) && SameKey(r[b], ledger[b]);
      }
    }
  }

  /**
   * Server and client agree: with notes present the stored ledgers are equal,
   * and in every case they differ at most in the notes of the submitted key.
   */
  lemma UpsertMatchesClient(ledger: seq<Score>, e: Score)
    ensures e.notes.Some? ==> Upsert(ledger, e) == SubmitScore(ledger, e)
    ensures |Upsert(ledger, e)| == |SubmitScore(ledger, e)|
    ensures forall j :: 0 <= j < |Upsert(ledger, e)| ==>
      Upsert(ledger, e)[j] == SubmitScore(ledger, e)[j].(notes := Upsert(ledger, e)[j].notes)
  {
    var i := KeyIndex(ledger, e);
    if i >= 0 {
      assert Merge(ledger[i], e).(notes := e.notes) == e;
    }
  }

  /** Without notes, resubmitting clears the stored notes on the server but not in the client's copy. */
  lemma NotesDivergeWithoutNotes()
    ensures var first := Score("T1", "P1", "J1", map["c1" := 80], Some("rapi"));
      var again := Score("T1", "P1", "J1", map["c1" := 85], None);
      Upsert([first], again) == [again]
      && SubmitScore([first], again) == [again.(notes := Some("rapi"))]
  {
    var first := Score("T1", "P1", "J1", map["c1" := 80], Some("rapi"));
    var again := Score("T1", "P1", "J1", map["c1" := 85], None);
    assert SameKey([first][0], again);
    assert KeyIndex([first], again) == 0;
  }

  /** A judge's request never changes what is stored under another judge's id. */
  lemma JudgeTouchesOnlyOwnEntries(caller: User, m: HttpMethod, body: ScoreBody, ledger: seq<Score>,
                                   teamId: string, postId: string, judgeId: string)
    requires caller.role == Judge && judgeId != caller.id
    ensures Lookup(HandleScores(caller, m, body, ledger).ledger, teamId, postId, judgeId)
         == Lookup(ledger, teamId, postId, judgeId)
  {
    var o := HandleScores(caller, m, body, ledger);
    if o.ledger != ledger {
      var e := Score(body.teamId.value, body.postId.value, body.judgeId.value, body.scores, body.notes);
      UpsertKeepsOtherKeys(ledger, e, teamId, postId, judgeId);
    }
  }

  lemma UpsertKeepsOtherKeys(ledger: seq<Score>, e: Score, teamId: string, postId: string, judgeId: string)
    requires !(teamId == e.teamId && postId == e.postId && judgeId == e.judgeId)
    ensures Lookup(Upsert(ledger, e), teamId, postId, judgeId) == Lookup(ledger, teamId, postId, judgeId)
  {
    var r := Upsert(ledger, e);
    var matches := (s: Score) => s.teamId == teamId && s.postId == postId && s.judgeId == judgeId;
    assert forall j :: 0 <= j < |r| ==> (matches(r[j]) <==> j < |ledger| && matches(ledger[j]));
    var a := FindIndex(r, matches);
    var b := FindIndex(ledger, matches);
    assert a == b by {
      if b >= 0 { assert matches(r[b]); }
      if a >= 0 { assert matches(ledger[a]); }
    }
  }

  /** After an upsert the lookup under the entry's key finds exactly that entry. */
  lemma UpsertThenLookup(ledger: seq<Score>, e: Score)
    ensures Lookup(Upsert(ledger, e), e.teamId, e.postId, e.judgeId) == Some(e)
  {
    var r := Upsert(ledger, e);
    var i := KeyIndex(ledger, e);
    var k := if i >= 0 then i else |ledger|;
    assert r[k] == e && forall j :: 0 <= j < k ==> !SameKey(r[j], e);
    var found := Lookup(r, e.teamId, e.postId, e.judgeId);
    var n :| 0 <= n < |r| && r[n] == found.value && forall j :: 0 <= j < n ==> !SameKey(r[j], e);
    assert n == k;
  }

  /** An administrator may file values under any judge's id. */
  lemma AdminSubmitsForAnyJudge(caller: User, body: ScoreBody, ledger: seq<Score>)
    requires caller.role == Admin && !caller.isRovingJudge
    requires Truthy(body.teamId) && Truthy(body.postId) && Truthy(body.judgeId)
    ensures var o := HandleScores(caller, POST, body, ledger);
      o.status == 200
      && Lookup(o.ledger, body.teamId.value, body.postId.value, body.judgeId.value)
         == Some(Score(body.teamId.value, body.postId.value, body.judgeId.value, body.scores, body.notes))
  {
    var e := Score(body.teamId.value, body.postId.value, body.judgeId.value, body.scores, body.notes);
    assert HandleScores(caller, POST, body, ledger) == Outcome(200, Upsert(ledger, e));
    UpsertThenLookup(ledger, e);
  }

  /** Whatever a roving judge manages to store holds no value above the cap. */
  lemma RovingValuesCapped(caller: User, body: ScoreBody, ledger: seq<Score>)
    requires caller.isRovingJudge
    requires HandleScores(caller, POST, body, ledger).status == 200
    ensures forall c :: c in body.scores ==> body.scores[c] <= RovingCap
  {
  }

  /** Without a bearer header nothing is stored or reset. */
  lemma AnonymousChangesNothing(users: seq<User>, isValid: string -> bool, toId: string -> string,
                                m: HttpMethod, body: ScoreBody, ledger: seq<Score>)
    ensures ScoresEndpoint(None, users, isValid, toId, m, body, ledger) == Outcome(401, ledger)
  {
  }
}

=== FILE: seqs.dfy ===
/**
 * The array operations the source leans on (`filter`, `find`,
 * `findIndex`, `map` that replaces by id), stated once for every element
 * type.
 */
module Seqs {

  import opened Wrappers

  /** `Array.prototype.filter`: the elements satisfying `p`, in order. */
  function Filter<T>(s: seq<T>, p: T -> bool): (r: seq<T>)
    ensures |r| <= |s|
    ensures forall i :: 0 <= i < |r| ==> r[i] in s && p(r[i])
    ensures forall i :: 0 <= i < |s| && p(s[i]) ==> s[i] in r
    ensures multiset(r) <= multiset(s)
  {
    if |s| == 0 then []
    else
      assert s == [s[0]] + s[1..];
      (if p(s[0]) then [s[0]] else []) + Filter(s[1..], p)
  }

  lemma {:induction false} FilterConcat<T>(a: seq<T>, b: seq<T>, p: T -> bool)
    ensures Filter(a + b, p) == Filter(a, p) + Filter(b, p)
  {
    if |a| == 0 {
      assert a + b == b;
    } else {
      assert (a + b)[1..] == a[1..] + b;
      FilterConcat(a[1..], b, p);
    }
  }

  /** `a` is `b` with some elements left out: its elements occur in `b` in the same order. */
  predicate Subseq<T(==)>(a: seq<T>, b: seq<T>)
    decreases |b|
  {
    |a| == 0 || (|b| > 0 && ((a[0] == b[0] && Subseq(a[1..], b[1..])) || Subseq(a, b[1..])))
  }

  /** `filter` keeps exactly the elements satisfying `p`. */
  lemma FilterMembers<T>(s: seq<T>, p: T -> bool)
    ensures forall x :: x in Filter(s, p) <==> x in s && p(x)
  {
  }

  /** What `filter` keeps stays in its original order. */
  lemma {:induction false} FilterIsSubseq<T>(s: seq<T>, p: T -> bool)
    ensures Subseq(Filter(s, p), s)
  {
    if |s| > 0 {
      FilterIsSubseq(s[1..], p);
      var rest := Filter(s[1..], p);
      if p(s[0]) {
        assert Filter(s, p) == [s[0]] + rest;
        assert Filter(s, p)[1..] == rest;
      } else {
        assert Filter(s, p) == rest;
      }
    }
  }

  /** Filtering by a predicate every element meets keeps the sequence. */
  lemma {:induction false} FilterAll<T>(s: seq<T>, p: T -> bool)
    requires forall i :: 0 <= i < |s| ==> p(s[i])
    ensures Filter(s, p) == s
  {
    if |s| > 0 {
      FilterAll(s[1..], p);
    }
  }

  /** Filtering by a predicate no element meets leaves nothing. */
  lemma {:induction false} FilterNone<T>(s: seq<T>, p: T -> bool)
    requires forall i :: 0 <= i < |s| ==> !p(s[i])
    ensures Filter(s, p) == []
  {
    if |s| > 0 {
      FilterNone(s[1..], p);
    }
  }

  /** `Array.prototype.findIndex`: the first index whose element satisfies `p`, or -1. */
  function FindIndex<T>(s: seq<T>, p: T -> bool): (i: int)
    ensures -1 <= i < |s|
    ensures i == -1 <==> forall j :: 0 <= j < |s| ==> !p(s[j])
    ensures 0 <= i ==> p(s[i]) && forall j :: 0 <= j < i ==> !p(s[j])
  {
    if |s| == 0 then -1
    else if p(s[0]) then 0
    else
      var k := FindIndex(s[1..], p);
      if k == -1 then -1 else k + 1
  }

  /** `Array.prototype.find`: the first element satisfying `p`, if any. */
  function Find<T>(s: seq<T>, p: T -> bool): (r: Option<T>)
    ensures r.None? <==> forall j :: 0 <= j < |s| ==> !p(s[j])
    ensures r.Some? ==> exists i :: 0 <= i < |s| && s[i] == r.value && p(s[i]) && forall j :: 0 <= j < i ==> !p(s[j])
  {
    var i := FindIndex(s, p);
    if i == -1 then None else Some(s[i])
  }

  /** `s.map(y => matches(y) ? x : y)`: every matching element becomes `x`. */
  function Replace<T>(s: seq<T>, matches: T -> bool, x: T): (r: seq<T>)
    ensures |r| == |s|
    ensures forall i :: 0 <= i < |s| ==> (matches(s[i]) ==> r[i] == x) && (!matches(s[i]) ==> r[i] == s[i])
  {
    seq(|s|, i requires 0 <= i < |s| => if matches(s[i]) then x else s[i])
  }

  /** Removing an element `p` rejects does not change what `find` returns. */
  lemma FindSkipsRemoved<T>(s: seq<T>, i: int, p: T -> bool)
    requires 0 <= i < |s| && !p(s[i])
    ensures Find(s[..i] + s[i + 1..], p) == Find(s, p)
  {
    var r := s[..i] + s[i + 1..];
    assert forall j :: 0 <= j < |r| ==> r[j] == (if j < i then s[j] else s[j + 1]);
    var a := FindIndex(r, p);
    var b := FindIndex(s, p);
    if b == -1 {
      assert a == -1;
    } else if b < i {
      assert p(r[b]);
      assert a == b;
    } else {
      assert p(r[b - 1]);
      assert forall j :: 0 <= j < b - 1 ==> !p(r[j]);
      assert a == b - 1;
    }
  }

  /** Two sequences whose elements are accepted at the same positions have the same first match. */
  lemma FindIndexAgree<T, U>(s: seq<T>, p: T -> bool, t: seq<U>, q: U -> bool)
    requires |s| == |t|
    requires forall k :: 0 <= k < |s| ==> (p(s[k]) <==> q(t[k]))
    ensures FindIndex(s, p) == FindIndex(t, q)
  {
    var a := FindIndex(s, p);
    var b := FindIndex(t, q);
    if a >= 0 {
      assert q(t[a]);
    }
    if b >= 0 {
      assert p(s[b]);
    }
  }

  /** Filtering a sequence with one more element at the end. */
  lemma FilterSnoc<T>(s: seq<T>, x: T, p: T -> bool)
    ensures Filter(s + [x], p) == Filter(s, p) + (if p(x) then [x] else [])
  {
    FilterConcat(s, [x], p);
    assert [x][1..] == [];
  }
}

=== FILE: stable_sort.dfy ===
/**
 * A stable sort, as `Array.prototype.sort` is required to be. `leq(a, b)`
 * means "a may be placed before b"; it must be a total preorder. Elements
 * that are equivalent under `leq` keep their input order.
 *
 * Besides sortedness and permutation, `SortedStableIsUnique` shows that a
 * sorted sequence is fixed by the order of each equivalence class, so every
 * stable sort returns the same sequence as `Sort`.
 */
module StableSort {

  ghost predicate TotalPreorder<T(!new)>(leq: (T, T) -> bool) {
    && (forall x, y :: leq(x, y) || leq(y, x))
    && (forall x, y, z :: leq(x, y) && leq(y, z) ==> leq(x, z))
  }

  predicate Equivalent<T>(x: T, y: T, leq: (T, T) -> bool) {
    leq(x, y) && leq(y, x)
  }

  ghost predicate Sorted<T>(s: seq<T>, leq: (T, T) -> bool) {
    forall i, j :: 0 <= i < j < |s| ==> leq(s[i], s[j])
  }

  /** The elements of `s` equivalent to `z`, in their order in `s`. */
  function Class<T>(s: seq<T>, z: T, leq: (T, T) -> bool): seq<T> {
    if |s| == 0 then []
    else (if Equivalent(s[0], z, leq) then [s[0]] else []) + Class(s[1..], z, leq)
  }

  /** Places `x` before the first element it may precede. */
  function Insert<T>(x: T, s: seq<T>, leq: (T, T) -> bool): seq<T> {
    if |s| == 0 then [x]
    else if leq(x, s[0]) then [x] + s
    else [s[0]] + Insert(x, s[1..], leq)
  }

  function Sort<T(!new)>(s: seq<T>, leq: (T, T) -> bool): (r: seq<T>)
    requires TotalPreorder(leq)
    ensures Sorted(r, leq)
    ensures multiset(r) == multiset(s) && |r| == |s|
    ensures forall z :: Class(r, z, leq) == Class(s, z, leq)
  {
    if |s| == 0 then []
    else
      var t := Sort(s[1..], leq);
      InsertSorted(s[0], t, leq);
      InsertClass(s[0], t, leq);
      assert s == [s[0]] + s[1..];
      Insert(s[0], t, leq)
  }

  lemma {:induction false} InsertMultiset<T>(x: T, s: seq<T>, leq: (T, T) -> bool)
    ensures multiset(Insert(x, s, leq)) == multiset(s) + multiset{x}
  {
    if |s| > 0 && !leq(x, s[0]) {
      InsertMultiset(x, s[1..], leq);
      assert s == [s[0]] + s[1..];
    }
  }

  lemma {:induction false} InsertSorted<T(!new)>(x: T, s: seq<T>, leq: (T, T) -> bool)
    requires TotalPreorder(leq)
    requires Sorted(s, leq)
    ensures Sorted(Insert(x, s, leq), leq)
    ensures multiset(Insert(x, s, leq)) == multiset(s) + multiset{x}
  {
    InsertMultiset(x, s, leq);
    if |s| > 0 && !leq(x, s[0]) {
      var rest := Insert(x, s[1..], leq);
      InsertSorted(x, s[1..], leq);
      assert s == [s[0]] + s[1..];
      forall j | 0 <= j < |rest|
        ensures leq(s[0], rest[j])
      {
        assert rest[j] in multiset(s[1..]) + multiset{x};
        if rest[j] != x {
          assert rest[j] in s[1..];
        }
      }
    }
  }

  lemma {:induction false} ClassConcat<T>(a: seq<T>, b: seq<T>, z: T, leq: (T, T) -> bool)
    ensures Class(a + b, z, leq) == Class(a, z, leq) + Class(b, z, leq)
  {
    if |a| == 0 {
      assert a + b == b;
    } else {
      ClassConcat(a[1..], b, z, leq);
      assert a + b == [a[0]] + (a[1..] + b);
      ClassCons(a[0], a[1..] + b, z, leq);
      assert a == [a[0]] + a[1..];
      ClassCons(a[0], a[1..], z, leq);
    }
  }

  /** Inserting `x` adds it at the front of its own class and leaves every other class alone. */
  lemma InsertClass<T(!new)>(x: T, s: seq<T>, leq: (T, T) -> bool)
    requires TotalPreorder(leq)
    ensures forall z :: Class(Insert(x, s, leq), z, leq) == (if Equivalent(x, z, leq) then [x] else []) + Class(s, z, leq)
  {
    forall z
      ensures Class(Insert(x, s, leq), z, leq) == (if Equivalent(x, z, leq) then [x] else []) + Class(s, z, leq)
    {
      InsertClassAt(x, s, leq, z);
    }
  }

  lemma ClassCons<T>(h: T, t: seq<T>, z: T, leq: (T, T) -> bool)
    ensures Class([h] + t, z, leq) == (if Equivalent(h, z, leq) then [h] else []) + Class(t, z, leq)
  {
    assert ([h] + t)[1..] == t;
  }

  /** Needs only that whatever `z` may precede, `x` may precede too, when `x` may precede `z`. */
  lemma {:induction false} InsertClassAt<T>(x: T, s: seq<T>, leq: (T, T) -> bool, z: T)
    requires forall y :: leq(x, z) && leq(z, y) ==> leq(x, y)
    ensures Class(Insert(x, s, leq), z, leq) == (if Equivalent(x, z, leq) then [x] else []) + Class(s, z, leq)
    decreases |s|, 1
  {
    if |s| == 0 || leq(x, s[0]) {
      ClassCons(x, s, z, leq);
    } else {
      InsertClassPastHead(x, s, leq, z);
    }
  }

  /** The case where `x` goes after the head of `s`. */
  lemma {:induction false} InsertClassPastHead<T>(x: T, s: seq<T>, leq: (T, T) -> bool, z: T)
    requires forall y :: leq(x, z) && leq(z, y) ==> leq(x, y)
    requires |s| > 0 && !leq(x, s[0])
    ensures Class(Insert(x, s, leq), z, leq) == (if Equivalent(x, z, leq) then [x] else []) + Class(s, z, leq)
    decreases |s|, 0
  {
    var s0, tl := s[0], s[1..];
    var rest := Insert(x, tl, leq);
    InsertClassAt(x, tl, leq, z);
    assert Insert(x, s, leq) == [s0] + rest;
    ClassCons(s0, rest, z, leq);
    assert s == [s0] + tl;
    ClassCons(s0, tl, z, leq);
    // s0 cannot share x's class: x would then precede it
    assert leq(x, z) && leq(z, s0) ==> leq(x, s0);
  }

  lemma {:induction false} InClassOf<T(!new)>(s: seq<T>, y: T, leq: (T, T) -> bool)
    requires TotalPreorder(leq)
    ensures y in s <==> y in Class(s, y, leq)
  {
    if |s| > 0 {
      InClassOf(s[1..], y, leq);
      assert s == [s[0]] + s[1..];
    }
  }

  lemma FirstHasClass<T(!new)>(s: seq<T>, leq: (T, T) -> bool)
    requires TotalPreorder(leq)
    ensures |s| > 0 ==> Class(s, s[0], leq) != []
  {
  }

  lemma {:induction false} ClassSubset<T>(s: seq<T>, z: T, leq: (T, T) -> bool)
    ensures forall y :: y in Class(s, z, leq) ==> y in s
  {
    if |s| > 0 {
      ClassSubset(s[1..], z, leq);
    }
  }

  /**
   * Two sorted sequences whose equivalence classes appear in the same order
   * are equal: the output of a stable sort is determined by its input.
   */
  lemma {:induction false} SortedStableIsUnique<T(!new)>(a: seq<T>, b: seq<T>, leq: (T, T) -> bool)
    requires TotalPreorder(leq)
    requires Sorted(a, leq) && Sorted(b, leq)
    requires forall z :: Class(a, z, leq) == Class(b, z, leq)
    ensures a == b
    decreases |a|
  {
    if |a| == 0 || |b| == 0 {
      // a non-empty side would have a non-empty class the other lacks
      FirstHasClass(a, leq);
      FirstHasClass(b, leq);
    } else {
      InClassOf(b, b[0], leq);
      ClassSubset(a, b[0], leq);
      assert b[0] in a;
      InClassOf(a, a[0], leq);
      ClassSubset(b, a[0], leq);
      assert a[0] in b;
      assert leq(a[0], b[0]) by {
        var k :| 0 <= k < |a| && a[k] == b[0];
        if k > 0 { assert leq(a[0], a[k]); }
      }
      assert leq(b[0], a[0]) by {
        var k :| 0 <= k < |b| && b[k] == a[0];
        if k > 0 { assert leq(b[0], b[k]); }
      }
      assert Class(a, a[0], leq) == [a[0]] + Class(a[1..], a[0], leq);
      assert Class(b, a[0], leq) == [b[0]] + Class(b[1..], a[0], leq);
      assert a[0] == b[0] by {
        assert Class(a, a[0], leq)[0] == Class(b, a[0], leq)[0];
      }
      forall z
        ensures Class(a[1..], z, leq) == Class(b[1..], z, leq)
      {
        assert Class(a, z, leq) == Class(b, z, leq);
        if Equivalent(a[0], z, leq) {
          assert Class(a, z, leq) == [a[0]] + Class(a[1..], z, leq);
          assert Class(b, z, leq) == [b[0]] + Class(b[1..], z, leq);
          assert Class(a[1..], z, leq) == Class(a, z, leq)[1..];
          assert Class(b[1..], z, leq) == Class(b, z, leq)[1..];
        } else {
          assert Class(a, z, leq) == Class(a[1..], z, leq);
          assert Class(b, z, leq) == Class(b[1..], z, leq);
        }
      }
      SortedStableIsUnique(a[1..], b[1..], leq);
      assert a == [a[0]] + a[1..] && b == [b[0]] + b[1..];
    }
  }

  /** When every pair may be placed either way round, sorting changes nothing. */
  lemma {:induction false} SortAllEquivalent<T(!new)>(s: seq<T>, leq: (T, T) -> bool)
    requires TotalPreorder(leq)
    requires forall i, j :: 0 <= i < |s| && 0 <= j < |s| ==> leq(s[i], s[j])
    ensures Sort(s, leq) == s
  {
    if |s| > 0 {
      SortAllEquivalent(s[1..], leq);
      var t := Sort(s[1..], leq);
      assert t == s[1..];
      if |t| > 0 {
        assert leq(s[0], t[0]);
      }
      assert s == [s[0]] + s[1..];
    }
  }
}

=== FILE: strings.dfy ===
/**
 * The JavaScript string operations the core uses: `toLowerCase`,
 * `includes`, `startsWith`, `split(' ')`, `trim`, comparison of team
 * numbers, `toString` of an integer and `padStart`.
 */
module Strings {

  import StableSort

  // ---- case and search ----

  /** `toLowerCase` on the ASCII letters; other characters are kept. */
  function Lower(s: string): (r: string)
    ensures |r| == |s|
    ensures forall i :: 0 <= i < |s| ==> r[i] == LowerChar(s[i])
  {
    seq(|s|, i requires 0 <= i < |s| => LowerChar(s[i]))
  }

  function LowerChar(c: char): char {
    if 'A' <= c <= 'Z' then (c as int + 32) as char else c
  }

  predicate IsPrefix(p: string, s: string) {
    |p| <= |s| && s[..|p|] == p
  }

  /** `s.includes(sub)`: `sub` occurs at some position of `s`. */
  predicate Contains(s: string, sub: string) {
    IsPrefix(sub, s) || (|s| > 0 && Contains(s[1..], sub))
  }

  lemma {:induction false} ContainsAt(s: string, sub: string, i: nat)
    requires i + |sub| <= |s| && s[i..i + |sub|] == sub
    ensures Contains(s, sub)
  {
    if i > 0 {
      assert s[1..][i - 1..i - 1 + |sub|] == sub;
      ContainsAt(s[1..], sub, i - 1);
    }
  }

  // ---- comparison ----

  /** Code-unit lexicographic order: `a` sorts before or with `b`. */
  predicate StrLe(a: string, b: string) {
    |a| == 0 || (|b| > 0 && (a[0] < b[0] || (a[0] == b[0] && StrLe(a[1..], b[1..]))))
  }

  lemma {:induction false} StrLeTotal(a: string, b: string)
    ensures StrLe(a, b) || StrLe(b, a)
  {
    if |a| > 0 && |b| > 0 && a[0] == b[0] {
      StrLeTotal(a[1..], b[1..]);
    }
  }

  lemma {:induction false} StrLeTrans(a: string, b: string, c: string)
    requires StrLe(a, b) && StrLe(b, c)
    ensures StrLe(a, c)
  {
    if |a| > 0 && a[0] == b[0] && b[0] == c[0] {
      StrLeTrans(a[1..], b[1..], c[1..]);
    }
  }

  lemma {:induction false} StrLeAntisym(a: string, b: string)
    requires StrLe(a, b) && StrLe(b, a)
    ensures a == b
  {
    if |a| > 0 {
      StrLeAntisym(a[1..], b[1..]);
      assert a == [a[0]] + a[1..] && b == [b[0]] + b[1..];
    }
  }

  /** Comparing by a string key with `StrLe` is a total preorder, so it can drive a stable sort. */
  lemma StrKeyPreorder<T(!new)>(key: T -> string, leq: (T, T) -> bool)
    requires forall x, y :: leq(x, y) == StrLe(key(x), key(y))
    ensures StableSort.TotalPreorder(leq)
  {
    forall x, y
      ensures leq(x, y) || leq(y, x)
    {
      StrLeTotal(key(x), key(y));
    }
    forall x, y, z | leq(x, y) && leq(y, z)
      ensures leq(x, z)
    {
      StrLeTrans(key(x), key(y), key(z));
    }
  }

  // ---- splitting ----

  /** `s.split(sep)` for a one-character separator. */
  function Split(s: string, sep: char): (r: seq<string>)
    ensures |r| >= 1
    ensures sep !in s ==> r == [s]
    ensures forall i :: 0 <= i < |r| ==> sep !in r[i]
  {
    if sep !in s then [s]
    else
      var i := IndexOf(s, sep);
      [s[..i]] + Split(s[i + 1..], sep)
  }

  function IndexOf(s: string, c: char): (i: nat)
    requires c in s
    ensures i < |s| && s[i] == c && c !in s[..i]
  {
    if s[0] == c then 0 else 1 + IndexOf(s[1..], c)
  }

  /** The characters of `s` before its first `c`, or all of `s`. */
  function TakeUntil(s: string, c: char): (r: string)
    ensures IsPrefix(r, s) && c !in r
    ensures |r| < |s| ==> s[|r|] == c
  {
    if c in s then s[..IndexOf(s, c)] else s
  }

  /**
   * The second space-separated field of `"Bearer " + rest` is the part of
   * `rest` before its first space.
   */
  lemma SplitAfterWord(word: string, rest: string)
    requires ' ' !in word
    ensures var f := Split(word + " " + rest, ' '); |f| >= 2 && f[0] == word && f[1] == TakeUntil(rest, ' ')
  {
    var s := word + " " + rest;
    assert ' ' in s by { assert s[|word|] == ' '; }
    var i := IndexOf(s, ' ');
    assert s[..|word|] == word && s[|word|] == ' ';
    assert i == |word| by {
      assert forall k :: 0 <= k < |word| ==> s[k] == word[k];
      assert i <= |word| ==> s[..i] == word[..i];
    }
    assert s[..i] == word && s[i + 1..] == rest;
    if ' ' in rest {
      var j := IndexOf(rest, ' ');
      assert rest[j + 1..][..0] == [];
    }
  }

  // ---- whitespace ----

  /** The characters `String.prototype.trim` removes: WhiteSpace and LineTerminator of ECMA-262. */
  predicate IsSpace(c: char) {
    || c == '\t' || c == '\n' || c == '\U{000B}' || c == '\U{000C}' || c == '\r' || c == ' '
    || c == '\U{00A0}' || c == '\U{1680}' || ('\U{2000}' <= c <= '\U{200A}')
    || c == '\U{2028}' || c == '\U{2029}' || c == '\U{202F}' || c == '\U{205F}'
    || c == '\U{3000}' || c == '\U{FEFF}'
  }

  function TrimStart(s: string): (r: string)
    ensures |r| <= |s| && r == s[|s| - |r|..]
    ensures |r| > 0 ==> !IsSpace(r[0])
    ensures forall i :: 0 <= i < |s| - |r| ==> IsSpace(s[i])
  {
    if |s| > 0 && IsSpace(s[0]) then TrimStart(s[1..]) else s
  }

  function TrimEnd(s: string): (r: string)
    ensures |r| <= |s| && r == s[..|r|]
    ensures |r| > 0 ==> !IsSpace(r[|r| - 1])
    ensures forall i :: |r| <= i < |s| ==> IsSpace(s[i])
  {
    if |s| > 0 && IsSpace(s[|s| - 1]) then TrimEnd(s[..|s| - 1]) else s
  }

  /** `s.trim()`. */
  function Trim(s: string): string {
    TrimEnd(TrimStart(s))
  }

  /** A string trims to the empty string exactly when all its characters are white space. */
  lemma TrimEmptyIffBlank(s: string)
    ensures Trim(s) == "" <==> forall i :: 0 <= i < |s| ==> IsSpace(s[i])
  {
    var t := TrimStart(s);
    if Trim(s) == "" {
      assert |t| == 0;
    } else {
      var k :| 0 <= k < |Trim(s)|;
      assert !IsSpace(t[0]);
      assert t[0] == s[|s| - |t|];
    }
  }

  // ---- decimal text ----

  function DigitChar(d: nat): char
    requires d < 10
  {
    "0123456789"[d]
  }

  predicate IsDigit(c: char) {
    '0' <= c <= '9'
  }

  /** `n.toString()` for a natural number. */
  function NatToString(n: nat): (r: string)
    ensures |r| >= 1
    ensures forall i :: 0 <= i < |r| ==> IsDigit(r[i])
  {
    if n < 10 then [DigitChar(n)] else NatToString(n / 10) + [DigitChar(n % 10)]
  }

  /** `i.toString()`: a minus sign before the digits of a negative number. */
  function IntToString(i: int): (r: string)
    ensures |r| >= 1
  {
    if i < 0 then "-" + NatToString(-i) else NatToString(i)
  }

  /** `s.padStart(width, c)`. */
  function PadStart(s: string, width: nat, c: char): (r: string)
    ensures |r| == if |s| >= width then |s| else width
    ensures r[|r| - |s|..] == s
    ensures forall i :: 0 <= i < |r| - |s| ==> r[i] == c
    decreases width - |s|
  {
    if |s| >= width then s else PadStart([c] + s, width, c)
  }

  /** The value of a string of decimal digits (leading zeros allowed). */
  function DigitsValue(s: string): nat
    requires forall i :: 0 <= i < |s| ==> IsDigit(s[i])
  {
    if |s| == 0 then 0
    else
      assert IsDigit(s[|s| - 1]);
      10 * DigitsValue(s[..|s| - 1]) + (s[|s| - 1] as int - '0' as int)
  }

  lemma {:induction false} NatToStringValue(n: nat)
    ensures DigitsValue(NatToString(n)) == n
  {
    if n >= 10 {
      NatToStringValue(n / 10);
      var s := NatToString(n);
      assert s[..|s| - 1] == NatToString(n / 10);
    }
  }

  lemma {:induction false} LeadingZerosValue(z: nat, s: string)
    requires forall i :: 0 <= i < |s| ==> IsDigit(s[i])
    ensures var p := seq(z, _ => '0') + s; (forall i :: 0 <= i < |p| ==> IsDigit(p[i])) && DigitsValue(p) == DigitsValue(s)
  {
    var p := seq(z, _ => '0') + s;
    if |s| == 0 {
      assert p == seq(z, _ => '0');
      if z > 0 {
        assert p[..|p| - 1] == seq(z - 1, _ => '0') + s;
        LeadingZerosValue(z - 1, s);
      }
    } else {
      assert p[..|p| - 1] == seq(z, _ => '0') + s[..|s| - 1];
      LeadingZerosValue(z, s[..|s| - 1]);
    }
  }

  /** Reading back a zero-padded decimal numeral gives the number. */
  lemma PaddedNumeralValue(n: nat, width: nat)
    ensures var r := PadStart(NatToString(n), width, '0');
      (forall i :: 0 <= i < |r| ==> IsDigit(r[i])) && DigitsValue(r) == n
  {
    var s := NatToString(n);
    var r := PadStart(s, width, '0');
    var z := |r| - |s|;
    assert r == seq(z, _ => '0') + s;
    LeadingZerosValue(z, s);
    NatToStringValue(n);
  }
}

=== FILE: users_api.dfy ===
/**
 * The user-administration endpoint (api/users.ts), open to administrators
 * only: create (POST), update (PUT) and delete (DELETE) over the stored user
 * list. The super administrator is the one named `admin`; only that user
 * grants permissions or deletes other administrators.
 *
 * The store's id conversion (`new ObjectId(id)` and its string form) is the
 * parameter `toId`, `ObjectId.isValid` is `isValid`, and the id the store
 * assigns to an inserted document is `freshId`.
 */
module UsersApi {

  import opened Wrappers
  import opened Domain
  import opened Seqs
  import Auth
  import Strings

  /** A POST body: a user without an id. */
  datatype NewUserBody = NewUserBody(
    name: string,
    role: Role,
    password: Option<string>,
    assignedPostId: Option<string>,
    assignedCriteriaIds: seq<string>,
    permissions: seq<string>,
    isRovingJudge: bool)

  /** A PUT body: the id plus every field the client sent; an absent field is `None`. */
  datatype UserPatch = UserPatch(
    id: Option<string>,
    name: Option<string>,
    role: Option<Role>,
    password: Option<string>,
    assignedPostId: Option<string>,
    assignedCriteriaIds: Option<seq<string>>,
    permissions: Option<seq<string>>,
    isRovingJudge: Option<bool>)

  datatype UsersRequest =
    | Create(body: NewUserBody)
    | Update(patch: UserPatch)
    | Remove(queryId: Option<string>)
    | Unsupported

  /** The status sent, the user list afterwards, and the created user when one is returned. */
  datatype UsersOutcome = UsersOutcome(status: int, users: seq<User>, created: Option<User>)

  predicate IsSuperAdmin(u: User) {
    u.name == SuperAdminName
  }

  // ---- POST ----

  /** The document inserted for a valid POST. */
  function NewDoc(caller: User, body: NewUserBody, freshId: string): (d: User)
    ensures d.id == freshId && d.name == body.name && d.role == body.role && d.password == body.password
    ensures d.assignedPostId == body.assignedPostId && d.assignedCriteriaIds == body.assignedCriteriaIds
    ensures d.isRovingJudge == body.isRovingJudge
    ensures body.role == Admin && !IsSuperAdmin(caller) ==> d.permissions == []
    ensures !(body.role == Admin && !IsSuperAdmin(caller)) ==> d.permissions == body.permissions
  {
    User(freshId, body.name, body.role, body.password, body.assignedPostId, body.assignedCriteriaIds,
         if body.role == Admin && !IsSuperAdmin(caller) then [] else body.permissions,
         body.isRovingJudge)
  }

  function CreateUser(caller: User, body: NewUserBody, users: seq<User>, freshId: string): (o: UsersOutcome)
    ensures body.role == Admin && !Truthy(body.password) ==> o == UsersOutcome(400, users, None)
    ensures o.status == 201 <==> !(body.role == Admin && !Truthy(body.password))
    ensures o.status == 201 ==>
      && o.users == users + [NewDoc(caller, body, freshId)]
      && o.created == Some(ToClient(NewDoc(caller, body, freshId)))
    ensures o.created.Some? ==> o.created.value.password.None? && o.created.value.id == freshId
  {
    if body.role == Admin && !Truthy(body.password) then UsersOutcome(400, users, None)
    else
      var d := NewDoc(caller, body, freshId);
      UsersOutcome(201, users + [d], Some(ToClient(d)))
  }

  // ---- PUT ----

  /**
   * `$set` of the patch's fields, after the handler dropped an empty password
   * and, for anyone but the super administrator, the permissions.
   */
  function ApplyPatch(u: User, p: UserPatch, bySuper: bool): (r: User)
    ensures r.id == u.id
    ensures Truthy(p.password) ==> r.password == p.password
    ensures !Truthy(p.password) ==> r.password == u.password
    ensures !bySuper ==> r.permissions == u.permissions
    ensures bySuper && p.permissions.Some? ==> r.permissions == p.permissions.value
    ensures p.name.Some? ==> r.name == p.name.value
    ensures p.name.None? ==> r.name == u.name
    ensures p.role.Some? ==> r.role == p.role.value
    ensures p.role.None? ==> r.role == u.role
    ensures bySuper && p.permissions.None? ==> r.permissions == u.permissions
    ensures p.assignedPostId.Some? ==> r.assignedPostId == p.assignedPostId
    ensures p.assignedPostId.None? ==> r.assignedPostId == u.assignedPostId
    ensures p.assignedCriteriaIds.Some? ==> r.assignedCriteriaIds == p.assignedCriteriaIds.value
    ensures p.assignedCriteriaIds.None? ==> r.assignedCriteriaIds == u.assignedCriteriaIds
    ensures p.isRovingJudge.Some? ==> r.isRovingJudge == p.isRovingJudge.value
    ensures p.isRovingJudge.None? ==> r.isRovingJudge == u.isRovingJudge
  {
    User(u.id,
         p.name.GetOr(u.name),
         p.role.GetOr(u.role),
         if Truthy(p.password) then p.password else u.password,
         if p.assignedPostId.Some? then p.assignedPostId else u.assignedPostId,
         p.assignedCriteriaIds.GetOr(u.assignedCriteriaIds),
         if bySuper then p.permissions.GetOr(u.permissions) else u.permissions,
         p.isRovingJudge.GetOr(u.isRovingJudge))
  }

  /** `users[j]` is the first user whose id is `id`: the one `findOne({ _id })` returns. */
  predicate FirstWithId(users: seq<User>, id: string, j: int) {
    0 <= j < |users| && users[j].id == id && forall k :: 0 <= k < j ==> users[k].id != id
  }

  function UpdateUser(caller: User, p: UserPatch, users: seq<User>,
                      isValid: string -> bool, toId: string -> string): (o: UsersOutcome)
    ensures !Truthy(p.id) ==> o == UsersOutcome(400, users, None)
    ensures Truthy(p.id) && !isValid(p.id.value) ==> o == UsersOutcome(500, users, None)
    ensures o.created == None && |o.users| == |users|
    ensures o.status == 200 <==> Truthy(p.id) && isValid(p.id.value)
    ensures forall j :: 0 <= j < |users| ==>
      o.users[j] == if o.status == 200 && FirstWithId(users, toId(p.id.value), j)
                    then ApplyPatch(users[j], p, IsSuperAdmin(caller)) else users[j]
    ensures !IsSuperAdmin(caller) ==> forall j :: 0 <= j < |users| ==> o.users[j].permissions == users[j].permissions
  {
    if !Truthy(p.id) then UsersOutcome(400, users, None)
    else if !isValid(p.id.value) then UsersOutcome(500, users, None)
    else
      var i := FindIndex(users, (u: User) => u.id == toId(p.id.value));
      if i < 0 then UsersOutcome(200, users, None)
      else UsersOutcome(200, users[i := ApplyPatch(users[i], p, IsSuperAdmin(caller))], None)
  }

  // ---- DELETE ----

  /** `deleteOne({ _id })`: the first user with that id is removed, the rest keep their order. */
  function RemoveFirst(users: seq<User>, id: string): (r: seq<User>)
    ensures FindUser(users, id).None? ==> r == users
    ensures FindUser(users, id).Some? ==> |r| == |users| - 1 && multiset(r) + multiset{FindUser(users, id).value} == multiset(users)
  {
    var i := FindIndex(users, (u: User) => u.id == id);
    if i < 0 then users
    else
      assert users == users[..i] + [users[i]] + users[i + 1..];
      users[..i] + users[i + 1..]
  }

  /**
   * The DELETE branch as the source writes it: the self-deletion check
   * compares the caller's id with the raw query string, while the lookup and
   * the removal go through `toId`.
   */
  function RemoveUserAsWritten(caller: User, queryId: Option<string>, users: seq<User>,
                               isValid: string -> bool, toId: string -> string): (o: UsersOutcome)
    ensures o.status == 400 <==> !Truthy(queryId) || !isValid(queryId.value)
    ensures o.status != 200 ==> o.users == users
    ensures o.status in {200, 400, 403, 404} && o.created == None
    ensures Truthy(queryId) && isValid(queryId.value) && caller.id == queryId.value ==> o.status == 403
    ensures Truthy(queryId) && isValid(queryId.value) && caller.id != queryId.value ==>
      var t := FindUser(users, toId(queryId.value));
      && (o.status == 404 <==> t.None?)
      && (t.Some? && t.value.role == Admin && !IsSuperAdmin(caller) ==> o.status == 403)
      && (o.status == 200 <==> t.Some? && (t.value.role == Admin ==> IsSuperAdmin(caller)))
    ensures o.status == 200 ==> o.users == RemoveFirst(users, toId(queryId.value))
  {
    if !Truthy(queryId) || !isValid(queryId.value) then UsersOutcome(400, users, None)
    else if caller.id == queryId.value then UsersOutcome(403, users, None)
    else
      match FindUser(users, toId(queryId.value))
      case None => UsersOutcome(404, users, None)
      case Some(t) =>
        if t.role == Admin && !IsSuperAdmin(caller) then UsersOutcome(403, users, None)
        else UsersOutcome(200, RemoveFirst(users, toId(queryId.value)), None)
  }

  /** An upper-case spelling of an administrator's own id passes the self check and deletes that administrator. */
  lemma SelfDeletionSlipsThrough()
    ensures var me := User("abc", SuperAdminName, Admin, Some("pw"), None, [], [], false);
      var o := RemoveUserAsWritten(me, Some("ABC"), [me], _ => true, Strings.Lower);
      o.status == 200 && FindUser(o.users, me.id).None?
  {
    var me := User("abc", SuperAdminName, Admin, Some("pw"), None, [], [], false);
    assert Strings.Lower("ABC") == "abc";
    assert FindUser([me], "abc") == Some(me);
  }

  /**
   * The DELETE branch with the self check applied to the id the store
   * resolves as well as to the raw string.
   */
  function RemoveUser(caller: User, queryId: Option<string>, users: seq<User>,
                      isValid: string -> bool, toId: string -> string): (o: UsersOutcome)
    ensures o.status == 400 <==> !Truthy(queryId) || !isValid(queryId.value)
    ensures o.status != 200 ==> o.users == users
    ensures o.status in {200, 400, 403, 404} && o.created == None
    ensures o.status == 404 ==> FindUser(users, toId(queryId.value)).None?
    ensures Truthy(queryId) && isValid(queryId.value) && caller.id != queryId.value && caller.id != toId(queryId.value) ==>
      var t := FindUser(users, toId(queryId.value));
      && (o.status == 404 <==> t.None?)
      && (t.Some? && t.value.role == Admin && !IsSuperAdmin(caller) ==> o.status == 403)
      && (o.status == 200 <==> t.Some? && (t.value.role == Admin ==> IsSuperAdmin(caller)))
    ensures Truthy(queryId) && isValid(queryId.value) && (caller.id == queryId.value || caller.id == toId(queryId.value)) ==>
      o.status == 403
    ensures o.status == 200 ==>
      && Truthy(queryId) && isValid(queryId.value)
      && var t := FindUser(users, toId(queryId.value));
      && t.Some? && t.value.id != caller.id
      && (t.value.role == Admin ==> IsSuperAdmin(caller))
      && o.users == RemoveFirst(users, toId(queryId.value))
  {
    if !Truthy(queryId) || !isValid(queryId.value) then UsersOutcome(400, users, None)
    else if caller.id == queryId.value || caller.id == toId(queryId.value) then UsersOutcome(403, users, None)
    else
      match FindUser(users, toId(queryId.value))
      case None => UsersOutcome(404, users, None)
      case Some(t) =>
        if t.role == Admin && !IsSuperAdmin(caller) then UsersOutcome(403, users, None)
        else UsersOutcome(200, RemoveFirst(users, toId(queryId.value)), None)
  }

  /** Removing the first user with another id leaves the lookup of `id` as it was. */
  lemma RemoveFirstKeepsOthers(users: seq<User>, gone: string, id: string)
    requires gone != id
    ensures FindUser(RemoveFirst(users, gone), id) == FindUser(users, id)
  {
    var i := FindIndex(users, (u: User) => u.id == gone);
    if i >= 0 {
      FindSkipsRemoved(users, i, (u: User) => u.id == id);
    }
  }

  /**
   * The two DELETE branches part only where the query spells the caller's
   * own id differently from the caller's id string: there the corrected
   * branch refuses with 403, and everywhere else they agree.
   */
  lemma RemoveUserDiffersOnlyOnRespelledSelf(caller: User, queryId: Option<string>, users: seq<User>,
                                             isValid: string -> bool, toId: string -> string)
    ensures var asWritten := RemoveUserAsWritten(caller, queryId, users, isValid, toId);
      var corrected := RemoveUser(caller, queryId, users, isValid, toId);
      && (asWritten != corrected ==>
            Truthy(queryId) && isValid(queryId.value)
            && caller.id != queryId.value && caller.id == toId(queryId.value)
            && corrected == UsersOutcome(403, users, None))
      && (Truthy(queryId) && isValid(queryId.value) && caller.id != toId(queryId.value) ==> asWritten == corrected)
  {
  }

  /** However the id is spelled, an administrator cannot delete their own record. */
  lemma CallerSurvivesRemoval(caller: User, queryId: Option<string>, users: seq<User>,
                              isValid: string -> bool, toId: string -> string)
    ensures FindUser(RemoveUser(caller, queryId, users, isValid, toId).users, caller.id) == FindUser(users, caller.id)
  {
    var o := RemoveUser(caller, queryId, users, isValid, toId);
    if o.status == 200 {
      RemoveFirstKeepsOthers(users, toId(queryId.value), caller.id);
    }
  }

  // ---- the endpoint ----

  function HandleUsers(caller: User, req: UsersRequest, users: seq<User>,
                       isValid: string -> bool, toId: string -> string, freshId: string): (o: UsersOutcome)
    ensures req.Unsupported? ==> o == UsersOutcome(405, users, None)
    ensures o.status != 200 && o.status != 201 ==> o.users == users
    ensures o.created.Some? ==> o.created.value.password.None?
    ensures req.Create? ==> o == CreateUser(caller, req.body, users, freshId)
    ensures req.Update? ==> o == UpdateUser(caller, req.patch, users, isValid, toId)
    ensures req.Remove? ==> o == RemoveUser(caller, req.queryId, users, isValid, toId)
  {
    match req
    case Create(body) => CreateUser(caller, body, users, freshId)
    case Update(p) => UpdateUser(caller, p, users, isValid, toId)
    case Remove(q) => RemoveUser(caller, q, users, isValid, toId)
    case Unsupported => UsersOutcome(405, users, None)
  }

  /** The exported endpoint: `withAuth(handler, [ADMIN])`. */
  function UsersEndpoint(header: Option<string>, users: seq<User>, isValid: string -> bool, toId: string -> string,
                         req: UsersRequest, freshId: string): (o: UsersOutcome)
    ensures o.users != users ==>
      var g := Auth.Authenticate(header, users, [Admin], isValid, toId);
      g.Admitted? && g.user.role == Admin
    ensures Auth.Authenticate(header, users, [Admin], isValid, toId).Refused? ==>
      o == UsersOutcome(Auth.Authenticate(header, users, [Admin], isValid, toId).status, users, None)
    ensures var g := Auth.Authenticate(header, users, [Admin], isValid, toId);
      g.Admitted? ==> o == HandleUsers(g.user, req, users, isValid, toId, freshId)
  {
    match Auth.Authenticate(header, users, [Admin], isValid, toId)
    case Refused(status) => UsersOutcome(status, users, None)
    case Admitted(u) => HandleUsers(u, req, users, isValid, toId, freshId)
  }

  // ---- properties ----

  /** Creating a user and deleting it again by its new id restores the list. */
  lemma CreateThenRemove(caller: User, body: NewUserBody, users: seq<User>,
                         isValid: string -> bool, toId: string -> string, freshId: string)
    requires forall j :: 0 <= j < |users| ==> users[j].id != freshId
    requires freshId != "" && isValid(freshId) && toId(freshId) == freshId && caller.id != freshId
    requires body.role == Admin ==> IsSuperAdmin(caller) && Truthy(body.password)
    ensures var made := CreateUser(caller, body, users, freshId);
      made.status == 201
      && RemoveUser(caller, Some(freshId), made.users, isValid, toId) == UsersOutcome(200, users, None)
  {
    var made := CreateUser(caller, body, users, freshId);
    var d := NewDoc(caller, body, freshId);
    var s := made.users;
    assert s == users + [d];
    var i := FindIndex(s, (u: User) => u.id == freshId);
    assert s[|users|].id == freshId;
    assert i == |users|;
    assert FindUser(s, freshId) == Some(d);
    assert s[..i] + s[i + 1..] == users;
  }

  /** A patch that only names the id and password changes nothing but the password. */
  lemma PasswordOnlyPatch(u: User, id: string, pw: string, bySuper: bool)
    requires pw != ""
    ensures ApplyPatch(u, UserPatch(Some(id), None, None, Some(pw), None, None, None, None), bySuper)
         == u.(password := Some(pw))
  {
  }

  /** Applying the same patch twice is the same as applying it once. */
  lemma ApplyPatchIdempotent(u: User, p: UserPatch, bySuper: bool)
    ensures ApplyPatch(ApplyPatch(u, p, bySuper), p, bySuper) == ApplyPatch(u, p, bySuper)
  {
  }
}

=== FILE: wrappers.dfy ===
/** The optional value used for absent fields and failed lookups. */
module Wrappers {

  datatype Option<+T> = None | Some(value: T) {

    /** The value, or `default` when absent (the source's `?? default`). */
    function GetOr(default: T): (r: T)
      ensures Some? ==> r == value
      ensures None? ==> r == default
    {
      match this
      case Some(v) => v
      case None => default
    }
  }
}
